=== FILE: README.md ===
# Daybook state logic in Dafny

A model of the deterministic state logic behind the Daybook prototype, a React front end where
an individual contributor pastes daily work notes, reviews the items extracted from them, and
tracks tasks, projects and weekly reports. Each React state update (`setX(prev => ...)`) and
each derived value is written as a pure function over immutable datatypes, and lemmas state
the caps, partitions, involutions, round-trips and "nothing else changes" guarantees the pages
rely on.

The modules follow the program's structure:

- `Base` and `Text`: shared helpers. These are `Option`, the list operations (`Filter`, `Map`,
  `Find`, subsequence) and the JavaScript string operations the pages use (`trim` over
  ECMAScript white space, ASCII case mapping, `split` on one character, `join`, `startsWith`,
  `includes`, decimal rendering).
- `TaskStore` and `ProjectStore`: the two in-memory stores. Tasks cover add, update, delete,
  the open/completed toggle, the getters, and the category list with its cap of seven, slug ids
  and undeletable defaults. Projects cover add, update, delete and lookup. A JavaScript object
  spread with a `Partial` argument is a patch datatype. An optional field uses
  `Option<Option<T>>`, so that a key present with the value `undefined` overwrites.
- `ReviewLog`, `ParsedItemCard`, `InlineEdit`, `ConfidenceBadge` and `SourceSnippet`: the
  review session. This is the item list, the selection set and the deleted buffer, with edit,
  delete, undo and toggle and the invariants they keep. It also covers the card's edit history,
  the inline editor's save-or-cancel rule, the confidence levels and the snippet truncation.
- `AddCategoryDialog`, `NewLog`, `OnboardingSetup`, `SettingsProjects`, `QuickAddProject` and
  `QuickAddTask`: the validated forms with their check order and their caps.
- `GuidedTour`: the eight-step tour as a state machine.
- `TodaysPlan`, `OpenTasksByCategory`, `Dashboard`, `LogsView`, `GenerateReport`,
  `ViewReport`, `MainNav` and `ManagerDashboard`: the derived views. These are the filters and
  the three-way split of today's plan, the grouping by category and by date, the completion
  rate and greeting, the report's plain-text serialiser, the navigation filter and its
  active-path rule, and the initials.

The clock, the fresh ids and the calendar are parameters. A creation time, an id or `now`
is passed in, whether a time is "today" is a predicate argument, a log's date heading is a
function argument, the hour for the greeting and the day difference for "n days ago" are
integers, and the report form reads `now` as one moment: a day number counted from a
Monday plus the milliseconds past midnight. The signed-in user and
the manager role are parameters too.

## Model

| member | source | states |
|---|---|---|
| TaskStore.Init | src/contexts/TaskContext.tsx:163-164 | the provider starts with the given tasks and seven categories, all default, whose ids are action_item, follow_up, meeting, decision, writing, blocker and what_next in that order |
| TaskStore.AddTask | src/contexts/TaskContext.tsx:166-173 | addTask appends exactly one task, built from the argument with the fresh id and creation time; the earlier tasks and the categories are untouched |
| TaskStore.AddTaskKeepsIdsDistinct | src/contexts/TaskContext.tsx:166-173 | when the fresh id is carried by no task, the task ids stay pairwise distinct |
| TaskStore.UpdateTask | src/contexts/TaskContext.tsx:175-179 | the patch is merged into every task carrying the id and into no other; the list keeps its length and order |
| TaskStore.DeleteTask | src/contexts/TaskContext.tsx:181-183 | a task survives exactly when its id differs; the survivors keep their order |
| TaskStore.Flip | src/contexts/TaskContext.tsx:188-194 | the status changes; a completion time is present exactly when the new status is completed, and then it is the current time; no other field changes |
| TaskStore.ToggleTaskStatus | src/contexts/TaskContext.tsx:185-199 | exactly the tasks carrying the id are flipped; every task keeps its id and place |
| TaskStore.ToggleTwiceRestores | src/contexts/TaskContext.tsx:185-199 | two toggles of one id restore every status; an open task comes back without completion time, a completed one with the second toggle's time; other tasks and the categories do not change |
| TaskStore.ToggleKeepsWellFormed | src/contexts/TaskContext.tsx:189-193 | a toggle keeps every task's completion time present exactly when it is completed |
| TaskStore.TasksByProject | src/contexts/TaskContext.tsx:201-204 | getTasksByProject lists exactly the project's tasks, in store order |
| TaskStore.OpenTasks | src/contexts/TaskContext.tsx:206-209 | getOpenTasks lists exactly the open tasks, in store order |
| TaskStore.OpenCompletedPartition | src/contexts/TaskContext.tsx:17 | with two statuses, the open and the completed tasks together are the whole list, each task counted once |
| TaskStore.TasksByCategory | src/contexts/TaskContext.tsx:211-214 | getTasksByCategory lists exactly the category's tasks, in store order |
| TaskStore.CanAddCategory | src/contexts/TaskContext.tsx:216-218 | a category can be added exactly when fewer than seven exist |
| TaskStore.CollapseSpaces | src/contexts/TaskContext.tsx:226 | the whitespace replacement leaves no whitespace and changes no string that has none |
| TaskStore.CollapseSpacesWord | src/contexts/TaskContext.tsx:226 | a whitespace run of any length after a word becomes exactly one underscore |
| TaskStore.KeepSlugChars | src/contexts/TaskContext.tsx:226 | the character filter keeps exactly the characters a-z, 0-9 and '_' of its input, in their order, and changes no string made of them |
| TaskStore.Slug | src/contexts/TaskContext.tsx:226 | the derived category id consists of a-z, 0-9 and '_' only, and a label already made of those is its own id |
| TaskStore.SlugOfWord | src/contexts/TaskContext.tsx:226 | for a label with no whitespace the id is the lower-cased label with every character other than a-z, 0-9 and '_' removed |
| TaskStore.SlugSplitsAtRun | src/contexts/TaskContext.tsx:226 | a run of whitespace after a word becomes exactly one '_' between the word's id and the id of the rest of the label |
| TaskStore.SlugIdempotent | src/contexts/TaskContext.tsx:226 | deriving the id of an id gives the id back |
| TaskStore.AddCategory | src/contexts/TaskContext.tsx:220-235 | addCategory succeeds exactly when fewer than seven categories exist and none has the label's slug as id; on success one custom category with that id and label is appended, on failure nothing changes; tasks never change |
| TaskStore.DeleteCategory | src/contexts/TaskContext.tsx:237-253 | deleteCategory succeeds exactly when the first category with the id is custom; then the categories with the id disappear and exactly the tasks in that category move to 'action_item'; on failure nothing changes |
| TaskStore.Reassign | src/contexts/TaskContext.tsx:245-250 | a task of the deleted category moves to 'action_item', no field but the category changes, and the task is untouched exactly when it was elsewhere or the category is 'action_item' |
| TaskStore.DeleteCategoryOrphansNothing | src/contexts/TaskContext.tsx:245-250 | after a successful deletion no task and no category carries the deleted id |
| TaskStore.Step | src/contexts/TaskContext.tsx:166-253 | only addCategory and deleteCategory touch the category list; addCategory leaves it or appends the custom category named by the label's slug, and deleteCategory keeps only categories already listed |
| TaskStore.Run | src/contexts/TaskContext.tsx:166-253 | a sequence of operations without a category operation leaves the category list as it was |
| TaskStore.CategoryCapHolds | src/contexts/TaskContext.tsx:216-253 | from a store with at most seven categories, every sequence of store operations keeps at most seven |
| TaskStore.StepKeepsDefaults | src/contexts/TaskContext.tsx:220-253 | from the seven default categories, any single operation leaves the category list unchanged |
| TaskStore.CategoriesNeverChange | src/contexts/TaskContext.tsx:63-71 | starting from the seven default categories, which cannot be deleted and fill the cap, no sequence of operations changes the category list |
| TaskStore.AddCategoryAlwaysFails | src/contexts/TaskContext.tsx:220-223 | in every store reachable from the initial one, addCategory fails and changes nothing |
| TaskStore.CompletedTasks | src/pages/Dashboard.tsx:51 | the completed tasks are exactly the tasks with status completed, in store order |
| ProjectStore.EmptyToNone | src/pages/SettingsProjects.tsx:61-62 | `field \|\| undefined` gives no value exactly for the empty text and the text itself otherwise |
| ProjectStore.NoneToEmpty | src/pages/SettingsProjects.tsx:44-45 | `field \|\| ''` gives the empty text exactly for no value or an empty value, and the value otherwise |
| ProjectStore.EmptyNoneRoundTrip | src/pages/SettingsProjects.tsx:40-66 | filling an edit field from a project and saving it unchanged gives the project's value back unless that value was the empty text; saving a field and filling it again gives the field back |
| ProjectStore.AddProject | src/contexts/ProjectContext.tsx:45-53 | addProject appends one project with the caller's name, pod and quarter, the fresh id, active status and the creation time; earlier projects are untouched |
| ProjectStore.MergeNoChange | src/contexts/ProjectContext.tsx:57 | spreading an empty patch leaves the project as it was |
| ProjectStore.UpdateProject | src/contexts/ProjectContext.tsx:55-59 | the patch is merged into every project carrying the id and into no other; the list keeps its length and order |
| ProjectStore.DeleteProject | src/contexts/ProjectContext.tsx:61-63 | a project survives exactly when its id differs; the survivors keep their order |
| ProjectStore.GetProject | src/contexts/ProjectContext.tsx:65-68 | getProject finds nothing exactly when no project carries the id, and otherwise the first listed project carrying it: every project before it carries another id |
| ProjectStore.GetProjectAt | src/contexts/ProjectContext.tsx:65-68 | with distinct ids, getProject of a listed project's id gives that project |
| ProjectStore.AddThenGet | src/contexts/ProjectContext.tsx:45-68 | after adding with an unused id, getProject of that id gives the new project |
| ProjectStore.UpdateThenGet | src/contexts/ProjectContext.tsx:55-68 | after an update that keeps the id, getProject of that id gives the first such project merged with the patch |
| ProjectStore.DeleteThenGet | src/contexts/ProjectContext.tsx:61-68 | after deleting an id, getProject of it finds nothing |
| ProjectStore.DeleteKeepsIdsDistinct | src/contexts/ProjectContext.tsx:61-63 | deleting keeps the remaining ids pairwise distinct |
| ProjectStore.AddAll | src/contexts/ProjectContext.tsx:45-53 | a series of addProject calls appends the new projects in call order, the k-th with the k-th id, after the old ones |
| ProjectStore.AddAllKeepsIdsDistinct | src/contexts/ProjectContext.tsx:48 | ids that are pairwise distinct and unused keep all project ids distinct after a series of additions |
| ReviewLog.Ids | src/pages/ReviewLog.tsx:126 | the id set holds exactly the ids some item carries |
| ReviewLog.Init | src/pages/ReviewLog.tsx:124-127 | the screen starts with the parsed items, all of their ids selected, and an empty undo buffer |
| ReviewLog.HandleEdit | src/pages/ReviewLog.tsx:145-149 | the patch is merged into exactly the items carrying the id; selection and buffer are untouched |
| ReviewLog.HandleDelete | src/pages/ReviewLog.tsx:151-162 | an item stays listed exactly when its id differs; the id leaves the selection; the first item with the id, if any, is appended to the buffer and otherwise the buffer is unchanged |
| ReviewLog.UndoFrom | src/pages/ReviewLog.tsx:164-171 | with no buffered item carrying the id nothing changes; otherwise the first such item is appended to the list, all such items leave the buffer and the id is selected |
| ReviewLog.HandleUndo | src/pages/ReviewLog.tsx:164-171 | reading the current buffer: nothing changes unless a buffered item has the id, and then a buffered item with the id is appended after the unchanged list and the id is selected |
| ReviewLog.ToggleSelection | src/pages/ReviewLog.tsx:173-183 | the id's membership in the selection flips and nothing else changes |
| ReviewLog.ToggleTwice | src/pages/ReviewLog.tsx:173-183 | toggling the same id twice restores the session |
| ReviewLog.ConfirmMessage | src/pages/ReviewLog.tsx:188 | the confirmation reads "Plan saved! ", the number of selected ids in decimal, then " tasks added.", and the number can be read back from the text |
| ReviewLog.CanConfirm | src/pages/ReviewLog.tsx:216 | in a consistent session the confirm button is enabled exactly when no submit is under way and some listed item is selected |
| ReviewLog.InitInv | src/pages/ReviewLog.tsx:124-127 | with distinct item ids the start state meets the invariant: distinct ids in list and buffer, no id in both, only listed ids selected |
| ReviewLog.EditInv | src/pages/ReviewLog.tsx:145-149 | an edit that leaves the id field alone keeps the invariant |
| ReviewLog.DeleteInv | src/pages/ReviewLog.tsx:151-162 | a delete keeps the invariant |
| ReviewLog.UndoInv | src/pages/ReviewLog.tsx:164-171 | an undo keeps the invariant |
| ReviewLog.ToggleInv | src/pages/ReviewLog.tsx:173-183 | toggling a listed id keeps the invariant |
| ReviewLog.DeleteListed | src/pages/ReviewLog.tsx:151-162 | with distinct ids, deleting a listed item moves exactly that item to the end of the buffer |
| ReviewLog.UndoLast | src/pages/ReviewLog.tsx:164-171 | undoing the id of the last buffered item, when no other buffered item has that id, appends it to the list, removes only it from the buffer and selects its id |
| ReviewLog.DeleteThenUndo | src/pages/ReviewLog.tsx:151-171 | deleting a listed item and then undoing it through the current handler gives back the same items with that one last, the buffer as before, and its id selected |
| ReviewLog.ToastUndoRestoresNothing | src/pages/ReviewLog.tsx:164-171 | the undo the card's toast holds reads the buffer from before the deletion, so it leaves the session as the deletion left it and the item stays gone |
| ReviewLog.Group | src/pages/ReviewLog.tsx:129-133 | every group is non-empty and holds only items of the list carrying its category |
| ReviewLog.GroupIsByCategory | src/pages/ReviewLog.tsx:129-133 | the reduce has a key exactly for each category some item has, and under it exactly that category's items in list order |
| ReviewLog.Lookup | src/pages/ReviewLog.tsx:249 | looking up a category gives exactly its items in list order, an absent key counting as empty |
| ReviewLog.Sections | src/pages/ReviewLog.tsx:248-250 | there are no more headings than categories in the order, and each heading is a category of the order with a non-empty list |
| ReviewLog.SectionsSound | src/pages/ReviewLog.tsx:248-250 | every shown heading is one of the ordered categories, is non-empty, and holds exactly its category's items |
| ReviewLog.SectionsComplete | src/pages/ReviewLog.tsx:248-250 | every ordered category that some item has gets a heading |
| ReviewLog.SectionsOrdered | src/pages/ReviewLog.tsx:135-143 | the headings appear in the fixed category order |
| ReviewLog.ShownIffKnownCategory | src/pages/ReviewLog.tsx:135-250 | an item is shown under some heading exactly when it is listed and its category is one of the seven in the order |
| ReviewLog.BlockerSectionIsStyled | src/components/review/ParsedItemCard.tsx:55 | the Blocker heading holds exactly the listed cards drawn with the blocker styling, in list order |
| ParsedItemCard.TextPatch | src/components/review/ParsedItemCard.tsx:83 | the undo patch replaces the text and no other field of any item |
| ParsedItemCard.SaveEdit | src/components/review/ParsedItemCard.tsx:61-90 | saving an edit asks the owner to set the new text and append one history entry from the previous text to the new one, leaving the id alone; the toast's Undo asks to set the previous text |
| ParsedItemCard.SaveThenUndo | src/components/review/ParsedItemCard.tsx:61-90 | saving then undoing restores the text and every other field except the history, which keeps the new entry |
| ParsedItemCard.Delete | src/components/review/ParsedItemCard.tsx:92-105 | deleting calls the owner's delete with the item's id, and the toast's Undo calls the owner's undo with that id exactly when an undo handler was given |
| ParsedItemCard.LowConfidence | src/components/review/ParsedItemCard.tsx:116 | the low-confidence highlight is shown exactly when the badge is at its low level and shows its review suffix |
| ConfidenceBadge.LevelOf | src/components/review/ConfidenceBadge.tsx:24 | the level is high exactly from 80, medium exactly from 60 below 80, low exactly below 60 |
| ConfidenceBadge.Dots | src/components/review/ConfidenceBadge.tsx:25 | two to four dots are filled: four exactly for high, two exactly for low |
| ConfidenceBadge.DotsMonotone | src/components/review/ConfidenceBadge.tsx:24-25 | a higher score never fills fewer dots |
| ConfidenceBadge.FilledDotsAreAPrefix | src/components/review/ConfidenceBadge.tsx:56-64 | the filled dots are always the first ones, at least the first two, and the fourth only at high level |
| ConfidenceBadge.Label | src/components/review/ConfidenceBadge.tsx:66 | the label is the level name, " (", the score in decimal and "%)", with exactly the score's digits between the parentheses |
| ConfidenceBadge.LabelReadsBack | src/components/review/ConfidenceBadge.tsx:66 | for a non-negative score the text between "<level> (" and "%)" is all digits and reads back as the score |
| ConfidenceBadge.Render | src/components/review/ConfidenceBadge.tsx:19-77 | the badge has the score's level and dots, the review suffix (a bullet, then " Needs review") exactly below 60, and the info icon and tooltip exactly when details are not switched off and reasoning is present |
| ConfidenceBadge.TooltipLines | src/components/review/ConfidenceBadge.tsx:84-108 | one line per shown part: the patterns line first when patterns are present and non-empty, the keywords line next when keywords are, each joined with ", ", and the factor heading last exactly when factors are given; no line otherwise |
| ConfidenceBadge.TooltipTellsParts | src/components/review/ConfidenceBadge.tsx:84-108 | a line opens with "Patterns: " exactly when patterns are shown and with "Keywords: " exactly when keywords are, so the tooltip tells which parts the reasoning has |
| ConfidenceBadge.Utf8 | src/components/review/ConfidenceBadge.tsx:67 | a code point below U+10000 takes one to three bytes, one exactly below U+0080, continuation bytes lying in 0x80-0xBF |
| ConfidenceBadge.NeedsReviewIsMisdecoded | src/components/review/ConfidenceBadge.tsx:67 | the three characters before " Needs review" in the source text are the bullet's UTF-8 bytes read as Windows-1252, so the shown text differs from the intended suffix |
| SourceSnippet.SliceTo | src/components/review/SourceSnippet.tsx:20 | `slice(0, end)` keeps the first `end` characters, all of them when the text is shorter, and for a negative end drops that many from the back |
| SourceSnippet.IsTruncated | src/components/review/SourceSnippet.tsx:18 | for a non-negative maximum the snippet counts as truncated exactly when cutting it at the maximum changes it; a negative maximum always truncates |
| SourceSnippet.DisplayText | src/components/review/SourceSnippet.tsx:18-21 | a collapsed source longer than the maximum shows its first maximum characters and "..."; a short or expanded one shows whole; a collapsed display is at most three characters over the maximum and, when cut, is a prefix of the source followed by "..." |
| SourceSnippet.ToggleControl | src/components/review/SourceSnippet.tsx:29-42 | the show-more/less control exists exactly when the source is cut, and reads "Show more" exactly while it is collapsed |
| SourceSnippet.DefaultCut | src/components/review/SourceSnippet.tsx:14-21 | with the default maximum of 100, a source of at most 100 characters is shown whole and a longer one as its first 100 and "..." |
| InlineEdit.Open | src/components/review/InlineEdit.tsx:13 | the field starts with the current value |
| InlineEdit.Type | src/components/review/InlineEdit.tsx:48 | typing replaces the field's text and keeps the original value |
| InlineEdit.Commit | src/components/review/InlineEdit.tsx:26-30 | the editor saves exactly when the field is not blank and differs, before trimming, from the original; what it saves is the trimmed text and is non-empty |
| InlineEdit.KeyDown | src/components/review/InlineEdit.tsx:23-34 | Enter commits, Escape cancels, and any other key reports nothing |
| InlineEdit.Blur | src/components/review/InlineEdit.tsx:36-42 | leaving the field gives the outcome Enter gives |
| InlineEdit.SavedTextIsTrimmed | src/components/review/InlineEdit.tsx:27 | the saved text is unchanged by trimming and has no whitespace at either end |
| InlineEdit.UnchangedOrBlankCancels | src/components/review/InlineEdit.tsx:26 | committing without typing, or with a blank field, cancels |
| InlineEdit.PaddingSavesOriginal | src/components/review/InlineEdit.tsx:26-27 | the difference is checked before trimming, so a space typed before a trimmed value saves the original value itself |
| AddCategoryDialog.FirstFailure | src/components/AddCategoryDialog.tsx:32-47 | the checks are made in order: a blank name is required, over 20 characters is too long, a full list is at the cap; each message appears exactly under its condition, and the store is asked exactly when all three pass |
| AddCategoryDialog.Submit | src/components/AddCategoryDialog.tsx:28-58 | the dialog ends without a message exactly when the checks pass and addCategory accepts the trimmed name, and then it is closed and cleared and one custom category is appended; otherwise the store is unchanged, the name and open state stay, and exactly one of the four messages shows, the duplicate one when the store refused |
| AddCategoryDialog.AddedLabelIsTrimmedAndShort | src/components/AddCategoryDialog.tsx:32-49 | a category added through the dialog has a trimmed label of 1 to 20 characters |
| AddCategoryDialog.ReachableStoresRefuse | src/components/AddCategoryDialog.tsx:44-47 | in every store reachable from the initial one, a valid name is refused with the cap message |
| AddCategoryDialog.Type | src/components/AddCategoryDialog.tsx:95-98 | typing replaces the name and clears the message |
| AddCategoryDialog.RemainingSlots | src/components/AddCategoryDialog.tsx:60 | the free places and the categories add up to seven, and there is a free place exactly when a category can be added |
| AddCategoryDialog.TriggerDisabled | src/components/AddCategoryDialog.tsx:66 | the trigger is disabled exactly when no slot remains, and then no label can be added |
| AddCategoryDialog.SlotsText | src/components/AddCategoryDialog.tsx:78-86 | the count line reads "1 slot remaining" for one, the number and " slots remaining" for more, and the delete advice when none is left |
| TodaysPlan.FilteredTasks | src/pages/TodaysPlan.tsx:45-49 | a task is shown exactly when it passes both the project and the category filter, in store order, and with both filters at 'all' the whole list is shown |
| TodaysPlan.FilteredSplit | src/pages/TodaysPlan.tsx:51-52 | the open and the completed lists together hold every shown task exactly once |
| TodaysPlan.MustDoToday | src/pages/TodaysPlan.tsx:59-61 | the must-do section holds exactly the open action items created today and the open follow-ups |
| TodaysPlan.Blockers | src/pages/TodaysPlan.tsx:56-62 | the blockers section holds exactly the open blockers, in list order |
| TodaysPlan.OtherTasks | src/pages/TodaysPlan.tsx:63-65 | the other section holds exactly the open tasks in neither section above, in list order |
| TodaysPlan.MustDoTodayContents | src/pages/TodaysPlan.tsx:59-61 | Must Do Today is the open action items created today followed by all open follow-ups, each in list order; an open task is in it exactly when it is one of those |
| TodaysPlan.SectionsPartitionOpen | src/pages/TodaysPlan.tsx:59-65 | the three sections are pairwise disjoint and together hold every open task as often as the open list does |
| TodaysPlan.NoOpenIffSectionsEmpty | src/pages/TodaysPlan.tsx:54-65 | there is no open filtered task exactly when all three sections are empty |
| TodaysPlan.ShowsEmptyState | src/pages/TodaysPlan.tsx:317 | the "No tasks for today" state shows exactly when completed tasks are hidden and all three sections are empty, whatever "today" is |
| TodaysPlan.StatCounts | src/pages/TodaysPlan.tsx:54-57 | the four stat cards count the open shown action items, follow-ups, blockers and decisions |
| TodaysPlan.ClickStat | src/pages/TodaysPlan.tsx:214-245 | clicking a stat card sets the category filter to its category and changes nothing else |
| TodaysPlan.HandleToggleTask | src/pages/TodaysPlan.tsx:88-101 | the store toggles the id; the toast reports completion, with an undo of the same id, exactly when the first task with the id was open before, and reopening otherwise, including when no task has the id |
| TodaysPlan.CompletedToastIff | src/pages/TodaysPlan.tsx:90-91 | the task find returns is open exactly when the first task carrying the id is open |
| TodaysPlan.ToggleUndoRestoresStatus | src/pages/TodaysPlan.tsx:92-97 | the undo of the completion toast puts every task's status back |
| TodaysPlan.DeleteCategoryEntry | src/pages/TodaysPlan.tsx:273-284 | the store deletes the category; the filter returns to 'all' exactly when the deletion succeeded and that category was the active filter, and nothing else on the page changes |
| TodaysPlan.HasDeleteControl | src/pages/TodaysPlan.tsx:273 | a category entry has the delete control exactly when deleteCategory would accept that category, in any store that lists the category and whose category ids are distinct |
| TodaysPlan.DeleteActiveCategoryShowsAll | src/pages/TodaysPlan.tsx:277-282 | after deleting the active custom category, the list shown is the project's unfiltered list |
| TodaysPlan.ClearFilters | src/pages/TodaysPlan.tsx:302-310 | Clear Filters sets both filters to 'all', after which the button is hidden and every task passes |
| TodaysPlan.ShowsClearFilters | src/pages/TodaysPlan.tsx:302 | the Clear Filters button shows exactly when clearing both filters would change the page state |
| TodaysPlan.ClickRow | src/pages/TodaysPlan.tsx:122 | clicking a row expands it, or collapses it when it was the expanded one, and nothing else changes |
| OpenTasksByCategory.Groups | src/components/dashboard/OpenTasksByCategory.tsx:84-89 | every group is a listed category with its non-empty list of open tasks in store order, and the groups follow the order of the category list |
| OpenTasksByCategory.GroupsComplete | src/components/dashboard/OpenTasksByCategory.tsx:84-89 | every listed category with an open task has its group |
| OpenTasksByCategory.UncategorisedHidden | src/components/dashboard/OpenTasksByCategory.tsx:84-89 | an open task whose category is not listed appears in no group |
| OpenTasksByCategory.CategorisedShown | src/components/dashboard/OpenTasksByCategory.tsx:84-89 | an open task whose category is listed appears in that category's group |
| OpenTasksByCategory.OnlyUncategorisedShowsNothing | src/components/dashboard/OpenTasksByCategory.tsx:84-111 | when every open task lies outside the category list, the panel shows neither a group nor the all-caught-up message |
| OpenTasksByCategory.ShowsEmptyMessage | src/components/dashboard/OpenTasksByCategory.tsx:91-97 | the "all caught up" message shows exactly when no task is open |
| OpenTasksByCategory.HandleToggle | src/components/dashboard/OpenTasksByCategory.tsx:73-81 | the toggle flips the status of exactly the tasks carrying the id, keeps every other task and the categories, and hands the same id to the toast's Undo |
| OpenTasksByCategory.ToggleThenUndo | src/components/dashboard/OpenTasksByCategory.tsx:73-81 | the toast's Undo toggles the same id again, which restores every task's status and leaves the categories alone |
| Dashboard.CountsAddUp | src/pages/Dashboard.tsx:50-56 | the open and completed tasks add up to the total, and the blocker, follow-up and action-item cards together count no more than the open tasks |
| Dashboard.RoundRatio | src/pages/Dashboard.tsx:57 | the rounded ratio is the whole number within half a unit of `num / den`, halves rounding up |
| Dashboard.CompletionRate | src/pages/Dashboard.tsx:57 | the rate is 0 for no tasks and otherwise the completed share of the tasks as a percent rounded half up, never above 100 |
| Dashboard.RateMonotone | src/pages/Dashboard.tsx:57 | for the same number of tasks, more completed tasks never give a lower rate |
| Dashboard.RateExtremes | src/pages/Dashboard.tsx:57 | nothing completed gives 0, everything completed gives 100 |
| Dashboard.RateAtLeast | src/pages/Dashboard.tsx:57 | the rounded rate reaches k percent exactly when 200 times the completed count reaches (2k-1) times the total |
| Dashboard.TrophyLit | src/pages/Dashboard.tsx:215 | the trophy lights exactly when there are tasks and 200 times the completed count reaches 99 times the total |
| Dashboard.CrushingIt | src/pages/Dashboard.tsx:224-229 | "Crushing it!" shows exactly when there are tasks and 200 times the completed count reaches 159 times the total |
| Dashboard.Greeting | src/pages/Dashboard.tsx:62-67 | morning exactly before 12, afternoon exactly from 12 before 17, evening exactly from 17 |
| Dashboard.FirstName | src/pages/Dashboard.tsx:60 | "there" without a user or when the name starts with a space or is empty; otherwise the non-empty, space-free start of the name that runs to the first space or the end |
| NewLog.IsValidUrl | src/pages/NewLog.tsx:128-131 | an empty URL passes; any other passes exactly when it begins with "http://" or "https://", so it is at least seven characters and begins with "http" |
| NewLog.IsValid | src/pages/NewLog.tsx:133 | a valid form has a project and notes that are not blank and hold at least ten characters; a form with a project and already-trimmed notes of ten characters or more is valid |
| NewLog.TypeNotes | src/pages/NewLog.tsx:288 | the notes become the longest prefix of the typed value within 10,000 characters: the whole value when it fits, exactly 10,000 characters otherwise; nothing else changes |
| NewLog.CounterWarns | src/pages/NewLog.tsx:294 | the character counter warns exactly when the notes exceed nine tenths of the cap |
| NewLog.AddAttachment | src/pages/NewLog.tsx:105-112 | at five attachments the form is unchanged; below five one empty attachment with the fresh id is appended and the list is shown, and nothing else changes |
| NewLog.RemoveAttachment | src/pages/NewLog.tsx:114-120 | the attachments kept are exactly those without the id, in their order; the list is hidden when none is left and otherwise keeps its visibility |
| NewLog.ChangeAttachment | src/pages/NewLog.tsx:122-126 | the attachments with the id have the named field set to the value and every other attachment is unchanged, at the same positions |
| NewLog.AttachmentCapHolds | src/pages/NewLog.tsx:105-126 | from at most five attachments, adding, removing and changing leave at most five |
| NewLog.ToggleMeeting | src/pages/NewLog.tsx:79-89 | the meeting's membership in the selection flips and every other meeting's stays |
| NewLog.ToggleMeetingTwice | src/pages/NewLog.tsx:79-89 | toggling a meeting twice restores the form |
| NewLog.ImportMeetings | src/pages/NewLog.tsx:91-103 | with nothing selected the form is unchanged; otherwise the notes are kept as a prefix, followed by the separator when non-empty and by the selected meetings' text, the selection is emptied and the panel closed |
| NewLog.MeetingText | src/pages/NewLog.tsx:96 | a meeting is imported as text opening with its title and start time and ending in a newline |
| NewLog.ImportedBlock | src/pages/NewLog.tsx:94-97 | the imported block is empty exactly when no listed meeting is selected |
| NewLog.ImportOne | src/pages/NewLog.tsx:94-99 | importing a single selected meeting appends exactly that meeting's text after the separator |
| NewLog.ImportPassesCap | src/pages/NewLog.tsx:91-103 | importing a meeting into notes already at 10,000 characters makes them longer than the typing cap allows |
| NewLog.Submit | src/pages/NewLog.tsx:135-152 | an invalid form is refused; a valid form with an attachment whose URL fails the check stops with the URL message; a valid form whose URLs all pass is submitted |
| NewLog.SubmitDisabled | src/pages/NewLog.tsx:367 | the submit button is enabled exactly when no submit is under way and submitting would not be refused as invalid |
| OnboardingSetup.InitInv | src/pages/OnboardingSetup.tsx:35-37 | the form starts with one row, so it meets the one-to-four-rows, distinct-ids invariant |
| OnboardingSetup.AddRow | src/pages/OnboardingSetup.tsx:40-46 | at four rows nothing changes; below four one empty row with the fresh id is appended and the errors stay |
| OnboardingSetup.RemoveRow | src/pages/OnboardingSetup.tsx:48-58 | at one row nothing changes; otherwise a row survives exactly when its id differs, order is kept, and the id's error entry is dropped |
| OnboardingSetup.ChangeRow | src/pages/OnboardingSetup.tsx:60-70 | the named field of every row carrying the id takes the value, other rows are untouched, and the id's error entry is dropped |
| OnboardingSetup.CheckOf | src/pages/OnboardingSetup.tsx:77-86 | what a row's check reads: its id, the length of its trimmed name, and its name lower-cased and trimmed |
| OnboardingSetup.Key | src/pages/OnboardingSetup.tsx:83-86 | the duplicate key has no upper-case ASCII letter and is empty exactly when the name is blank |
| OnboardingSetup.RowError | src/pages/OnboardingSetup.tsx:77-85 | the four checks in their order: empty is required, one character too short, over 50 too long, a name seen before a duplicate, else no error; each outcome exactly under its condition |
| OnboardingSetup.SeenIff | src/pages/OnboardingSetup.tsx:86 | a compared name is in the seen set exactly when some earlier row has it |
| OnboardingSetup.Errors | src/pages/OnboardingSetup.tsx:72-90 | every key of the error map is the id of some row |
| OnboardingSetup.ErrorKeysAreRowIds | src/pages/OnboardingSetup.tsx:72-90 | every key of the error map built from the rows' checks is the id of some row |
| OnboardingSetup.Validate | src/pages/OnboardingSetup.tsx:72-91 | the computed error map replaces the shown one, and validation passes exactly when that map is empty |
| OnboardingSetup.ErrorsEmptyIff | src/pages/OnboardingSetup.tsx:72-91 | the error map is empty exactly when every row passes its check against the names before it |
| OnboardingSetup.AllGoodIff | src/pages/OnboardingSetup.tsx:72-91 | the error map is empty exactly when every length is 2 to 50 and no two compared names are equal |
| OnboardingSetup.ValidateIffAllGood | src/pages/OnboardingSetup.tsx:72-91 | validation passes exactly when every trimmed name has 2 to 50 characters and no two rows share a compared name |
| OnboardingSetup.ChecksMeanRows | src/pages/OnboardingSetup.tsx:77-86 | the checked rows are all good exactly when the rows themselves are |
| OnboardingSetup.ErrorKeysAreIds | src/pages/OnboardingSetup.tsx:78-84 | every key of the error map is the id of some row |
| OnboardingSetup.ErrorOfRow | src/pages/OnboardingSetup.tsx:76-87 | with distinct ids, a row has an entry exactly when its check fails, and the entry is that check's message |
| OnboardingSetup.ErrorUnderRowId | src/pages/OnboardingSetup.tsx:76-87 | the same for the form's rows: the message under a row's id is the message of its own check against the rows before it |
| OnboardingSetup.FirstOccurrenceNotDuplicate | src/pages/OnboardingSetup.tsx:83 | the first row with a given name is never reported as a duplicate |
| OnboardingSetup.SeenHoldsFailedRows | src/pages/OnboardingSetup.tsx:86 | a row whose check failed still adds its name to the seen set |
| OnboardingSetup.ValidateImpliesContinue | src/pages/OnboardingSetup.tsx:115 | a form that validates has the Continue button enabled |
| OnboardingSetup.CanContinue | src/pages/OnboardingSetup.tsx:115 | Continue is enabled exactly when no row's check, against the rows before it, reports a missing or one-character name |
| OnboardingSetup.ContinueMeansChecks | src/pages/OnboardingSetup.tsx:115 | every trimmed name has two characters exactly when no row's check reports a missing or one-character name |
| OnboardingSetup.SameNamesFailValidation | src/pages/OnboardingSetup.tsx:72-115 | two rows with the same name of at least two characters enable Continue yet fail validation |
| OnboardingSetup.ProjectOf | src/pages/OnboardingSetup.tsx:103-107 | the project submitted for a row has the trimmed name and no pod or quarter for an empty field, the field itself otherwise |
| OnboardingSetup.SubmitAsWritten | src/pages/OnboardingSetup.tsx:93-108 | a failing validation adds nothing; a passing one appends one project per row, in row order, every one with the id of the same clock reading |
| OnboardingSetup.SubmitAsWrittenDuplicatesIds | src/pages/OnboardingSetup.tsx:102-108 | submitting two or more rows in one tick gives the first two new projects the same id |
| OnboardingSetup.Submit | src/pages/OnboardingSetup.tsx:93-108 | as above, but the k-th row's project gets the k-th of the supplied ids |
| OnboardingSetup.SubmitKeepsIdsDistinct | src/pages/OnboardingSetup.tsx:102-108 | with distinct new ids, submitting keeps every project id distinct |
| OnboardingSetup.OperationsKeepInv | src/pages/OnboardingSetup.tsx:40-91 | adding with a fresh id, removing, changing and validating each keep one to four rows with distinct ids |
| SettingsProjects.FormOf | src/pages/SettingsProjects.tsx:42-46 | the form holds the project's name, and its pod or quarter text is empty exactly when the project has none or an empty one |
| SettingsProjects.StartEdit | src/pages/SettingsProjects.tsx:40-47 | the project becomes the one being edited, with its fields in the edit form; the add form is untouched |
| SettingsProjects.CancelEdit | src/pages/SettingsProjects.tsx:49-52 | nothing is being edited and the edit form is empty; the add form is untouched |
| SettingsProjects.SavedPatch | src/pages/SettingsProjects.tsx:59-63 | the update sets the trimmed name and sets pod and quarter, an empty text becoming absent, and leaves id, status and creation time alone |
| SettingsProjects.SaveEdit | src/pages/SettingsProjects.tsx:54-66 | a blank name is refused and nothing changes; otherwise the edited project takes the form's fields through updateProject, the list is unchanged when nothing was being edited, and the edit closes |
| SettingsProjects.UnchangedSaveKeepsProject | src/pages/SettingsProjects.tsx:40-66 | opening a project with a trimmed non-blank name and no empty-text pod or quarter for editing and saving it at once leaves that project and the list length as they were |
| SettingsProjects.AddFromForm | src/pages/SettingsProjects.tsx:68-85 | a blank name is refused first and a list of four projects, active or archived, second, and a refusal changes nothing; otherwise one active project with the trimmed name and the chosen pod and quarter is appended and the add form is reset and closed |
| SettingsProjects.AddKeepsCap | src/pages/SettingsProjects.tsx:73-81 | from at most four projects, adding leaves at most four |
| SettingsProjects.Delete | src/pages/SettingsProjects.tsx:87-90 | the page deletes through deleteProject: a project is kept exactly when it was listed and carries another id, every copy of a kept project value survives, and the kept projects stay in their order |
| QuickAddProject.Submit | src/components/dashboard/QuickAddProject.tsx:35-54 | a blank name is refused first and four or more active projects second, and a refusal changes nothing; otherwise one active project is appended with the trimmed name, an empty pod or quarter stored as absent, and the fields are cleared and the dialog closed |
| QuickAddProject.SubmitKeepsActiveCap | src/components/dashboard/QuickAddProject.tsx:40-48 | from at most four active projects, a submit leaves at most four |
| QuickAddProject.ArchivedDoNotCount | src/components/dashboard/QuickAddProject.tsx:33-43 | with a non-blank name and fewer than four active projects a project is added, however many archived projects there are |
| QuickAddTask.Submit | src/components/dashboard/QuickAddTask.tsx:51-70 | blank text is refused first and a missing project second, and a refusal changes nothing; otherwise one open task with the fresh id, the trimmed text, the chosen category and project and the current time is appended, the categories stay, and the dialog is closed with the text cleared and the category back at 'action_item' while the project stays |
| QuickAddTask.AddedTaskIsOpenAndTrimmed | src/components/dashboard/QuickAddTask.tsx:60-65 | the task added is open, has no completion time, and its text is non-empty and already trimmed |
| QuickAddTask.CreateProject | src/components/dashboard/QuickAddTask.tsx:37-49 | a project is created exactly when the trimmed name is non-blank, as one active project with that name and no pod or quarter appended to the list; the inline form closes and clears, and the task's chosen project is unchanged |
| QuickAddTask.CreateIgnoresCap | src/components/dashboard/QuickAddTask.tsx:37-42 | the inline form adds a project even when four or more exist |
| GuidedTour.Start | src/components/onboarding/GuidedTour.tsx:110-113 | starting makes the tour active at the first step, which is one of the eight |
| GuidedTour.End | src/components/onboarding/GuidedTour.tsx:115-118 | ending makes the tour inactive and keeps the step |
| GuidedTour.Next | src/components/onboarding/GuidedTour.tsx:120-126 | next moves one step on below the last step and ends the tour at it; it keeps the step among the eight and never activates the tour |
| GuidedTour.Prev | src/components/onboarding/GuidedTour.tsx:128-132 | previous moves one step back above the first and does nothing at it; it keeps the step among the eight and the active flag |
| GuidedTour.GoTo | src/components/onboarding/GuidedTour.tsx:134-138 | go-to takes a target among the eight steps and ignores any other; it keeps the step among the eight and the active flag |
| GuidedTour.ApplyKeepsInv | src/components/onboarding/GuidedTour.tsx:110-138 | start, end, next, previous and go-to each keep the step among the eight steps |
| GuidedTour.RunKeepsInv | src/components/onboarding/GuidedTour.tsx:106-138 | from a step among the eight, every sequence of tour operations leaves the step among the eight, so the modal always has a step to show |
| GuidedTour.NextWalks | src/components/onboarding/GuidedTour.tsx:120-126 | from the first step of an active tour, next taken k times, for k below eight, reaches step k and the tour stays active |
| GuidedTour.EighthNextEnds | src/components/onboarding/GuidedTour.tsx:110-126 | after starting, the eighth next ends the tour and leaves it at the last step |
| GuidedTour.NextThenPrev | src/components/onboarding/GuidedTour.tsx:120-132 | below the last step, next followed by previous returns to the same tour |
| LogsView.MatchesSearch | src/pages/Logs.tsx:95-97 | the empty query matches every log; any other matches exactly when its lower-cased form occurs in the lower-cased summary or project name |
| LogsView.FilteredLogs | src/pages/Logs.tsx:94-100 | a log is listed exactly when it matches both the search and the project filter, and the listed logs keep their order |
| LogsView.NoFilterListsAll | src/pages/Logs.tsx:94-100 | with an empty query and the 'all' project every log is listed, in order |
| LogsView.SearchIgnoresCase | src/pages/Logs.tsx:95-97 | lower-casing the query does not change which logs match |
| LogsView.AddToGroups | src/pages/Logs.tsx:104-109 | one reduce step keeps the headings when the log's heading is present and appends it as a new last heading when it is not |
| LogsView.GroupLogs | src/pages/Logs.tsx:103-110 | the groups carry the date headings in the order they first appear among the logs, each once |
| LogsView.GroupLogsIsReference | src/pages/Logs.tsx:103-110 | the reduce yields one group per heading in the order the headings first appear, each holding exactly the logs with that heading in their order |
| LogsView.EachLogInOneGroup | src/pages/Logs.tsx:103-110 | every listed log is in the group of its own heading and in no other, that group exists, and no heading appears twice |
| LogsView.GroupsKeepOrder | src/pages/Logs.tsx:103-110 | within every group the logs keep their order in the filtered list |
| LogsView.SuggestsAdjustingFilters | src/pages/Logs.tsx:162-165 | the empty list advises adjusting the filters exactly when the query and the project filter can hide some log |
| GenerateReport.InitialForm | src/pages/GenerateReport.tsx:33-37 | the form opens on this week, from its Monday midnight to its Sunday's last millisecond, a span holding the clock's moment, not generating, and with every project selected in list order |
| GenerateReport.ChooseRange | src/pages/GenerateReport.tsx:39-58 | the chosen option is taken; this week runs from a Monday midnight to the last millisecond of the Sunday after and holds the moment; last week is the full week ending the day before this week's Monday; last 7 days ends at the moment and starts six days earlier at the same time of day; every preset's start is not after its end; 'custom' keeps the dates; the selection is untouched |
| GenerateReport.PickStart | src/pages/GenerateReport.tsx:144-150 | a picked day becomes the start at that day's midnight and the range becomes custom, nothing else changes, and clearing the picker changes nothing |
| GenerateReport.PickEnd | src/pages/GenerateReport.tsx:166-172 | a picked day becomes the end at that day's midnight and the range becomes custom, nothing else changes, and clearing the picker changes nothing |
| GenerateReport.StartPickable | src/pages/GenerateReport.tsx:150 | the start picker offers exactly the days up to and including today |
| GenerateReport.EndPickable | src/pages/GenerateReport.tsx:172 | the end picker offers exactly the days up to today that come after the start's day, plus the start's day itself when the start is at midnight; a picked end is never before the start |
| GenerateReport.Last7DaysStartDayDisabled | src/pages/GenerateReport.tsx:52-172 | after 'Last 7 Days' the end picker refuses the start's own day unless the range was chosen exactly at midnight, and offers the day after it |
| GenerateReport.MidnightStartDayPickable | src/pages/GenerateReport.tsx:42-172 | after a week preset, or after picking a start day that is not in the future, the end picker offers the start's own day |
| GenerateReport.StartOfWeek | src/pages/GenerateReport.tsx:44 | the start of a week is the midnight of a Monday, at most six days before the moment and not after it |
| GenerateReport.EndOfWeek | src/pages/GenerateReport.tsx:45 | the end of a week is the last millisecond of the sixth day after that week's Monday, not before the moment |
| GenerateReport.SubDays | src/pages/GenerateReport.tsx:53 | going back n days keeps the time of day and moves the day number back by n |
| GenerateReport.PickingSwitchesToCustom | src/pages/GenerateReport.tsx:144-170 | picking a start date, an end date, or one after the other by hand leaves the range on 'custom' |
| GenerateReport.ToggleProject | src/pages/GenerateReport.tsx:60-66 | a selected project is dropped from everywhere in the list, keeping the others in order; an unselected one is appended at the end; every other project's selection is unchanged |
| GenerateReport.ToggleTwice | src/pages/GenerateReport.tsx:60-66 | toggling a project twice restores the set of selected projects, and the list itself when the project was not selected |
| GenerateReport.Generate | src/pages/GenerateReport.tsx:68-81 | generating is refused exactly when no project is selected, leaving the form unchanged; otherwise it starts |
| GenerateReport.GenerateDisabled | src/pages/GenerateReport.tsx:230 | the button is enabled exactly when not generating and a press would start generating; disabled means no project is selected or generation is under way |
| GenerateReport.EnabledButtonGenerates | src/pages/GenerateReport.tsx:229-230 | a press on the enabled Generate button starts generating, after which the button is disabled |
| ViewReport.ProjectBlock | src/pages/ViewReport.tsx:103-120 | a project block opens with a newline, the "## " heading with the project name and the Work Done heading, and ends in a newline and six spaces |
| ViewReport.ReportText | src/pages/ViewReport.tsx:102-121 | the copied text is empty exactly when there are no projects, and otherwise opens with the first project's block |
| ViewReport.BulletLine | src/pages/ViewReport.tsx:107 | an item's line is the bullet, one character, then the item unchanged |
| ViewReport.BlockIsParts | src/pages/ViewReport.tsx:103-120 | a project's block is its heading line, the five labelled sections in template order and the indentation line |
| ViewReport.BlockIsItsLines | src/pages/ViewReport.tsx:103-120 | a project's block is its list of lines joined by newlines |
| ViewReport.BlockReadsBack | src/pages/ViewReport.tsx:102-120 | when the name and the items hold no newline, splitting a copied block at its newlines gives back the heading, each section's heading and one line per item ("• None" for empty blockers or asks, an empty line for the other empty sections), and the indentation line |
| ViewReport.NoneIsAmbiguous | src/pages/ViewReport.tsx:113-116 | no blockers and a single blocker called "None" are copied as the same text |
| ViewReport.SectionShown | src/pages/ViewReport.tsx:225-248 | on screen a section is hidden exactly when its copied lines are one empty line, and a hidden blockers or asks section is copied as the "• None" line |
| ViewReport.OneProjectReport | src/pages/ViewReport.tsx:102-121 | a report of one project copies as that project's block alone |
| ViewReport.ReportTextCons | src/pages/ViewReport.tsx:102-121 | with two or more projects the text is the first block, the separator line and the rest of the report |
| ViewReport.HeaderActions | src/pages/ViewReport.tsx:174-199 | the header holds the Export menu last, and two actions exactly when the report is a draft |
| ViewReport.ShowsEdit | src/pages/ViewReport.tsx:175-180 | the Edit button is among the header's actions exactly when it is shown, and a report without it offers only Export |
| MainNav.VisibleNavItems | src/components/MainNav.tsx:73 | an entry is shown exactly when it is not manager-only or the user is a manager, in bar order; a manager sees every entry |
| MainNav.OnlyTeamIsManagerOnly | src/components/MainNav.tsx:42-57 | of the bar's entries exactly the Team entry is manager-only |
| MainNav.VisibleEntries | src/components/MainNav.tsx:42-73 | a manager sees the whole bar; anyone else sees every entry except Team |
| MainNav.IsActive | src/components/MainNav.tsx:83-84 | an entry is active exactly when its path is a prefix of the current path that ends the path or is followed by a slash |
| MainNav.TasksActivation | src/components/MainNav.tsx:83-84 | "/tasksx" does not activate the Tasks entry and "/tasks/today" does |
| MainNav.DropdownLinks | src/components/MainNav.tsx:103-107 | the dropdown lists one link per child, each to that child's path, in declared order |
| MainNav.OnlyTasksHasDropdown | src/components/MainNav.tsx:42-57 | only the Tasks entry has children, Today's Plan then All Tasks |
| MainNav.FirstCharsOfWords | src/components/MainNav.tsx:65-68 | joining the pieces' first characters gives one character per non-empty piece, that piece's first, since an empty piece contributes nothing |
| MainNav.AllInitials | src/components/MainNav.tsx:63-68 | one upper-cased initial per word of the name, each the word's first letter, in order |
| MainNav.Initials | src/components/MainNav.tsx:63-70 | the avatar initials are the first two word initials, or fewer when the name has fewer words |
| MainNav.AvatarText | src/components/MainNav.tsx:149 | the avatar shows "U" with no user and the user's initials otherwise |
| MainNav.RoleBadge | src/components/MainNav.tsx:137 | the badge reads "Manager" exactly for a manager and "IC" exactly for anyone else |
| MainNav.BlankNameHasNoInitials | src/components/MainNav.tsx:63-70 | a name made only of spaces gives empty initials |
| ManagerDashboard.OpenTasksAdd | src/pages/ManagerDashboard.tsx:158 | the team's open-task sum over a split list is the sum of the two parts |
| ManagerDashboard.ComputeStats | src/pages/ManagerDashboard.tsx:157-162 | the headline numbers are the members' open tasks summed, the blocker and ask counts, and the high-risk count, which never exceeds the blockers and equals them exactly when every blocker is high risk |
| ManagerDashboard.HighRiskAllIff | src/pages/ManagerDashboard.tsx:161 | the high-risk filter keeps every blocker exactly when all blockers are high risk |
| ManagerDashboard.MemberInitials | src/pages/ManagerDashboard.tsx:164-166 | a member's initials are one upper-cased first letter per word, with no cap on how many |
| ManagerDashboard.InitialsCapDiffers | src/pages/ManagerDashboard.tsx:164-166 | the navigation bar's initials are the first two of the member initials, so a three-word name shows three letters here and two in the bar |
| ManagerDashboard.LastLogLabel | src/pages/ManagerDashboard.tsx:168-174 | zero days is "Today", one day "Yesterday", and any other difference the number followed by " days ago" |
| ManagerDashboard.TopBlockers | src/pages/ManagerDashboard.tsx:305 | the top-blockers list is the first four blockers in order, or all of them when there are fewer |
| ManagerDashboard.BlockerBadge | src/pages/ManagerDashboard.tsx:276-281 | a member row's blocker badge appears exactly for a member with blockers and holds their count in decimal, which reads back as the count |

## Left out

- Toasts, timers, navigation and animation: they carry no state the pages read back. This covers the simulated delays before parsing, confirming and generating, the 5-second lifetime of an undo toast, and the redirects after a submit. The deleted buffer of the review session never expires, and the model keeps it that way.
- `localStorage`, the mock sign-in and the route guards: these are persistence and session plumbing outside the pages' logic. It includes the tour-completion and tour-prompt flags.
- The clock: `Date.now()` ids and creation times are parameters, as are "created today", the hour, the day difference behind "n days ago" and the locale-formatted date headings of the logs page. The report form reads the clock as one local wall-clock moment, a day number counted from a Monday plus the milliseconds past midnight, so time zones and daylight-saving shifts are not modelled. The relative-date helpers of today's plan, which only format a time, are not part of this model.
- Floating point: the confidence-factor percentages of the badge's tooltip and the width of the tour's progress bar are display values computed in IEEE doubles.
- Dashboard.CompletionRate: states the exactly rounded percentage `(200·completed + total) div (2·total)`; the page computes `Math.round(completed / total * 100)` in doubles, which can round the other way on a tie that the division makes inexact (23 of 40 gives 57.49999999999999, so 57 rather than 58).
- Strings are sequences of code points: JavaScript's `length` counts UTF-16 units, so lengths of text outside the Basic Multilingual Plane differ, and `toLowerCase`/`toUpperCase` are modelled over ASCII letters only, which affects slugs, search, duplicate-name checks and initials.
- AddCategoryDialog.Type: the input's `maxLength` of 20 is enforced by the browser while typing and is not modelled; the submit check for a name longer than 20 characters still is. The `maxLength` of 50 on the project-name inputs is left out for the same reason.
- NewLog.IsValid: states what a valid form implies and a sufficient condition for validity, not the exact condition `|Trim(rawText)| >= 10`, which would only restate the definition.
- TodaysPlan.OtherTasks: `includes` compares task objects by identity; the model compares task values, which gives the same sections whenever no two tasks are equal values, as holds for tasks with distinct ids.
- The team filter of the manager view: its selection is stored but never applied to any list, so it has no modelled effect.
- `Object.entries` over the grouped logs: the headings are never integer-like, so the object keeps insertion order, and the model lists the groups in the order their headings first appear.
- The demo data: the extracted review items, the demo logs, meetings, team and blockers are constants the pages display; the model takes them as inputs, except the three meetings offered for import, which are kept as written.
- The pages built only on constants (integrations, analytics, audit log, the reports list and the landing page) and the presentational wrappers (badges, stat cards, layout, profile settings) are not part of this model.

## Findings

| source | as written | input that shows it | evidently intended | confidence | as-written member | corrected member |
|---|---|---|---|---|---|---|
| src/components/review/ConfidenceBadge.tsx:67 | the low-confidence suffix is the UTF-8 bytes of "•" read as Windows-1252, so the label shows "â€¢ Needs review" | any confidence below 60 | the label ends in "• Needs review" | not executed | ConfidenceBadge.NeedsReviewIsMisdecoded | ConfidenceBadge.Render |
| src/components/review/ParsedItemCard.tsx:92-105 | the delete toast's Undo calls the undo handler captured when the card rendered, whose deleted buffer predates the deletion, so the handler finds nothing and the item stays deleted | deleting any listed item and pressing Undo in its toast | Undo puts the item back at the end of the list and selects it again | not executed | ReviewLog.ToastUndoRestoresNothing | ReviewLog.DeleteThenUndo |
| src/pages/OnboardingSetup.tsx:102-108 | every project added in the one synchronous loop gets the id `proj-` followed by the same millisecond | a valid setup with two rows | each new project gets an id of its own | not executed | OnboardingSetup.SubmitAsWrittenDuplicatesIds | OnboardingSetup.Submit |

=== FILE: add_category_dialog.dfy ===
/** The dialog that adds a custom task category: four checks in a fixed order, each with its
    own message, before the store's addCategory is called with the trimmed name. */
module AddCategoryDialog {
  import opened Base
  import opened Text
  import opened TaskStore

  const MaxNameLength: nat := 20

  const NameRequired: string := "Category name is required"
  const NameTooLong: string := "Category name must be 20 characters or less"
  const CapReached: string := "Maximum of 7 categories allowed"
  const Duplicate: string := "A category with this name already exists"

  /** The dialog's own state; an empty error means none is shown. */
  datatype Dialog = Dialog(open: bool, name: string, error: string)

  /** The dialog and the store after a submit. */
  datatype Submitted = Submitted(dialog: Dialog, store: Store)

  /** The message of the first check the trimmed name fails, if any, before the store is
      asked; None means the store is asked. */
  function FirstFailure(s: Store, trimmed: string): (e: Option<string>)
    ensures e == Some(NameRequired) <==> trimmed == ""
    ensures e == Some(NameTooLong) <==> trimmed != "" && |trimmed| > MaxNameLength
    ensures e == Some(CapReached) <==>
      trimmed != "" && |trimmed| <= MaxNameLength && !CanAddCategory(s)
    ensures e.None? <==> trimmed != "" && |trimmed| <= MaxNameLength && CanAddCategory(s)
  {
    if trimmed == "" then Some(NameRequired)
    else if |trimmed| > MaxNameLength then Some(NameTooLong)
    else if !CanAddCategory(s) then Some(CapReached)
    else None
  }

  /** handleSubmit. On success the name is cleared and the dialog closes; on any failure
      the dialog keeps its name and open state and shows exactly one message, and the store
      is unchanged. */
  function Submit(d: Dialog, s: Store): (r: Submitted)
    ensures var t := Trim(d.name);
      r.dialog.error == "" <==> FirstFailure(s, t).None? && AddCategory(s, t).ok
    ensures r.dialog.error == "" ==>
      && r.dialog == Dialog(false, "", "")
      && r.store.categories == s.categories + [CategoryConfig(Slug(Trim(d.name)), Trim(d.name), false)]
      && r.store.tasks == s.tasks
    ensures r.dialog.error != "" ==>
      && r.store == s && r.dialog.open == d.open && r.dialog.name == d.name
      && r.dialog.error in {NameRequired, NameTooLong, CapReached, Duplicate}
    ensures FirstFailure(s, Trim(d.name)).Some? ==> r.dialog.error == FirstFailure(s, Trim(d.name)).value
    ensures FirstFailure(s, Trim(d.name)).None? && !AddCategory(s, Trim(d.name)).ok ==>
      r.dialog.error == Duplicate
  {
    var t := Trim(d.name);
    var f := FirstFailure(s, t);
    if f.Some? then Submitted(d.(error := f.value), s)
    else
      var c := AddCategory(s, t);
      if c.ok then Submitted(Dialog(false, "", ""), c.store)
      else Submitted(d.(error := Duplicate), s)
  }

  /** A category added through the dialog has a trimmed label of 1 to 20 characters. */
  lemma AddedLabelIsTrimmedAndShort(d: Dialog, s: Store)
    requires Submit(d, s).dialog.error == ""
    ensures var lbl := Submit(d, s).store.categories[|s.categories|].labelText;
      lbl == Trim(d.name) && Trim(lbl) == lbl && 1 <= |lbl| <= MaxNameLength
  {
    TrimIdempotent(d.name);
  }

  /** In every store reachable from the initial one, a non-blank name of at most 20
      characters is refused with the cap message. */
  lemma ReachableStoresRefuse(tasks: seq<Task>, ops: seq<Op>, d: Dialog)
    requires Trim(d.name) != "" && |Trim(d.name)| <= MaxNameLength
    ensures Submit(d, Run(Init(tasks), ops)).dialog.error == CapReached
  {
    CategoriesNeverChange(Init(tasks), ops);
  }

  /** Typing replaces the name and clears the message. */
  function Type(d: Dialog, text: string): (r: Dialog)
    ensures r.name == text && r.error == "" && r.open == d.open
  {
    d.(name := text, error := "")
  }

  /** The free places for custom categories. */
  function RemainingSlots(s: Store): (n: int)
    ensures n > 0 <==> CanAddCategory(s)
    ensures |s.categories| + n == MaxCategories
  {
    MaxCategories - |s.categories|
  }

  /** The line under the description: the count with a plural "s" unless it is one, or the
      advice to delete a custom category when nothing is left. */
  function SlotsText(s: Store): (r: string)
    ensures RemainingSlots(s) <= 0 ==> r == "No slots remaining. Delete a custom category first."
    ensures RemainingSlots(s) == 1 ==> r == "1 slot remaining"
    ensures RemainingSlots(s) > 1 ==>
      r == NatToString(RemainingSlots(s)) + " slots remaining"
  {
    var n := RemainingSlots(s);
    if n > 0 then NatToString(n) + " slot" + (if n != 1 then "s" else "") + " remaining"
    else "No slots remaining. Delete a custom category first."
  }

  /** The dialog's own Add Category trigger is disabled exactly at the cap. */
  function TriggerDisabled(s: Store): (b: bool)
    ensures b <==> RemainingSlots(s) <= 0
    ensures b ==> forall labelText :: !AddCategory(s, labelText).ok
  {
    !CanAddCategory(s)
  }
}

=== FILE: base.dfy ===
/** Generic building blocks shared by every component model: an optional value and the
    order-preserving sequence operations that the source writes with Array.prototype
    filter, map and find. */
module Base {

  /** A value that may be absent (JavaScript's `undefined`). */
  datatype Option<T> = None | Some(value: T) {

    /** The wrapped value, or `default` when absent. */
    function GetOr(default: T): T {
      match this
      case Some(v) => v
      case None => default
    }
  }

  /** `a` is a (not necessarily contiguous) subsequence of `b`: the elements of `a` occur
      in `b` in the same relative order. */
  predicate IsSubseq<T(==)>(a: seq<T>, b: seq<T>)
    decreases |b|
  {
    if |a| == 0 then true
    else if |b| == 0 then false
    else (a[0] == b[0] && IsSubseq(a[1..], b[1..])) || IsSubseq(a, b[1..])
  }

  /** The elements of `s` that satisfy `p`, in their original order (Array.prototype.filter). */
  function Filter<T(!new)>(p: T -> bool, s: seq<T>): (r: seq<T>)
    ensures |r| <= |s|
    ensures forall x :: x in r <==> x in s && p(x)
    ensures forall i :: 0 <= i < |r| ==> p(r[i])
  {
    if |s| == 0 then []
    else if p(s[0]) then [s[0]] + Filter(p, s[1..])
    else Filter(p, s[1..])
  }

  /** Filtering keeps the relative order of the kept elements. */
  lemma {:induction false} FilterIsSubseq<T(!new)>(p: T -> bool, s: seq<T>)
    ensures IsSubseq(Filter(p, s), s)
  {
    if |s| > 0 {
      FilterIsSubseq(p, s[1..]);
      var rest := Filter(p, s[1..]);
      if p(s[0]) {
        assert ([s[0]] + rest)[1..] == rest;
      } else {
        assert IsSubseq(rest, s[1..]);
        if |rest| > 0 {
          assert IsSubseq(rest, s) by { assert s[1..] == s[1..]; }
        }
      }
    }
  }

  /** A predicate and its negation split a sequence into two parts that together hold every
      element exactly as often as the sequence does. */
  lemma {:induction false} FilterPartition<T(!new)>(p: T -> bool, q: T -> bool, s: seq<T>)
    requires forall x :: q(x) == !p(x)
    ensures multiset(Filter(p, s)) + multiset(Filter(q, s)) == multiset(s)
  {
    if |s| > 0 {
      FilterPartition(p, q, s[1..]);
      assert s == [s[0]] + s[1..];
    }
  }

  /** Filtering keeps every copy of a kept value and no copy of a dropped one. */
  lemma {:induction false} FilterMultiplicity<T(!new)>(p: T -> bool, s: seq<T>, x: T)
    ensures multiset(Filter(p, s))[x] == if p(x) then multiset(s)[x] else 0
  {
    if |s| > 0 {
      FilterMultiplicity(p, s[1..], x);
      assert s == [s[0]] + s[1..];
    }
  }

  /** Filtering with a predicate that every element satisfies changes nothing. */
  lemma {:induction false} FilterAll<T(!new)>(p: T -> bool, s: seq<T>)
    requires forall i :: 0 <= i < |s| ==> p(s[i])
    ensures Filter(p, s) == s
  {
    if |s| > 0 {
      FilterAll(p, s[1..]);
      assert s == [s[0]] + s[1..];
    }
  }

  /** Filtering distributes over concatenation. */
  lemma {:induction false} FilterConcat<T(!new)>(p: T -> bool, a: seq<T>, b: seq<T>)
    ensures Filter(p, a + b) == Filter(p, a) + Filter(p, b)
  {
    if |a| > 0 {
      assert (a + b)[1..] == a[1..] + b;
      FilterConcat(p, a[1..], b);
    } else {
      assert a + b == b;
    }
  }

  /** When every element but the last satisfies `p` and the last does not, the filter drops
      the last element only. */
  lemma FilterDropsLast<T(!new)>(p: T -> bool, s: seq<T>)
    requires |s| > 0 && !p(s[|s| - 1])
    requires forall i :: 0 <= i < |s| - 1 ==> p(s[i])
    ensures Filter(p, s) == s[..|s| - 1]
  {
    var front, last := s[..|s| - 1], s[|s| - 1];
    SnocSplit(s);
    FilterAll(p, front);
    FilterConcat(p, front, [last]);
    assert Filter(p, [last]) == [] by {
      assert [last][1..] == [];
    }
  }

  /** A non-empty sequence is its front followed by its last element. */
  lemma SnocSplit<T>(s: seq<T>)
    requires |s| > 0
    ensures s == s[..|s| - 1] + [s[|s| - 1]]
  {
  }

  /** When exactly the element at `k` satisfies `p`, the filter keeps that element alone. */
  lemma {:induction false} FilterSingle<T(!new)>(p: T -> bool, s: seq<T>, k: nat)
    requires k < |s| && p(s[k])
    requires forall i :: 0 <= i < |s| && i != k ==> !p(s[i])
    ensures Filter(p, s) == [s[k]]
  {
    if k == 0 {
      FilterNone(p, s[1..]);
    } else {
      FilterSingle(p, s[1..], k - 1);
    }
  }

  /** Filtering with a predicate no element satisfies gives nothing. */
  lemma {:induction false} FilterNone<T(!new)>(p: T -> bool, s: seq<T>)
    requires forall i :: 0 <= i < |s| ==> !p(s[i])
    ensures Filter(p, s) == []
  {
    if |s| > 0 {
      FilterNone(p, s[1..]);
    }
  }

  /** Filtering twice keeps what satisfies both predicates. */
  lemma {:induction false} FilterFilter<T(!new)>(p: T -> bool, q: T -> bool, pq: T -> bool, s: seq<T>)
    requires forall x :: pq(x) == (p(x) && q(x))
    ensures Filter(q, Filter(p, s)) == Filter(pq, s)
  {
    if |s| > 0 {
      FilterFilter(p, q, pq, s[1..]);
      if p(s[0]) {
        assert ([s[0]] + Filter(p, s[1..]))[1..] == Filter(p, s[1..]);
      }
    }
  }

  /** Predicates that agree on the elements filter alike. */
  lemma {:induction false} FilterCongruent<T(!new)>(p: T -> bool, q: T -> bool, s: seq<T>)
    requires forall i :: 0 <= i < |s| ==> p(s[i]) == q(s[i])
    ensures Filter(p, s) == Filter(q, s)
  {
    if |s| > 0 {
      FilterCongruent(p, q, s[1..]);
    }
  }

  /** Three predicates of which every element satisfies exactly one split a sequence into
      three parts that together hold every element as often as the sequence does. */
  lemma {:induction false} FilterPartition3<T(!new)>(p: T -> bool, q: T -> bool, r: T -> bool, s: seq<T>)
    requires forall x :: (p(x) && !q(x) && !r(x)) || (!p(x) && q(x) && !r(x)) || (!p(x) && !q(x) && r(x))
    ensures multiset(Filter(p, s)) + multiset(Filter(q, s)) + multiset(Filter(r, s)) == multiset(s)
  {
    if |s| > 0 {
      FilterPartition3(p, q, r, s[1..]);
      assert s == [s[0]] + s[1..];
    }
  }

  /** The two filters of disjoint predicates, put together, hold what the filter of their
      disjunction holds. */
  lemma {:induction false} FilterUnion<T(!new)>(p: T -> bool, q: T -> bool, pq: T -> bool, s: seq<T>)
    requires forall x :: !(p(x) && q(x)) && pq(x) == (p(x) || q(x))
    ensures multiset(Filter(p, s) + Filter(q, s)) == multiset(Filter(pq, s))
  {
    if |s| > 0 {
      FilterUnion(p, q, pq, s[1..]);
    }
  }

  /** The number of elements of `s` that satisfy `p`. */
  function Count<T(!new)>(p: T -> bool, s: seq<T>): (n: nat)
    ensures n == |Filter(p, s)|
    ensures n <= |s|
  {
    if |s| == 0 then 0
    else (if p(s[0]) then 1 else 0) + Count(p, s[1..])
  }

  /** `f` applied to every element, positions unchanged (Array.prototype.map). */
  function Map<T, U>(f: T -> U, s: seq<T>): (r: seq<U>)
    ensures |r| == |s|
    ensures forall i :: 0 <= i < |s| ==> r[i] == f(s[i])
  {
    if |s| == 0 then [] else [f(s[0])] + Map(f, s[1..])
  }

  /** The first element of `s` that satisfies `p`, if any (Array.prototype.find). */
  function Find<T(==)>(p: T -> bool, s: seq<T>): (r: Option<T>)
    ensures r.None? <==> forall i :: 0 <= i < |s| ==> !p(s[i])
    ensures r.Some? ==> p(r.value) && r.value in s
    ensures r.Some? ==> exists i :: 0 <= i < |s| && s[i] == r.value && forall j :: 0 <= j < i ==> !p(s[j])
  {
    if |s| == 0 then None
    else if p(s[0]) then Some(s[0])
    else
      var r := Find(p, s[1..]);
      if r.Some? then
        var i :| 0 <= i < |s[1..]| && s[1..][i] == r.value && forall j :: 0 <= j < i ==> !p(s[1..][j]);
        assert s[i + 1] == r.value && forall j :: 0 <= j < i + 1 ==> !p(s[j]);
        r
      else r
  }

  /** Splitting off the head of a non-empty sequence before appending. */
  lemma ConsAppend<T>(a: seq<T>, u: seq<T>)
    requires |a| > 0
    ensures a + u == [a[0]] + (a[1..] + u)
  {
    assert a == [a[0]] + a[1..];
  }

  /** Find gives the element at the first index that satisfies `p`. */
  lemma FindFirst<T>(p: T -> bool, s: seq<T>, i: nat)
    requires i < |s| && p(s[i]) && forall j :: 0 <= j < i ==> !p(s[j])
    ensures Find(p, s) == Some(s[i])
  {
    var r := Find(p, s);
    var k :| 0 <= k < |s| && s[k] == r.value && forall j :: 0 <= j < k ==> !p(s[j]);
    assert k == i;
  }

  /** The set of all elements of a sequence. */
  function Elems<T(!new)>(s: seq<T>): (r: set<T>)
    ensures forall x :: x in r <==> x in s
  {
    set x | x in s
  }

  /** The elements of `s` have pairwise different keys. */
  predicate DistinctBy<T, K(==)>(key: T -> K, s: seq<T>) {
    forall i, j :: 0 <= i < j < |s| ==> key(s[i]) != key(s[j])
  }

  /** Filtering keeps keys pairwise different. */
  lemma {:induction false} FilterDistinct<T(!new), K>(key: T -> K, p: T -> bool, s: seq<T>)
    requires DistinctBy(key, s)
    ensures DistinctBy(key, Filter(p, s))
  {
    if |s| > 0 {
      var rest := s[1..];
      assert DistinctBy(key, rest) by {
        forall i, j | 0 <= i < j < |rest|
          ensures key(rest[i]) != key(rest[j])
        {
          assert rest[i] == s[i + 1] && rest[j] == s[j + 1];
        }
      }
      FilterDistinct(key, p, rest);
      var tail := Filter(p, rest);
      if p(s[0]) {
        var r := [s[0]] + tail;
        forall i, j | 0 <= i < j < |r|
          ensures key(r[i]) != key(r[j])
        {
          if i == 0 {
            assert r[j] in tail;
            var k :| 0 <= k < |rest| && rest[k] == r[j];
            assert s[k + 1] == r[j];
          } else {
            assert r[i] == tail[i - 1] && r[j] == tail[j - 1];
          }
        }
      }
    }
  }

  /** Sum of `f` over the elements (Array.prototype.reduce with `+` from 0). */
  function Sum<T>(f: T -> int, s: seq<T>): int {
    if |s| == 0 then 0 else f(s[0]) + Sum(f, s[1..])
  }

  /** The first `n` elements, or all of them when there are fewer (slice(0, n) for n >= 0). */
  function Take<T>(s: seq<T>, n: nat): (r: seq<T>)
    ensures |r| == if n < |s| then n else |s|
    ensures r == s[..|r|]
  {
    if n < |s| then s[..n] else s
  }
}

=== FILE: confidence_badge.dfy ===
/** The confidence badge of a parsed item: a three-way level from the score, four dots of
    which two to four are filled, the label text, the low-confidence suffix, and whether the
    info icon and the reasoning tooltip appear. The score is an integer here. */
module ConfidenceBadge {
  import opened Base
  import opened Text

  datatype Level = High | Medium | Low

  /** The extraction reasoning attached to an item. The confidence factors are percentages
      computed from fractions; only their keys are kept. */
  datatype Reasoning = Reasoning(matchedPatterns: Option<seq<string>>,
                                 factorKeys: Option<seq<string>>,
                                 keywords: Option<seq<string>>)

  /** High from 80, medium from 60, low below. */
  function LevelOf(confidence: int): (l: Level)
    ensures l == High <==> confidence >= 80
    ensures l == Medium <==> 60 <= confidence < 80
    ensures l == Low <==> confidence < 60
  {
    if confidence >= 80 then High else if confidence >= 60 then Medium else Low
  }

  /** The number of filled dots out of four. */
  function Dots(l: Level): (d: nat)
    ensures 2 <= d <= 4
    ensures l == High <==> d == 4
    ensures l == Low <==> d == 2
  {
    match l
    case High => 4
    case Medium => 3
    case Low => 2
  }

  /** A higher score never fills fewer dots. */
  lemma DotsMonotone(c1: int, c2: int)
    requires c1 <= c2
    ensures Dots(LevelOf(c1)) <= Dots(LevelOf(c2))
  {
  }

  /** Dot `i` (numbered 1 to 4) is drawn filled. */
  predicate DotFilled(l: Level, i: int) {
    i <= Dots(l)
  }

  /** Exactly the first Dots(l) of the four dots are filled. */
  lemma FilledDotsAreAPrefix(l: Level, i: int, j: int)
    requires 1 <= i <= j <= 4
    ensures DotFilled(l, j) ==> DotFilled(l, i)
    ensures DotFilled(l, 1) && DotFilled(l, 2) && !(DotFilled(l, 4) && l != High)
  {
  }

  function LevelName(l: Level): string {
    match l
    case High => "High"
    case Medium => "Medium"
    case Low => "Low"
  }

  /** "<level> (<score>%)". */
  function Label(confidence: int): (r: string)
    ensures StartsWith(r, LevelName(LevelOf(confidence)) + " (")
    ensures r[|r| - 2..] == "%)"
    ensures exists i :: OccursAt(r, IntToString(confidence), i)
    ensures |r| == |LevelName(LevelOf(confidence))| + |IntToString(confidence)| + 4
    ensures r[|LevelName(LevelOf(confidence))| + 2..|r| - 2] == IntToString(confidence)
  {
    var head := LevelName(LevelOf(confidence)) + " (";
    var r := head + IntToString(confidence) + "%)";
    assert r[..|head|] == head;
    assert OccursAt(r, IntToString(confidence), |head|);
    r
  }

  /** The score reads back from between the parentheses of the label. */
  lemma LabelReadsBack(confidence: int)
    requires confidence >= 0
    ensures var r, n := Label(confidence), |LevelName(LevelOf(confidence))| + 2;
      && n <= |r| - 2
      && (forall k :: n <= k < |r| - 2 ==> '0' <= r[k] <= '9')
      && ParseNat(r[n..|r| - 2]) == confidence
  {
    NatToStringRoundTrip(confidence);
  }

  /** The suffix the badge shows for a low score, with a bullet before the words. */
  const Bullet: char := '•'
  const NeedsReview: string := [Bullet] + " Needs review"

  /** What the badge shows; `showDetails` is absent when the caller leaves it out. */
  datatype Badge = Badge(level: Level, dots: nat, labelText: string, suffix: Option<string>,
                         infoIcon: bool, tooltip: bool)

  function Render(confidence: int, showDetails: Option<bool>, reasoning: Option<Reasoning>): (b: Badge)
    ensures b.level == LevelOf(confidence) && b.dots == Dots(b.level)
    ensures b.suffix.Some? <==> confidence < 60
    ensures b.suffix.Some? ==> b.suffix.value == NeedsReview
    ensures b.tooltip <==> showDetails != Some(false) && reasoning.Some?
    ensures b.infoIcon == b.tooltip
  {
    var l := LevelOf(confidence);
    var details := showDetails.GetOr(true);
    Badge(l, Dots(l), Label(confidence), if l == Low then Some(NeedsReview) else None,
          details && reasoning.Some?, details && reasoning.Some?)
  }

  /** The patterns line is shown: patterns are given and there is at least one. */
  predicate ShowsPatterns(r: Reasoning) {
    r.matchedPatterns.Some? && |r.matchedPatterns.value| > 0
  }

  /** The keywords line is shown: keywords are given and there is at least one. */
  predicate ShowsKeywords(r: Reasoning) {
    r.keywords.Some? && |r.keywords.value| > 0
  }

  const FactorsHeading: string := "Confidence factors:"

  /** The tooltip lines, in this order: the patterns and the keywords, each only when present
      and non-empty and joined with ", ", then the factor heading when factors are given. */
  function TooltipLines(r: Reasoning): (lines: seq<string>)
    ensures |lines| == (if ShowsPatterns(r) then 1 else 0) + (if ShowsKeywords(r) then 1 else 0)
                       + (if r.factorKeys.Some? then 1 else 0)
    ensures ShowsPatterns(r) ==> lines[0] == "Patterns: " + Join(r.matchedPatterns.value, ", ")
    ensures ShowsKeywords(r) ==>
      lines[if ShowsPatterns(r) then 1 else 0] == "Keywords: " + Join(r.keywords.value, ", ")
    ensures r.factorKeys.Some? ==> lines[|lines| - 1] == FactorsHeading
    ensures FactorsHeading in lines <==> r.factorKeys.Some?
    ensures lines == [] <==> !ShowsPatterns(r) && !ShowsKeywords(r) && r.factorKeys.None?
  {
    var p := if ShowsPatterns(r) then ["Patterns: " + Join(r.matchedPatterns.value, ", ")] else [];
    var k := if ShowsKeywords(r) then ["Keywords: " + Join(r.keywords.value, ", ")] else [];
    var f := if r.factorKeys.Some? then [FactorsHeading] else [];
    assert forall x :: x in p + k ==> x[0] != FactorsHeading[0];
    p + k + f
  }

  /** Reading the tooltip tells which parts the reasoning has: a line opens with "Patterns: "
      exactly when patterns are shown, with "Keywords: " exactly when keywords are. */
  lemma TooltipTellsParts(r: Reasoning)
    ensures ShowsPatterns(r) <==> exists i :: 0 <= i < |TooltipLines(r)| && StartsWith(TooltipLines(r)[i], "Patterns: ")
    ensures ShowsKeywords(r) <==> exists i :: 0 <= i < |TooltipLines(r)| && StartsWith(TooltipLines(r)[i], "Keywords: ")
  {
    var lines := TooltipLines(r);
    forall i | 0 <= i < |lines|
      ensures StartsWith(lines[i], "Patterns: ") ==> ShowsPatterns(r) && i == 0
      ensures StartsWith(lines[i], "Keywords: ") ==> ShowsKeywords(r)
    {
      assert lines[i][0] == 'P' ==> ShowsPatterns(r) && i == 0;
      assert lines[i][0] == 'K' ==> ShowsKeywords(r);
    }
    if ShowsPatterns(r) {
      assert StartsWith(lines[0], "Patterns: ");
    }
    if ShowsKeywords(r) {
      assert StartsWith(lines[if ShowsPatterns(r) then 1 else 0], "Keywords: ");
    }
  }

  type Byte = b: int | 0 <= b < 0x100

  /** The one-, two- and three-byte UTF-8 encoding of a code point below U+10000. */
  function Utf8(c: char): (bytes: seq<Byte>)
    requires c as int < 0x10000
    ensures 1 <= |bytes| <= 3
    ensures |bytes| == 1 <==> c as int < 0x80
    ensures forall i :: 1 <= i < |bytes| ==> 0x80 <= bytes[i] < 0xC0
  {
    var n := c as int;
    if n < 0x80 then [n]
    else if n < 0x800 then [0xC0 + n / 0x40, 0x80 + n % 0x40]
    else [0xE0 + n / 0x1000, 0x80 + (n / 0x40) % 0x40, 0x80 + n % 0x40]
  }

  /** The Windows-1252 character of a byte, as the WHATWG Encoding Standard's index maps it
      (the five unassigned bytes map to the C1 control of the same number). */
  function Windows1252(b: Byte): char {
    if b < 0x80 || b >= 0xA0 then b as char
    else
      var high := ['€', '\U{0081}', '‚', 'ƒ', '„', '…', '†', '‡',
                   'ˆ', '‰', 'Š', '‹', 'Œ', '\U{008D}', 'Ž', '\U{008F}',
                   '\U{0090}', '‘', '’', '“', '”', '•', '–', '—',
                   '˜', '™', 'š', '›', 'œ', '\U{009D}', 'ž', 'Ÿ'];
      high[b - 0x80]
  }

  /** The suffix as the badge's source text spells it: three characters in front of the words
      where one bullet was meant. */
  const NeedsReviewAsWritten: string := ['â', '€', '¢'] + " Needs review"

  /** The three characters are the bullet's UTF-8 bytes read back as Windows-1252, so the
      badge shows "â€¢ Needs review" instead of the bullet. */
  lemma NeedsReviewIsMisdecoded()
    ensures Utf8(Bullet) == [0xE2, 0x80, 0xA2]
    ensures NeedsReviewAsWritten[..3] == Map(Windows1252, Utf8(Bullet))
    ensures NeedsReviewAsWritten[3..] == NeedsReview[1..]
    ensures NeedsReviewAsWritten != NeedsReview
  {
    var u := Utf8(Bullet);
    assert u == [0xE2, 0x80, 0xA2];
    var m := Map(Windows1252, u);
    assert m[0] == 'â' && m[1] == '€' && m[2] == '¢';
    assert NeedsReviewAsWritten[0] != NeedsReview[0];
  }
}

=== FILE: dashboard.dfy ===
/** The dashboard's derived values: the status split, the completion rate rounded to a whole
    percent, the greeting for the hour, the first name and the two rate thresholds. The hour
    and the signed-in user are inputs. */
module Dashboard {
  import opened Base
  import opened Text
  import opened TaskStore

  /** The open and completed tasks add up to the whole list, and the three category lists
      of the hero cards are open tasks. */
  lemma CountsAddUp(tasks: seq<Task>)
    ensures |OpenTasks(tasks)| + |CompletedTasks(tasks)| == |tasks|
    ensures |TasksByCategory(OpenTasks(tasks), "blocker")| + |TasksByCategory(OpenTasks(tasks), "follow_up")|
      + |TasksByCategory(OpenTasks(tasks), "action_item")| <= |OpenTasks(tasks)|
  {
    OpenCompletedPartition(tasks);
    var open := OpenTasks(tasks);
    FilterUnion((t: Task) => t.category == "blocker", (t: Task) => t.category == "follow_up",
                (t: Task) => t.category == "blocker" || t.category == "follow_up", open);
    FilterUnion((t: Task) => t.category == "blocker" || t.category == "follow_up",
                (t: Task) => t.category == "action_item",
                (t: Task) => t.category == "blocker" || t.category == "follow_up" || t.category == "action_item",
                open);
    var b := Filter((t: Task) => t.category == "blocker", open);
    var f := Filter((t: Task) => t.category == "follow_up", open);
    var bf := Filter((t: Task) => t.category == "blocker" || t.category == "follow_up", open);
    var a := Filter((t: Task) => t.category == "action_item", open);
    var bfa := Filter((t: Task) => t.category == "blocker" || t.category == "follow_up" || t.category == "action_item", open);
    assert |multiset(b + f)| == |bf|;
    assert |multiset(bf + a)| == |bfa|;
  }

  /** `num / den` rounded half up to a whole number, in integers. */
  function RoundRatio(num: nat, den: nat): (r: nat)
    requires den > 0
    ensures 2 * den * r <= 2 * num + den < 2 * den * (r + 1)
  {
    (2 * num + den) / (2 * den)
  }

  lemma MulMonotone(a: nat, x: nat, y: nat)
    requires x <= y
    ensures a * x <= a * y
  {
  }

  /** completionRate: the share of completed tasks as a whole percent, 0 for no tasks. */
  function CompletionRate(tasks: seq<Task>): (r: nat)
    ensures |tasks| == 0 ==> r == 0
    ensures |tasks| > 0 ==> 2 * |tasks| * r <= 200 * |CompletedTasks(tasks)| + |tasks| < 2 * |tasks| * (r + 1)
    ensures r <= 100
  {
    var t := |tasks|;
    var c := |CompletedTasks(tasks)|;
    if t > 0 then
      var r := RoundRatio(100 * c, t);
      assert r <= 100 by {
        OpenCompletedPartition(tasks);
        if r > 100 {
          MulMonotone(2 * t, 101, r);
        }
      }
      r
    else 0
  }

  /** Two lists of the same length: more completed tasks never give a lower rate. */
  lemma RateMonotone(a: seq<Task>, b: seq<Task>)
    requires |a| == |b| && |CompletedTasks(a)| <= |CompletedTasks(b)|
    ensures CompletionRate(a) <= CompletionRate(b)
  {
    var ra, rb := CompletionRate(a), CompletionRate(b);
    if |a| > 0 && ra > rb {
      MulMonotone(2 * |a|, rb + 1, ra);
    }
  }

  /** Nothing completed gives 0 and everything completed gives 100. */
  lemma RateExtremes(tasks: seq<Task>)
    ensures |CompletedTasks(tasks)| == 0 ==> CompletionRate(tasks) == 0
    ensures |tasks| > 0 && |CompletedTasks(tasks)| == |tasks| ==> CompletionRate(tasks) == 100
  {
    var t, r := |tasks|, CompletionRate(tasks);
    if t > 0 && |CompletedTasks(tasks)| == 0 && r > 0 {
      MulMonotone(2 * t, 1, r);
    }
    if t > 0 && |CompletedTasks(tasks)| == t && r < 100 {
      MulMonotone(2 * t, r + 1, 100);
    }
  }

  /** A rate of at least `k` percent means, in counts, that 200 times the completed count
      reaches 2k - 1 times the total. */
  lemma RateAtLeast(tasks: seq<Task>, k: nat)
    requires |tasks| > 0 && k > 0
    ensures CompletionRate(tasks) >= k <==> 200 * |CompletedTasks(tasks)| >= (2 * k - 1) * |tasks|
  {
    var t, r, c := |tasks|, CompletionRate(tasks), |CompletedTasks(tasks)|;
    assert 2 * t * r <= 200 * c + t < 2 * t * (r + 1);
    assert (2 * k - 1) * t == 2 * t * k - t;
    if r >= k {
      MulMonotone(2 * t, k, r);
    } else {
      MulMonotone(2 * t, r + 1, k);
    }
  }

  /** The trophy is highlighted at a rate of 50 or more: when 200 times the completed count
      reaches 99 times the total. */
  function TrophyLit(tasks: seq<Task>): (b: bool)
    ensures b <==> |tasks| > 0 && 200 * |CompletedTasks(tasks)| >= 99 * |tasks|
  {
    if |tasks| > 0 then RateAtLeast(tasks, 50); CompletionRate(tasks) >= 50
    else CompletionRate(tasks) >= 50
  }

  /** "Crushing it!" shows at a rate of 80 or more: when 200 times the completed count
      reaches 159 times the total. */
  function CrushingIt(tasks: seq<Task>): (b: bool)
    ensures b <==> |tasks| > 0 && 200 * |CompletedTasks(tasks)| >= 159 * |tasks|
  {
    if |tasks| > 0 then RateAtLeast(tasks, 80); CompletionRate(tasks) >= 80
    else CompletionRate(tasks) >= 80
  }

  /** getGreeting for the current hour. */
  function Greeting(hour: int): (g: string)
    ensures g == "Good morning" <==> hour < 12
    ensures g == "Good afternoon" <==> 12 <= hour < 17
    ensures g == "Good evening" <==> hour >= 17
  {
    if hour < 12 then "Good morning"
    else if hour < 17 then "Good afternoon"
    else "Good evening"
  }

  /** firstName: the signed-in user's name up to the first space, or "there" when there is
      no user or that part is empty. */
  function FirstName(userName: Option<string>): (r: string)
    ensures userName.None? ==> r == "there"
    ensures userName.Some? && (|userName.value| == 0 || userName.value[0] == ' ') ==> r == "there"
    ensures userName.Some? && |userName.value| > 0 && userName.value[0] != ' ' ==>
      && |r| > 0 && Lacks(r, ' ') && StartsWith(userName.value, r)
      && (|r| == |userName.value| || userName.value[|r|] == ' ')
  {
    if userName.None? then "there"
    else
      var name := userName.value;
      var piece := Split(name, ' ')[0];
      SplitFirstShape(name, ' ');
      if piece == "" then "there" else piece
  }
}

=== FILE: generate_report.dfy ===
/** The report generator's form: the date-range choice, the manual date pickers, the project
    checkboxes and the guard on generating. The clock's reading is an input here. */
module GenerateReport {
  import opened Base

  datatype RangeOption = ThisWeek | LastWeek | Last7Days | Custom

  /** Milliseconds in a day. */
  const DayMs := 86_400_000

  type TimeOfDay = t: int | 0 <= t < DayMs

  /** A point in time: a day number and the milliseconds past that day's midnight. Day numbers
      count from a Monday, so a day is a Monday exactly when it is a multiple of 7. */
  datatype Moment = Moment(day: int, time: TimeOfDay)

  /** `a > b` on two dates. */
  predicate Later(a: Moment, b: Moment) {
    a.day > b.day || (a.day == b.day && a.time > b.time)
  }

  /** The calendar hands out days at midnight. */
  function Midnight(day: int): Moment {
    Moment(day, 0)
  }

  /** startOfWeek with weeks starting on Monday: midnight of the Monday on or before the moment. */
  function StartOfWeek(m: Moment): (r: Moment)
    ensures r.day % 7 == 0 && r.day <= m.day < r.day + 7 && r.time == 0
    ensures !Later(r, m)
  {
    Moment(m.day - m.day % 7, 0)
  }

  /** endOfWeek with weeks starting on Monday: the last millisecond of that week's Sunday. */
  function EndOfWeek(m: Moment): (r: Moment)
    ensures r.day == StartOfWeek(m).day + 6 && r.time == DayMs - 1
    ensures !Later(m, r)
  {
    Moment(m.day - m.day % 7 + 6, DayMs - 1)
  }

  /** subDays: the same time of day, n days earlier. */
  function SubDays(m: Moment, n: int): (r: Moment)
    ensures r.day + n == m.day && r.time == m.time
  {
    Moment(m.day - n, m.time)
  }

  /** The form. */
  datatype Form = Form(range: RangeOption, startDate: Moment, endDate: Moment,
                       selected: seq<string>, isGenerating: bool)

  /** The initial form: this week around the clock's `now`, with every project's id selected in
      list order. */
  function InitialForm(projectIds: seq<string>, now: Moment): (f: Form)
    ensures f.range == ThisWeek && f.startDate == StartOfWeek(now) && f.endDate == EndOfWeek(now)
    ensures !Later(f.startDate, now) && !Later(now, f.endDate)
    ensures f.selected == projectIds && !f.isGenerating
    ensures forall id :: id in projectIds ==> id in f.selected
  {
    Form(ThisWeek, StartOfWeek(now), EndOfWeek(now), projectIds, false)
  }

  /** handleDateRangeChange at the clock's `now`: the option is taken; the three preset options
      set the dates, and 'custom', which has no case, keeps them. */
  function ChooseRange(f: Form, option: RangeOption, now: Moment): (r: Form)
    ensures r.range == option
    ensures option == Custom ==> r.startDate == f.startDate && r.endDate == f.endDate
    ensures option == ThisWeek ==>
      r.startDate.day % 7 == 0 && r.startDate.time == 0 && r.endDate.day == r.startDate.day + 6
      && r.endDate.time == DayMs - 1 && !Later(r.startDate, now) && !Later(now, r.endDate)
    ensures option == LastWeek ==>
      r.startDate.day % 7 == 0 && r.startDate.time == 0 && r.endDate.day == r.startDate.day + 6
      && r.endDate.time == DayMs - 1 && r.endDate.day + 1 == StartOfWeek(now).day
    ensures option == Last7Days ==>
      r.endDate == now && r.startDate.day + 6 == now.day && r.startDate.time == now.time
    ensures option != Custom ==> !Later(r.startDate, r.endDate)
    ensures r.selected == f.selected && r.isGenerating == f.isGenerating
  {
    match option
    case ThisWeek => f.(range := option, startDate := StartOfWeek(now), endDate := EndOfWeek(now))
    case LastWeek =>
      var lastWeek := SubDays(now, 7);
      f.(range := option, startDate := StartOfWeek(lastWeek), endDate := EndOfWeek(lastWeek))
    case Last7Days => f.(range := option, startDate := SubDays(now, 6), endDate := now)
    case Custom => f.(range := option)
  }

  /** Picking a start date by hand: the picked day, at midnight, becomes the start and the
      range becomes 'custom'; clearing the picker changes nothing. */
  function PickStart(f: Form, d: Option<int>): (r: Form)
    ensures d.None? ==> r == f
    ensures d.Some? ==> r.startDate.day == d.value && r.startDate.time == 0 && r.range == Custom
    ensures r.(startDate := f.startDate, range := f.range) == f
  {
    match d
    case None => f
    case Some(day) => f.(startDate := Midnight(day), range := Custom)
  }

  /** Picking an end date by hand, in the same way. */
  function PickEnd(f: Form, d: Option<int>): (r: Form)
    ensures d.None? ==> r == f
    ensures d.Some? ==> r.endDate.day == d.value && r.endDate.time == 0 && r.range == Custom
    ensures r.(endDate := f.endDate, range := f.range) == f
  {
    match d
    case None => f
    case Some(day) => f.(endDate := Midnight(day), range := Custom)
  }

  /** The start picker disables the days after `now`; today itself stays on offer. */
  function StartPickable(day: int, now: Moment): (b: bool)
    ensures b <==> day <= now.day
  {
    !Later(Midnight(day), now)
  }

  /** The end picker disables the days after `now` and the days whose midnight is before the
      start. A start carrying a time of day therefore disables its own day as well. */
  function EndPickable(f: Form, day: int, now: Moment): (b: bool)
    ensures b <==> day <= now.day
                   && (f.startDate.day < day || (f.startDate.day == day && f.startDate.time == 0))
    ensures b ==> !Later(PickEnd(f, Some(day)).startDate, PickEnd(f, Some(day)).endDate)
  {
    !(Later(Midnight(day), now) || Later(f.startDate, Midnight(day)))
  }

  /** After 'Last 7 Days' chosen past midnight, the end picker refuses the start's own day and
      offers the next one; chosen exactly at midnight, it offers the start's day. */
  lemma Last7DaysStartDayDisabled(f: Form, now: Moment)
    ensures var r := ChooseRange(f, Last7Days, now);
      (EndPickable(r, r.startDate.day, now) <==> now.time == 0)
      && EndPickable(r, r.startDate.day + 1, now)
  {
  }

  /** After a week preset, or a start picked by hand, the end picker offers the start's own day
      whenever that day is not in the future. */
  lemma MidnightStartDayPickable(f: Form, option: RangeOption, d: int, now: Moment)
    requires option == ThisWeek || option == LastWeek
    ensures var r := ChooseRange(f, option, now); EndPickable(r, r.startDate.day, now)
    ensures d <= now.day ==> EndPickable(PickStart(f, Some(d)), d, now)
  {
  }

  /** Any manual pick leaves the range on 'custom'. */
  lemma PickingSwitchesToCustom(f: Form, d: int, e: int)
    ensures PickStart(f, Some(d)).range == Custom && PickEnd(f, Some(e)).range == Custom
    ensures PickEnd(PickStart(f, Some(d)), Some(e)).range == Custom
  {
  }

  /** toggleProject: a selected id is dropped wherever it occurs; any other is appended. */
  function ToggleProject(selected: seq<string>, id: string): (r: seq<string>)
    ensures id in selected ==> id !in r && IsSubseq(r, selected)
    ensures id !in selected ==> r == selected + [id]
    ensures forall x :: x != id ==> (x in r <==> x in selected)
  {
    if id in selected then
      FilterIsSubseq((x: string) => x != id, selected);
      Filter((x: string) => x != id, selected)
    else selected + [id]
  }

  /** Toggling the same project twice restores which projects are selected, and restores
      the list itself when the project was not selected. */
  lemma ToggleTwice(selected: seq<string>, id: string)
    ensures forall x :: x in ToggleProject(ToggleProject(selected, id), id) <==> x in selected
    ensures id !in selected ==> ToggleProject(ToggleProject(selected, id), id) == selected
  {
    if id !in selected {
      var once := selected + [id];
      FilterConcat((x: string) => x != id, selected, [id]);
      FilterAll((x: string) => x != id, selected);
    }
  }

  datatype GenerateOutcome = NoProjectSelected | Generating

  /** handleGenerate: refused with an empty selection, leaving the form as it was;
      otherwise generation starts. */
  function Generate(f: Form): (r: (Form, GenerateOutcome))
    ensures r.1 == NoProjectSelected <==> |f.selected| == 0
    ensures r.1 == NoProjectSelected ==> r.0 == f
    ensures r.1 == Generating ==> r.0 == f.(isGenerating := true)
  {
    if |f.selected| == 0 then (f, NoProjectSelected) else (f.(isGenerating := true), Generating)
  }

  /** The Generate button is disabled with an empty selection or while generating. */
  function GenerateDisabled(f: Form): (b: bool)
    ensures !b <==> !f.isGenerating && Generate(f).1 == Generating
    ensures b ==> Generate(f).1 == NoProjectSelected || f.isGenerating
  {
    |f.selected| == 0 || f.isGenerating
  }

  /** A press on an enabled button always starts generating. */
  lemma EnabledButtonGenerates(f: Form)
    requires !GenerateDisabled(f)
    ensures Generate(f).1 == Generating && GenerateDisabled(Generate(f).0)
  {
  }
}

=== FILE: guided_tour.dfy ===
/** The guided tour: eight steps walked by next, previous and go-to, started at the first step
    and ended without resetting the step. The completion flag it stores is left out. */
module GuidedTour {
  /** The ids of the eight tour steps, in order. */
  const StepIds: seq<string> := ["welcome", "paste-notes", "ai-extraction", "review-confirm",
                                 "email-intake", "manager-view", "reports", "tips"]

  const StepCount: nat := |StepIds|

  datatype Tour = Tour(isActive: bool, currentStep: int)

  const InitialTour: Tour := Tour(false, 0)

  /** The step always names one of the eight steps. */
  predicate Inv(t: Tour) {
    0 <= t.currentStep < StepCount
  }

  /** startTour: active, at the first step. */
  function Start(t: Tour): (r: Tour)
    ensures r.isActive && r.currentStep == 0
    ensures Inv(r)
  {
    Tour(true, 0)
  }

  /** endTour: inactive; the step is kept. */
  function End(t: Tour): (r: Tour)
    ensures !r.isActive && r.currentStep == t.currentStep
    ensures Inv(t) ==> Inv(r)
  {
    t.(isActive := false)
  }

  /** nextStep: one step on below the last step; at the last step the tour ends. */
  function Next(t: Tour): (r: Tour)
    ensures t.currentStep < StepCount - 1 ==> r == t.(currentStep := t.currentStep + 1)
    ensures t.currentStep >= StepCount - 1 ==> r == End(t)
    ensures Inv(t) ==> Inv(r)
    ensures r.isActive ==> t.isActive
  {
    if t.currentStep < StepCount - 1 then t.(currentStep := t.currentStep + 1) else End(t)
  }

  /** prevStep: one step back above the first step, nothing otherwise. */
  function Prev(t: Tour): (r: Tour)
    ensures t.currentStep > 0 ==> r == t.(currentStep := t.currentStep - 1)
    ensures t.currentStep <= 0 ==> r == t
    ensures Inv(t) ==> Inv(r)
    ensures r.isActive == t.isActive
  {
    if t.currentStep > 0 then t.(currentStep := t.currentStep - 1) else t
  }

  /** goToStep: a target among the eight steps becomes the step; any other is ignored. */
  function GoTo(t: Tour, step: int): (r: Tour)
    ensures 0 <= step < StepCount ==> r == t.(currentStep := step)
    ensures !(0 <= step < StepCount) ==> r == t
    ensures Inv(t) ==> Inv(r)
    ensures r.isActive == t.isActive
  {
    if step >= 0 && step < StepCount then t.(currentStep := step) else t
  }

  datatype Op = StartOp | EndOp | NextOp | PrevOp | GoToOp(step: int)

  function Apply(t: Tour, op: Op): Tour {
    match op
    case StartOp => Start(t)
    case EndOp => End(t)
    case NextOp => Next(t)
    case PrevOp => Prev(t)
    case GoToOp(s) => GoTo(t, s)
  }

  /** The tour after a sequence of operations, first to last. */
  function Run(t: Tour, ops: seq<Op>): Tour
    decreases |ops|
  {
    if |ops| == 0 then t else Run(Apply(t, ops[0]), ops[1..])
  }

  /** Every operation keeps the step among the eight. */
  lemma ApplyKeepsInv(t: Tour, op: Op)
    requires Inv(t)
    ensures Inv(Apply(t, op))
  {
  }

  /** From the initial tour, every sequence of operations leaves the step among the eight,
      so the modal always has a step to show. */
  lemma {:induction false} RunKeepsInv(t: Tour, ops: seq<Op>)
    requires Inv(t)
    ensures Inv(Run(t, ops))
    decreases |ops|
  {
    if |ops| > 0 {
      ApplyKeepsInv(t, ops[0]);
      RunKeepsInv(Apply(t, ops[0]), ops[1..]);
    }
  }


  /** Next taken k times from step 0, for k below eight, stays active and reaches step k. */
  lemma {:induction false} NextWalks(k: nat)
    requires k < StepCount
    ensures Run(Tour(true, 0), seq(k, _ => NextOp)) == Tour(true, k)
    decreases k
  {
    if k > 0 {
      NextWalks(k - 1);
      RunSnoc(Tour(true, 0), seq(k - 1, _ => NextOp), NextOp);
      assert seq(k, _ => NextOp) == seq(k - 1, _ => NextOp) + [NextOp];
    }
  }

  /** Running a sequence with one more operation at the end applies it last. */
  lemma {:induction false} RunSnoc(t: Tour, ops: seq<Op>, op: Op)
    ensures Run(t, ops + [op]) == Apply(Run(t, ops), op)
    decreases |ops|
  {
    if |ops| == 0 {
      assert ops + [op] == [op];
    } else {
      assert (ops + [op])[1..] == ops[1..] + [op];
      RunSnoc(Apply(t, ops[0]), ops[1..], op);
    }
  }

  /** After starting, the eighth next ends the tour at its last step. */
  lemma EighthNextEnds()
    ensures Run(Start(InitialTour), seq(StepCount, _ => NextOp)) == Tour(false, StepCount - 1)
  {
    NextWalks(StepCount - 1);
    RunSnoc(Tour(true, 0), seq(StepCount - 1, _ => NextOp), NextOp);
    assert seq(StepCount, _ => NextOp) == seq(StepCount - 1, _ => NextOp) + [NextOp];
  }

  /** Next then previous returns to the step, below the last one. */
  lemma NextThenPrev(t: Tour)
    requires Inv(t) && t.currentStep < StepCount - 1
    ensures Prev(Next(t)) == t
  {
  }
}

=== FILE: inline_edit.dfy ===
/** The inline text editor of a parsed item: editing starts from the current value, Enter and
    leaving the field commit under one rule, Escape cancels. */
module InlineEdit {
  import opened Base
  import opened Text

  /** What the editor reports to its owner. */
  datatype Outcome = Save(text: string) | Cancel

  datatype Key = Enter | Escape | OtherKey

  /** The editor's state: the value it was opened on and the text in the field. */
  datatype Editor = Editor(value: string, editValue: string)

  /** Opening the editor puts the current value in the field. */
  function Open(value: string): (e: Editor)
    ensures e.editValue == e.value == value
  {
    Editor(value, value)
  }

  /** Typing replaces the field's text. */
  function Type(e: Editor, text: string): (r: Editor)
    ensures r.value == e.value && r.editValue == text
  {
    e.(editValue := text)
  }

  /** The commit rule: save the trimmed text when it is not blank and the untrimmed text
      differs from the original; otherwise cancel. */
  function Commit(e: Editor): (o: Outcome)
    ensures o.Save? <==> !IsBlank(e.editValue) && e.editValue != e.value
    ensures o.Save? ==> o.text == Trim(e.editValue) && o.text != ""
  {
    if Trim(e.editValue) != "" && e.editValue != e.value then Save(Trim(e.editValue)) else Cancel
  }

  /** A key press: Enter commits, Escape cancels, any other key reports nothing. */
  function KeyDown(e: Editor, k: Key): (o: Option<Outcome>)
    ensures k == Enter ==> o == Some(Commit(e))
    ensures k == Escape ==> o == Some(Cancel)
    ensures k == OtherKey <==> o.None?
  {
    match k
    case Enter => Some(Commit(e))
    case Escape => Some(Cancel)
    case OtherKey => None
  }

  /** Leaving the field commits as Enter does. */
  function Blur(e: Editor): (o: Outcome)
    ensures KeyDown(e, Enter) == Some(o)
  {
    Commit(e)
  }

  /** What is saved is already trimmed: trimming it again changes nothing, and it has no
      whitespace at either end. */
  lemma SavedTextIsTrimmed(e: Editor)
    requires Commit(e).Save?
    ensures Trim(Commit(e).text) == Commit(e).text
    ensures !IsSpace(Commit(e).text[0]) && !IsSpace(Commit(e).text[|Commit(e).text| - 1])
  {
    var t := Trim(e.editValue);
    assert Commit(e).text == t;
    assert !IsSpace(t[0]) && !IsSpace(t[|t| - 1]);
    TrimIdempotent(e.editValue);
  }

  /** Closing without typing never saves, and neither does a blank field. */
  lemma UnchangedOrBlankCancels(value: string, text: string)
    ensures Commit(Open(value)) == Cancel
    ensures IsBlank(text) ==> Commit(Type(Open(value), text)) == Cancel
  {
  }

  /** A leading space on a trimmed, non-empty text is trimmed away again. */
  lemma TrimPadded(value: string)
    requires value != "" && Trim(value) == value
    ensures Trim(" " + value) == value
  {
    assert !IsSpace(value[0]);
    assert IsBlank(" ");
    TrimStartRun(" ", value);
    assert TrimEnd(value) == value;
  }

  /** The comparison is made before trimming: padding a trimmed value with a space saves the
      value itself, which equals the original. */
  lemma PaddingSavesOriginal(value: string)
    requires value != "" && Trim(value) == value
    ensures Commit(Type(Open(value), " " + value)) == Save(value)
  {
    TrimPadded(value);
    var padded := " " + value;
    assert padded != value by {
      assert |padded| == |value| + 1;
    }
  }
}

=== FILE: logs_view.dfy ===
/** The daily-logs page: the case-insensitive search, the project filter, and the grouping of
    the filtered logs under their date headings. The date label of a log is a function the
    caller supplies, in place of the locale formatting against the clock. */
module LogsView {
  import opened Base
  import opened Text

  const All: string := "all"

  datatype LogStatus = Confirmed | Draft

  /** A log as the page lists it; `date` is whatever the date-label function reads. */
  datatype Log = Log(id: string, date: int, projectId: string, projectName: string,
                     itemsCount: nat, status: LogStatus, summary: string)

  /** The search box: an empty query matches every log; any other matches when, lower-cased,
      it occurs in the lower-cased summary or project name. */
  function MatchesSearch(log: Log, query: string): (b: bool)
    ensures query == "" ==> b
    ensures query != "" ==>
      (b <==> Occurs(Lower(log.summary), Lower(query)) || Occurs(Lower(log.projectName), Lower(query)))
  {
    query == "" || Contains(Lower(log.summary), Lower(query)) || Contains(Lower(log.projectName), Lower(query))
  }

  predicate MatchesProject(log: Log, projectFilter: string) {
    projectFilter == All || log.projectId == projectFilter
  }

  /** filteredLogs: the logs that match both, in their order. */
  function FilteredLogs(logs: seq<Log>, query: string, projectFilter: string): (r: seq<Log>)
    ensures forall l :: l in r <==> l in logs && MatchesSearch(l, query) && MatchesProject(l, projectFilter)
    ensures IsSubseq(r, logs)
  {
    var p := (l: Log) => MatchesSearch(l, query) && MatchesProject(l, projectFilter);
    FilterIsSubseq(p, logs);
    Filter(p, logs)
  }

  /** With no query and no project chosen every log is listed. */
  lemma NoFilterListsAll(logs: seq<Log>)
    ensures FilteredLogs(logs, "", All) == logs
  {
    FilterAll((l: Log) => MatchesSearch(l, "") && MatchesProject(l, All), logs);
  }

  /** The query's case does not matter. */
  lemma SearchIgnoresCase(log: Log, query: string)
    ensures MatchesSearch(log, Lower(query)) <==> MatchesSearch(log, query)
  {
    LowerIdempotent(query);
  }

  lemma LowerIdempotent(s: string)
    ensures Lower(Lower(s)) == Lower(s)
    ensures Lower(s) == "" <==> s == ""
  {
  }

  /** A date heading with its logs. */
  datatype DateGroup = DateGroup(key: string, logs: seq<Log>)

  function KeysOfGroups(groups: seq<DateGroup>): seq<string> {
    Map((g: DateGroup) => g.key, groups)
  }

  /** One reduce step: the log joins the end of its heading's group, which is opened at the
      end when the heading is new. */
  function AddToGroups(groups: seq<DateGroup>, key: string, log: Log): (r: seq<DateGroup>)
    ensures key in KeysOfGroups(groups) ==> KeysOfGroups(r) == KeysOfGroups(groups)
    ensures key !in KeysOfGroups(groups) ==> KeysOfGroups(r) == KeysOfGroups(groups) + [key]
  {
    if key in KeysOfGroups(groups) then
      var r := Map((g: DateGroup) => if g.key == key then g.(logs := g.logs + [log]) else g, groups);
      assert KeysOfGroups(r) == KeysOfGroups(groups);
      r
    else
      var r := groups + [DateGroup(key, [log])];
      assert KeysOfGroups(r) == KeysOfGroups(groups) + [key];
      r
  }

  /** groupedLogs: the reduce over the filtered logs, first to last. */
  function GroupLogs(logs: seq<Log>, dateKey: int -> string): (r: seq<DateGroup>)
    ensures KeysOfGroups(r) == FirstAppearance(KeysOfLogs(logs, dateKey))
    decreases |logs|
  {
    if |logs| == 0 then []
    else
      var init, last := logs[..|logs| - 1], logs[|logs| - 1];
      var groups := GroupLogs(init, dateKey);
      assert logs == init + [last];
      KeysSnoc(init, last, dateKey);
      AddToGroups(groups, dateKey(last.date), last)
  }

  /** The date headings of the logs, each kept where it first appears. */
  function FirstAppearance(keys: seq<string>): (r: seq<string>)
    ensures forall k :: k in r <==> k in keys
    ensures forall i, j :: 0 <= i < j < |r| ==> r[i] != r[j]
    decreases |keys|
  {
    if |keys| == 0 then []
    else
      var init := FirstAppearance(keys[..|keys| - 1]);
      var last := keys[|keys| - 1];
      assert keys == keys[..|keys| - 1] + [last];
      if last in init then init else init + [last]
  }

  function KeysOfLogs(logs: seq<Log>, dateKey: int -> string): seq<string> {
    Map((l: Log) => dateKey(l.date), logs)
  }

  /** The logs under one heading, in their order. */
  function UnderKey(logs: seq<Log>, dateKey: int -> string, key: string): seq<Log> {
    Filter((l: Log) => dateKey(l.date) == key, logs)
  }

  /** The grouping as a definition of its own: one group per heading in the order headings
      first appear, each holding exactly the logs with that heading in their order. */
  function Reference(logs: seq<Log>, dateKey: int -> string): seq<DateGroup> {
    Map((k: string) => DateGroup(k, UnderKey(logs, dateKey, k)), FirstAppearance(KeysOfLogs(logs, dateKey)))
  }

  lemma UnderKeySnoc(logs: seq<Log>, l: Log, dateKey: int -> string, key: string)
    ensures UnderKey(logs + [l], dateKey, key)
      == UnderKey(logs, dateKey, key) + (if dateKey(l.date) == key then [l] else [])
  {
    FilterConcat((x: Log) => dateKey(x.date) == key, logs, [l]);
  }

  lemma ReferenceKeys(logs: seq<Log>, dateKey: int -> string)
    ensures KeysOfGroups(Reference(logs, dateKey)) == FirstAppearance(KeysOfLogs(logs, dateKey))
  {
  }

  lemma KeysSnoc(init: seq<Log>, l: Log, dateKey: int -> string)
    ensures KeysOfLogs(init + [l], dateKey) == KeysOfLogs(init, dateKey) + [dateKey(l.date)]
    ensures var keys := KeysOfLogs(init, dateKey);
      FirstAppearance(keys + [dateKey(l.date)])
        == if dateKey(l.date) in keys then FirstAppearance(keys) else FirstAppearance(keys) + [dateKey(l.date)]
  {
    var keys := KeysOfLogs(init, dateKey);
    assert (keys + [dateKey(l.date)])[..|keys|] == keys;
  }

  /** A log whose heading is already present joins that heading's group. */
  lemma ReferenceSnocKnown(init: seq<Log>, l: Log, dateKey: int -> string)
    requires dateKey(l.date) in KeysOfLogs(init, dateKey)
    ensures Reference(init + [l], dateKey) == AddToGroups(Reference(init, dateKey), dateKey(l.date), l)
  {
    var k := dateKey(l.date);
    var before := Reference(init, dateKey);
    ReferenceKeys(init, dateKey);
    KeysSnoc(init, l, dateKey);
    var keysInit := FirstAppearance(KeysOfLogs(init, dateKey));
    assert k in KeysOfGroups(before);
    var f := (g: DateGroup) => if g.key == k then g.(logs := g.logs + [l]) else g;
    var after := Map(f, before);
    assert AddToGroups(before, k, l) == after;
    var want := Reference(init + [l], dateKey);
    assert |after| == |want|;
    forall i | 0 <= i < |want|
      ensures after[i] == want[i]
    {
      SnocKnownGroupAt(init, l, dateKey, i);
      assert after[i] == f(before[i]);
    }
  }

  /** One group of `ReferenceSnocKnown`: the log joins the group of its own heading only. */
  lemma SnocKnownGroupAt(init: seq<Log>, l: Log, dateKey: int -> string, i: int)
    requires FirstAppearance(KeysOfLogs(init + [l], dateKey)) == FirstAppearance(KeysOfLogs(init, dateKey))
    requires 0 <= i < |FirstAppearance(KeysOfLogs(init, dateKey))|
    ensures i < |Reference(init, dateKey)| == |Reference(init + [l], dateKey)|
    ensures var g := Reference(init, dateKey)[i];
      Reference(init + [l], dateKey)[i]
      == if g.key == dateKey(l.date) then g.(logs := g.logs + [l]) else g
  {
    var key := FirstAppearance(KeysOfLogs(init, dateKey))[i];
    UnderKeySnoc(init, l, dateKey, key);
    assert Reference(init, dateKey)[i] == DateGroup(key, UnderKey(init, dateKey, key));
    assert Reference(init + [l], dateKey)[i] == DateGroup(key, UnderKey(init + [l], dateKey, key));
  }

  /** A log with a new heading opens a group of its own at the end. */
  lemma ReferenceSnocNew(init: seq<Log>, l: Log, dateKey: int -> string)
    requires dateKey(l.date) !in KeysOfLogs(init, dateKey)
    ensures Reference(init + [l], dateKey) == AddToGroups(Reference(init, dateKey), dateKey(l.date), l)
  {
    var k := dateKey(l.date);
    var before := Reference(init, dateKey);
    ReferenceKeys(init, dateKey);
    KeysSnoc(init, l, dateKey);
    var keysInit := FirstAppearance(KeysOfLogs(init, dateKey));
    var keys := FirstAppearance(KeysOfLogs(init + [l], dateKey));
    assert keys == keysInit + [k];
    assert k !in KeysOfGroups(before);
    var after := before + [DateGroup(k, [l])];
    assert AddToGroups(before, k, l) == after;
    var want := Reference(init + [l], dateKey);
    assert |after| == |want| == |keys|;
    forall i | 0 <= i < |want|
      ensures after[i] == want[i]
    {
      SnocNewGroupAt(init, l, dateKey, i);
    }
  }

  /** One group of `ReferenceSnocNew`: an old heading's group gains nothing, and the new
      heading's group holds the new log alone. */
  lemma SnocNewGroupAt(init: seq<Log>, l: Log, dateKey: int -> string, i: int)
    requires dateKey(l.date) !in KeysOfLogs(init, dateKey)
    requires FirstAppearance(KeysOfLogs(init + [l], dateKey))
             == FirstAppearance(KeysOfLogs(init, dateKey)) + [dateKey(l.date)]
    requires 0 <= i <= |FirstAppearance(KeysOfLogs(init, dateKey))|
    ensures i < |Reference(init, dateKey)| ==> Reference(init + [l], dateKey)[i] == Reference(init, dateKey)[i]
    ensures i == |Reference(init, dateKey)| ==> Reference(init + [l], dateKey)[i] == DateGroup(dateKey(l.date), [l])
  {
    var k := dateKey(l.date);
    var keysInit := FirstAppearance(KeysOfLogs(init, dateKey));
    var keys := keysInit + [k];
    assert Reference(init + [l], dateKey)[i] == DateGroup(keys[i], UnderKey(init + [l], dateKey, keys[i]));
    if i < |keysInit| {
      assert Reference(init, dateKey)[i] == DateGroup(keysInit[i], UnderKey(init, dateKey, keysInit[i]));
      assert keys[i] == keysInit[i];
      assert keysInit[i] in keysInit;
      UnderKeySnoc(init, l, dateKey, keysInit[i]);
    } else {
      UnderKeySnoc(init, l, dateKey, k);
      FilterNone((x: Log) => dateKey(x.date) == k, init);
    }
  }

  /** The reduce computes the reference grouping. */
  lemma {:induction false} GroupLogsIsReference(logs: seq<Log>, dateKey: int -> string)
    ensures GroupLogs(logs, dateKey) == Reference(logs, dateKey)
    decreases |logs|
  {
    if |logs| > 0 {
      var init := logs[..|logs| - 1];
      var l := logs[|logs| - 1];
      assert logs == init + [l];
      GroupLogsIsReference(init, dateKey);
      if dateKey(l.date) in KeysOfLogs(init, dateKey) {
        ReferenceSnocKnown(init, l, dateKey);
      } else {
        ReferenceSnocNew(init, l, dateKey);
      }
    }
  }

  /** Every log is listed under its own heading and under no other, and the headings are
      distinct. */
  lemma EachLogInOneGroup(logs: seq<Log>, dateKey: int -> string, l: Log)
    requires l in logs
    ensures forall g :: g in GroupLogs(logs, dateKey) ==> (l in g.logs <==> g.key == dateKey(l.date))
    ensures exists g :: g in GroupLogs(logs, dateKey) && g.key == dateKey(l.date)
    ensures forall i, j :: 0 <= i < j < |GroupLogs(logs, dateKey)| ==>
      GroupLogs(logs, dateKey)[i].key != GroupLogs(logs, dateKey)[j].key
  {
    GroupLogsIsReference(logs, dateKey);
    var keys := FirstAppearance(KeysOfLogs(logs, dateKey));
    forall g | g in Reference(logs, dateKey)
      ensures l in g.logs <==> g.key == dateKey(l.date)
    {
      ReferenceGroup(logs, dateKey, g);
    }
    assert dateKey(l.date) in KeysOfLogs(logs, dateKey);
    var i :| 0 <= i < |keys| && keys[i] == dateKey(l.date);
    assert Reference(logs, dateKey)[i].key == dateKey(l.date);
  }

  /** A group of the reference holds the logs under its heading. */
  lemma ReferenceGroup(logs: seq<Log>, dateKey: int -> string, g: DateGroup)
    requires g in Reference(logs, dateKey)
    ensures g.logs == UnderKey(logs, dateKey, g.key)
  {
    var keys := FirstAppearance(KeysOfLogs(logs, dateKey));
    var k :| 0 <= k < |keys| && Reference(logs, dateKey)[k] == g;
  }

  /** Within a group the logs keep their order in the filtered list. */
  lemma GroupsKeepOrder(logs: seq<Log>, dateKey: int -> string)
    ensures forall g :: g in GroupLogs(logs, dateKey) ==> IsSubseq(g.logs, logs)
  {
    GroupLogsIsReference(logs, dateKey);
    forall g | g in Reference(logs, dateKey)
      ensures IsSubseq(g.logs, logs)
    {
      FilterIsSubseq((x: Log) => dateKey(x.date) == g.key, logs);
    }
  }

  /** The "No logs found" state advises adjusting the filters when a query or a project is set,
      which is exactly when the filters can hide a log. */
  function SuggestsAdjustingFilters(query: string, projectFilter: string): (b: bool)
    ensures b <==> exists logs :: FilteredLogs(logs, query, projectFilter) != logs
  {
    if query != "" || projectFilter != All then
      SomeLogHidden(query, projectFilter);
      true
    else
      assert forall logs :: FilteredLogs(logs, query, projectFilter) == logs by {
        forall logs ensures FilteredLogs(logs, query, projectFilter) == logs {
          NoFilterListsAll(logs);
        }
      }
      false
  }

  /** A set query or project hides some log: one with empty texts, or one from another project. */
  lemma SomeLogHidden(query: string, projectFilter: string)
    requires query != "" || projectFilter != All
    ensures exists logs :: FilteredLogs(logs, query, projectFilter) != logs
  {
    var other := if projectFilter == "" then "x" else "";
    var w := Log("", 0, if query != "" then "" else other, "", 0, Confirmed, "");
    if query != "" {
      assert Lower("") == "";
      assert !Occurs(Lower(w.summary), Lower(query));
    }
    assert w !in FilteredLogs([w], query, projectFilter);
  }
}

=== FILE: main_nav.dfy ===
/** The top navigation bar: the fixed list of entries, the manager-only filter, the rule that
    marks an entry active for the current path, the Tasks dropdown, and the avatar's
    initials. Whether the user is a manager is an input. */
module MainNav {
  import opened Base
  import opened Text

  datatype NavLink = NavLink(href: string, labelText: string)

  datatype NavItem = NavItem(href: string, labelText: string, managerOnly: bool,
                             children: seq<NavLink>)

  /** The entries, in bar order. */
  const NavItems: seq<NavItem> := [
    NavItem("/dashboard", "Dashboard", false, []),
    NavItem("/logs", "Logs", false, []),
    NavItem("/tasks", "Tasks", false, [NavLink("/tasks/today", "Today's Plan"), NavLink("/tasks", "All Tasks")]),
    NavItem("/reports", "Reports", false, []),
    NavItem("/manager", "Team", true, []),
    NavItem("/analytics", "Analytics", false, [])
  ]

  /** visibleNavItems: the entries in bar order, without the manager-only ones unless the
      user is a manager. */
  function VisibleNavItems(items: seq<NavItem>, isManager: bool): (r: seq<NavItem>)
    ensures forall it :: it in r <==> it in items && (!it.managerOnly || isManager)
    ensures IsSubseq(r, items)
    ensures isManager ==> r == items
  {
    var p := (it: NavItem) => !it.managerOnly || isManager;
    FilterIsSubseq(p, items);
    if isManager then FilterAll(p, items); Filter(p, items) else Filter(p, items)
  }

  /** In the bar, exactly the Team entry is manager-only. */
  lemma OnlyTeamIsManagerOnly()
    ensures forall it :: it in NavItems ==> (it.managerOnly <==> it.href == "/manager")
  {
  }

  /** A manager sees every entry; anyone else sees every entry but Team, in bar order. */
  lemma VisibleEntries(isManager: bool)
    ensures isManager ==> VisibleNavItems(NavItems, isManager) == NavItems
    ensures !isManager ==> forall it :: it in VisibleNavItems(NavItems, isManager) <==>
      it in NavItems && it.href != "/manager"
  {
    OnlyTeamIsManagerOnly();
  }

  /** An entry is active on its own path and on any path below it: exactly when the entry's
      path is a prefix of the current path that ends there or at a slash. */
  function IsActive(path: string, href: string): (b: bool)
    ensures b <==> |href| <= |path| && path[..|href|] == href && (|path| == |href| || path[|href|] == '/')
  {
    var below := StartsWith(path, href + "/");
    assert below <==> |href| < |path| && path[..|href|] == href && path[|href|] == '/' by {
      if |href| < |path| && path[..|href|] == href && path[|href|] == '/' {
        assert path[..|href| + 1] == href + "/";
      }
      if below {
        assert path[..|href| + 1][..|href|] == path[..|href|];
      }
    }
    path == href || below
  }

  /** A longer path that merely begins with the entry's path does not activate it, while a
      sub-path does. */
  lemma TasksActivation()
    ensures !IsActive("/tasksx", "/tasks")
    ensures IsActive("/tasks/today", "/tasks")
  {
    assert "/tasks/today"[..6] == "/tasks";
  }

  /** The links of an entry's dropdown, in declared order; an entry without children is a
      plain link. */
  function DropdownLinks(item: NavItem): (r: seq<string>)
    ensures |r| == |item.children|
    ensures forall i :: 0 <= i < |r| ==> r[i] == item.children[i].href
  {
    Map((c: NavLink) => c.href, item.children)
  }

  /** Only Tasks has a dropdown: Today's Plan, then All Tasks. */
  lemma OnlyTasksHasDropdown()
    ensures DropdownLinks(NavItems[2]) == ["/tasks/today", "/tasks"]
    ensures forall i :: 0 <= i < |NavItems| && i != 2 ==> |NavItems[i].children| == 0
  {
  }

  /** The first character of each non-empty piece. */
  function FirstChars(pieces: seq<string>): string
    decreases |pieces|
  {
    if |pieces| == 0 then ""
    else (if pieces[0] == "" then "" else [pieces[0][0]]) + FirstChars(pieces[1..])
  }

  predicate NonEmpty(w: string) {
    w != ""
  }

  /** The words of a name: its non-empty space-separated pieces. */
  function Words(name: string): seq<string> {
    Filter(NonEmpty, Split(name, ' '))
  }

  /** FirstChars holds one character per non-empty piece: the piece's first. */
  lemma {:induction false} FirstCharsOfWords(pieces: seq<string>)
    ensures |FirstChars(pieces)| == |Filter(NonEmpty, pieces)|
    ensures forall i :: 0 <= i < |FirstChars(pieces)| ==>
      FirstChars(pieces)[i] == Filter(NonEmpty, pieces)[i][0]
    decreases |pieces|
  {
    if |pieces| > 0 {
      FirstCharsOfWords(pieces[1..]);
    }
  }

  /** The upper-cased first letters of all the words of a name (an empty piece gives
      nothing, as undefined does in a join). */
  function AllInitials(name: string): (r: string)
    ensures |r| == |Words(name)|
    ensures forall i :: 0 <= i < |r| ==> r[i] == UpperChar(Words(name)[i][0])
  {
    FirstCharsOfWords(Split(name, ' '));
    Upper(FirstChars(Split(name, ' ')))
  }

  /** getInitials: at most the first two of those. */
  function Initials(name: string): (r: string)
    ensures |r| == if |Words(name)| < 2 then |Words(name)| else 2
    ensures forall i :: 0 <= i < |r| ==> r[i] == UpperChar(Words(name)[i][0])
    ensures r == AllInitials(name)[..|r|]
  {
    Take(AllInitials(name), 2)
  }

  /** The avatar: the initials of the signed-in user's name, or "U" with no user. */
  function AvatarText(userName: Option<string>): (r: string)
    ensures userName.None? ==> r == "U"
    ensures userName.Some? ==> r == Initials(userName.value)
  {
    match userName
    case None => "U"
    case Some(n) => Initials(n)
  }

  /** A name of spaces only leaves the avatar empty. */
  lemma BlankNameHasNoInitials(name: string)
    requires forall k :: 0 <= k < |name| ==> name[k] == ' '
    ensures Initials(name) == ""
  {
    var pieces := Split(name, ' ');
    forall i | 0 <= i < |pieces|
      ensures pieces[i] == ""
    {
      if pieces[i] != "" {
        PieceInJoin(pieces, i, ' ');
      }
    }
    FilterNone(NonEmpty, pieces);
  }

  /** Every character of a piece occurs in the joined text. */
  lemma {:induction false} PieceInJoin(pieces: seq<string>, i: nat, c: char)
    requires i < |pieces| && |pieces[i]| > 0
    ensures exists k :: 0 <= k < |Join(pieces, [c])| && Join(pieces, [c])[k] == pieces[i][0]
    decreases i
  {
    if i == 0 {
      assert Join(pieces, [c])[0] == pieces[0][0];
    } else {
      PieceInJoin(pieces[1..], i - 1, c);
      var j := Join(pieces[1..], [c]);
      var k :| 0 <= k < |j| && j[k] == pieces[i][0];
      assert Join(pieces, [c]) == pieces[0] + [c] + j;
      assert Join(pieces, [c])[|pieces[0]| + 1 + k] == j[k];
    }
  }

  /** The role badge. */
  function RoleBadge(isManager: bool): (r: string)
    ensures r == "Manager" <==> isManager
    ensures r == "IC" <==> !isManager
  {
    if isManager then "Manager" else "IC"
  }
}

=== FILE: manager_dashboard.dfy ===
/** The manager's team view: the four headline numbers, the team members' initials and
    last-log labels, and the top-blockers list. The day difference behind a last-log label
    comes from the clock and is an input. */
module ManagerDashboard {
  import opened Base
  import opened Text
  import MainNav

  datatype RiskLevel = High | Medium | Low

  datatype TeamMember = TeamMember(id: string, name: string, email: string,
                                   projects: seq<string>, openTasks: nat, blockers: nat)

  datatype Blocker = Blocker(id: string, text: string, owner: string, project: string,
                             daysOpen: nat, riskLevel: RiskLevel)

  datatype Ask = Ask(id: string, text: string, from: string, project: string, urgent: bool)

  datatype Stats = Stats(openTasks: nat, blockers: nat, asks: nat, highRisk: nat)

  function OpenTasksOf(team: seq<TeamMember>): nat
    decreases |team|
  {
    if |team| == 0 then 0 else team[0].openTasks + OpenTasksOf(team[1..])
  }

  /** The open tasks of a team are the sum over its members in either part of a split. */
  lemma {:induction false} OpenTasksAdd(a: seq<TeamMember>, b: seq<TeamMember>)
    ensures OpenTasksOf(a + b) == OpenTasksOf(a) + OpenTasksOf(b)
    decreases |a|
  {
    if |a| > 0 {
      assert (a + b)[1..] == a[1..] + b;
      OpenTasksAdd(a[1..], b);
    } else {
      assert a + b == b;
    }
  }

  /** stats: the members' open tasks added up, the number of blockers and of asks, and the
      number of high-risk blockers, which never exceeds the blockers. */
  function ComputeStats(team: seq<TeamMember>, blockers: seq<Blocker>, asks: seq<Ask>): (r: Stats)
    ensures r.openTasks == OpenTasksOf(team)
    ensures r.blockers == |blockers| && r.asks == |asks|
    ensures r.highRisk == |Filter((b: Blocker) => b.riskLevel == High, blockers)|
    ensures r.highRisk <= r.blockers
    ensures r.highRisk == r.blockers <==> forall b :: b in blockers ==> b.riskLevel == High
  {
    var high := Filter((b: Blocker) => b.riskLevel == High, blockers);
    HighRiskAllIff(blockers);
    Stats(OpenTasksOf(team), |blockers|, |asks|, |high|)
  }

  /** The filter keeps every element exactly when every element satisfies the predicate. */
  lemma {:induction false} HighRiskAllIff(blockers: seq<Blocker>)
    ensures |Filter((b: Blocker) => b.riskLevel == High, blockers)| == |blockers| <==>
      forall b :: b in blockers ==> b.riskLevel == High
    decreases |blockers|
  {
    var p := (b: Blocker) => b.riskLevel == High;
    if |blockers| > 0 {
      HighRiskAllIff(blockers[1..]);
      assert forall b :: b in blockers <==> b == blockers[0] || b in blockers[1..];
      if !p(blockers[0]) {
        assert |Filter(p, blockers)| == |Filter(p, blockers[1..])| <= |blockers[1..]|;
      }
    }
  }

  /** getInitials here: the upper-cased first letters of every word, with no cap. */
  function MemberInitials(name: string): (r: string)
    ensures |r| == |MainNav.Words(name)|
    ensures forall i :: 0 <= i < |r| ==> r[i] == UpperChar(MainNav.Words(name)[i][0])
  {
    MainNav.AllInitials(name)
  }

  /** The navigation bar's initials are the first two of these; a name of three words shows
      three letters here and two there. */
  lemma InitialsCapDiffers(name: string)
    ensures MainNav.Initials(name) == Take(MemberInitials(name), 2)
    ensures |MainNav.Words(name)| >= 3 ==> |MemberInitials(name)| >= 3 && |MainNav.Initials(name)| == 2
  {
  }

  /** formatDate: the whole days since the last log as a label. */
  function LastLogLabel(diffDays: int): (r: string)
    ensures diffDays == 0 <==> r == "Today"
    ensures diffDays == 1 <==> r == "Yesterday"
    ensures diffDays != 0 && diffDays != 1 ==> r == IntToString(diffDays) + " days ago"
  {
    if diffDays == 0 then "Today"
    else if diffDays == 1 then "Yesterday"
    else IntToString(diffDays) + " days ago"
  }

  /** Top Blockers: the first four blockers, in order. */
  function TopBlockers(blockers: seq<Blocker>): (r: seq<Blocker>)
    ensures |r| <= 4 && |r| <= |blockers|
    ensures |blockers| >= 4 ==> |r| == 4
    ensures r == blockers[..|r|]
  {
    Take(blockers, 4)
  }

  /** A member row's blocker badge: shown only for a member with blockers, holding their
      count in decimal. */
  function BlockerBadge(m: TeamMember): (r: Option<string>)
    ensures r.Some? <==> m.blockers > 0
    ensures r.Some? ==> |r.value| >= 1 && r.value[0] != '0'
    ensures r.Some? ==>
      (forall k :: 0 <= k < |r.value| ==> '0' <= r.value[k] <= '9') && ParseNat(r.value) == m.blockers
  {
    if m.blockers > 0 then
      NatToStringRoundTrip(m.blockers);
      Some(NatToString(m.blockers))
    else None
  }
}

=== FILE: new_log.dfy ===
/** The new-log form: the notes with their 10,000-character cap, up to five link attachments,
    today's meetings imported into the notes as text, and the guards on submitting. Fresh
    attachment ids are inputs. */
module NewLog {
  import opened Base
  import opened Text

  const MaxCharacters: nat := 10000
  const MaxAttachments: nat := 5

  datatype Attachment = Attachment(id: string, url: string, labelText: string)

  datatype Meeting = Meeting(id: string, title: string, start: string, end: string,
                             attendees: seq<string>)

  /** The three demo meetings offered for import. */
  const TodayMeetings: seq<Meeting> := [
    Meeting("m1", "Daily standup", "9:30 AM", "10:00 AM", ["Priya", "Meha", "Raj"]),
    Meeting("m2", "1:1 with Raj", "1:00 PM", "1:30 PM", ["Priya", "Raj"]),
    Meeting("m3", "Vendor call - Payment Gateway", "2:30 PM", "3:00 PM", ["Priya", "Vendor Team"])
  ]

  /** The form's state. */
  datatype Form = Form(projectId: string, rawText: string, attachments: seq<Attachment>,
                       showAttachments: bool, selectedMeetings: set<string>,
                       showCalendarImport: bool)

  const InitialForm: Form := Form("", "", [], false, {}, false)

  /** isValidUrl: an empty URL passes; any other must begin with "http://" or "https://". */
  function IsValidUrl(url: string): (b: bool)
    ensures b <==> url == "" || StartsWith(url, "http://") || StartsWith(url, "https://")
    ensures b && url != "" ==> |url| >= 7 && url[..4] == "http"
  {
    url == "" || StartsWith(url, "http://") || StartsWith(url, "https://")
  }

  /** isValid: a project is chosen and the notes hold at least ten characters once trimmed. */
  function IsValid(f: Form): (b: bool)
    ensures b ==> f.projectId != "" && !IsBlank(f.rawText) && |f.rawText| >= 10
    ensures f.projectId != "" && Trim(f.rawText) == f.rawText && |f.rawText| >= 10 ==> b
  {
    f.projectId != "" && |Trim(f.rawText)| >= 10
  }

  /** Typing in the notes keeps the first 10,000 characters of the new value. */
  function TypeNotes(f: Form, value: string): (r: Form)
    ensures |r.rawText| <= MaxCharacters && StartsWith(value, r.rawText)
    ensures |value| <= MaxCharacters ==> r.rawText == value
    ensures |value| > MaxCharacters ==> |r.rawText| == MaxCharacters
    ensures r.(rawText := f.rawText) == f
  {
    f.(rawText := Take(value, MaxCharacters))
  }

  /** The counter turns to a warning above 90% of the cap. */
  function CounterWarns(f: Form): (b: bool)
    ensures b <==> 10 * |f.rawText| > 9 * MaxCharacters
  {
    |f.rawText| > 9000
  }

  /** handleAddAttachment: refused at five; otherwise one empty attachment is appended and
      the list is shown. */
  function AddAttachment(f: Form, freshId: string): (r: Form)
    ensures |f.attachments| >= MaxAttachments ==> r == f
    ensures |f.attachments| < MaxAttachments ==>
      && r.attachments == f.attachments + [Attachment(freshId, "", "")]
      && r.showAttachments
      && r.(attachments := f.attachments, showAttachments := f.showAttachments) == f
  {
    if |f.attachments| >= MaxAttachments then f
    else f.(showAttachments := true, attachments := f.attachments + [Attachment(freshId, "", "")])
  }

  /** handleRemoveAttachment: drops every attachment with the id, keeping the others in
      order; the list is hidden when none is left. */
  function RemoveAttachment(f: Form, id: string): (r: Form)
    ensures forall a :: a in r.attachments <==> a in f.attachments && a.id != id
    ensures IsSubseq(r.attachments, f.attachments)
    ensures |r.attachments| == 0 ==> !r.showAttachments
    ensures |r.attachments| > 0 ==> r.showAttachments == f.showAttachments
    ensures r.(attachments := f.attachments, showAttachments := f.showAttachments) == f
  {
    var p := (a: Attachment) => a.id != id;
    FilterIsSubseq(p, f.attachments);
    var rest := Filter(p, f.attachments);
    f.(attachments := rest, showAttachments := if |rest| == 0 then false else f.showAttachments)
  }

  datatype Field = Url | LabelField

  /** One field of an attachment set to a value. */
  function SetField(a: Attachment, field: Field, value: string): Attachment {
    match field
    case Url => a.(url := value)
    case LabelField => a.(labelText := value)
  }

  /** handleAttachmentChange: the named field of the attachments with the id takes the value;
      nothing else changes. */
  function ChangeAttachment(f: Form, id: string, field: Field, value: string): (r: Form)
    ensures |r.attachments| == |f.attachments|
    ensures forall i :: 0 <= i < |f.attachments| && f.attachments[i].id == id ==>
      && (field == Url ==> r.attachments[i] == f.attachments[i].(url := value))
      && (field == LabelField ==> r.attachments[i] == f.attachments[i].(labelText := value))
    ensures forall i :: 0 <= i < |f.attachments| && f.attachments[i].id != id ==>
      r.attachments[i] == f.attachments[i]
    ensures r.(attachments := f.attachments) == f
  {
    f.(attachments := Map((a: Attachment) => if a.id == id then SetField(a, field, value) else a,
                          f.attachments))
  }

  /** Adding, removing and changing attachments never takes the list above five. */
  lemma AttachmentCapHolds(f: Form, freshId: string, id: string, field: Field, value: string)
    requires |f.attachments| <= MaxAttachments
    ensures |AddAttachment(f, freshId).attachments| <= MaxAttachments
    ensures |RemoveAttachment(f, id).attachments| <= MaxAttachments
    ensures |ChangeAttachment(f, id, field, value).attachments| <= MaxAttachments
  {
  }

  /** handleToggleMeeting: a selected meeting is deselected and any other selected. */
  function ToggleMeeting(f: Form, id: string): (r: Form)
    ensures id in r.selectedMeetings <==> id !in f.selectedMeetings
    ensures forall m :: m != id ==> (m in r.selectedMeetings <==> m in f.selectedMeetings)
    ensures r.(selectedMeetings := f.selectedMeetings) == f
  {
    f.(selectedMeetings := if id in f.selectedMeetings then f.selectedMeetings - {id}
                           else f.selectedMeetings + {id})
  }

  /** Toggling the same meeting twice restores the form. */
  lemma ToggleMeetingTwice(f: Form, id: string)
    ensures ToggleMeeting(ToggleMeeting(f, id), id) == f
  {
    var r := ToggleMeeting(ToggleMeeting(f, id), id);
    assert r.selectedMeetings == f.selectedMeetings;
  }

  /** The text one meeting is imported as. */
  function MeetingText(m: Meeting): (r: string)
    ensures StartsWith(r, "Meeting: " + m.title + "\nTime: " + m.start)
    ensures r[|r| - 1] == '\n'
  {
    "Meeting: " + m.title + "\nTime: " + m.start + " - " + m.end
      + "\nAttendees: " + Join(m.attendees, ", ") + "\n"
  }

  const MeetingSeparator: string := "\n---\n\n"
  const NotesSeparator: string := "\n\n---\n\n"

  /** The block for the selected meetings, in the order of the meeting list. */
  function ImportedBlock(meetings: seq<Meeting>, selected: set<string>): (r: string)
    ensures r == "" <==> forall i :: 0 <= i < |meetings| ==> meetings[i].id !in selected
  {
    var chosen := Filter((m: Meeting) => m.id in selected, meetings);
    var texts := Map(MeetingText, chosen);
    var r := Join(texts, MeetingSeparator);
    assert |chosen| > 0 ==> |r| >= |texts[0]| > 0 by {
      if |chosen| > 0 {
        assert |texts[0]| > 0;
        if |texts| > 1 {
          assert r == texts[0] + MeetingSeparator + Join(texts[1..], MeetingSeparator);
        }
      }
    }
    assert |chosen| == 0 <==> forall i :: 0 <= i < |meetings| ==> meetings[i].id !in selected by {
      if |chosen| > 0 {
        assert chosen[0] in meetings;
      }
      if exists i :: 0 <= i < |meetings| && meetings[i].id in selected {
        var i :| 0 <= i < |meetings| && meetings[i].id in selected;
        assert meetings[i] in chosen;
      }
    }
    r
  }

  /** handleImportMeetings: nothing happens with no meeting selected; otherwise the notes
      are kept as they are and followed by the separator, when they are non-empty, and the
      block; the selection is cleared and the import panel closed. The cap is not applied. */
  function ImportMeetings(f: Form, meetings: seq<Meeting>): (r: Form)
    ensures |f.selectedMeetings| == 0 ==> r == f
    ensures |f.selectedMeetings| > 0 ==>
      && r.rawText == (if f.rawText != "" then f.rawText + NotesSeparator else "")
                      + ImportedBlock(meetings, f.selectedMeetings)
      && r.selectedMeetings == {} && !r.showCalendarImport
      && r.(rawText := f.rawText, selectedMeetings := f.selectedMeetings,
            showCalendarImport := f.showCalendarImport) == f
    ensures StartsWith(r.rawText, f.rawText)
  {
    if |f.selectedMeetings| == 0 then f
    else
      var imported := ImportedBlock(meetings, f.selectedMeetings);
      var text := (if f.rawText != "" then f.rawText + NotesSeparator else "") + imported;
      assert text[..|f.rawText|] == f.rawText;
      f.(rawText := text, showCalendarImport := false, selectedMeetings := {})
  }

  /** Importing one selected meeting adds exactly its text. */
  lemma ImportOne(f: Form, k: nat)
    requires k < |TodayMeetings| && f.selectedMeetings == {TodayMeetings[k].id}
    ensures ImportMeetings(f, TodayMeetings).rawText ==
      (if f.rawText != "" then f.rawText + NotesSeparator else "") + MeetingText(TodayMeetings[k])
  {
    FilterSingle((m: Meeting) => m.id in f.selectedMeetings, TodayMeetings, k);
  }

  /** Importing into notes at the cap makes them longer than the cap. */
  lemma ImportPassesCap(f: Form, k: nat)
    requires |f.rawText| == MaxCharacters
    requires k < |TodayMeetings| && f.selectedMeetings == {TodayMeetings[k].id}
    ensures |ImportMeetings(f, TodayMeetings).rawText| > MaxCharacters
  {
    ImportOne(f, k);
  }

  /** The outcome of pressing submit. */
  datatype SubmitOutcome = Invalid | BadUrls | Submitting

  /** handleSubmit: an invalid form does nothing; a non-empty URL that fails isValidUrl
      stops with the URL message; otherwise the log is sent. */
  function Submit(f: Form): (r: SubmitOutcome)
    ensures r == Invalid <==> !IsValid(f)
    ensures r == BadUrls <==> IsValid(f) && exists a :: a in f.attachments && !IsValidUrl(a.url)
    ensures r == Submitting <==> IsValid(f) && forall a :: a in f.attachments ==> IsValidUrl(a.url)
  {
    var bad := Filter((a: Attachment) => a.url != "" && !IsValidUrl(a.url), f.attachments);
    if !IsValid(f) then Invalid
    else if |bad| > 0 then
      assert bad[0] in bad;
      BadUrls
    else
      assert bad == [];
      Submitting
  }

  /** The submit button is disabled while the form is invalid or a submit is under way. */
  function SubmitDisabled(f: Form, isSubmitting: bool): (b: bool)
    ensures !b <==> !isSubmitting && Submit(f) != Invalid
  {
    !IsValid(f) || isSubmitting
  }
}

=== FILE: onboarding_setup.dfy ===
/** The onboarding form: one to four project rows, the per-row name checks with their error
    map, and the projects created on submit. Fresh row ids and the clock are inputs. */
module OnboardingSetup {
  import opened Base
  import opened Text
  import opened ProjectStore

  const MinRows: nat := 1
  const MaxRows: nat := 4

  const NameRequired: string := "Project name is required"
  const NameTooShort: string := "Project name must be at least 2 characters"
  const NameTooLong: string := "Project name must be 50 characters or less"
  const DuplicateName: string := "You already have a project with this name"

  datatype Row = Row(id: string, name: string, pod: string, quarter: string)

  /** The form: its rows and the error shown under each row, by row id. */
  datatype Setup = Setup(rows: seq<Row>, errors: map<string, string>)

  const InitialSetup: Setup := Setup([Row("temp-1", "", "", "")], map[])

  predicate DistinctRowIds(rows: seq<Row>) {
    DistinctBy((p: Row) => p.id, rows)
  }

  /** The form's invariant: one to four rows with distinct ids. */
  predicate Inv(s: Setup) {
    MinRows <= |s.rows| <= MaxRows && DistinctRowIds(s.rows)
  }

  lemma InitInv()
    ensures Inv(InitialSetup)
  {
  }

  /** handleAddProject: refused at four rows; otherwise an empty row with the fresh id is
      appended and the errors stay. */
  function AddRow(s: Setup, freshId: string): (r: Setup)
    ensures |s.rows| >= MaxRows ==> r == s
    ensures |s.rows| < MaxRows ==> r.rows == s.rows + [Row(freshId, "", "", "")] && r.errors == s.errors
  {
    if |s.rows| >= MaxRows then s else s.(rows := s.rows + [Row(freshId, "", "", "")])
  }

  /** handleRemoveProject: refused at one row; otherwise the rows with the id and its error
      entry go, and the rest keep their order. */
  function RemoveRow(s: Setup, id: string): (r: Setup)
    ensures |s.rows| <= MinRows ==> r == s
    ensures |s.rows| > MinRows ==>
      && (forall p :: p in r.rows <==> p in s.rows && p.id != id)
      && IsSubseq(r.rows, s.rows)
      && r.errors == s.errors - {id}
  {
    if |s.rows| <= MinRows then s
    else
      FilterIsSubseq((p: Row) => p.id != id, s.rows);
      Setup(Filter((p: Row) => p.id != id, s.rows), s.errors - {id})
  }

  datatype Field = Name | Pod | Quarter

  function SetField(p: Row, field: Field, value: string): Row {
    match field
    case Name => p.(name := value)
    case Pod => p.(pod := value)
    case Quarter => p.(quarter := value)
  }

  /** handleProjectChange: the named field of the rows with the id takes the value, other
      rows are untouched, and that row's error entry goes. */
  function ChangeRow(s: Setup, id: string, field: Field, value: string): (r: Setup)
    ensures |r.rows| == |s.rows|
    ensures forall i :: 0 <= i < |s.rows| ==>
      r.rows[i] == if s.rows[i].id == id then SetField(s.rows[i], field, value) else s.rows[i]
    ensures r.errors == s.errors - {id}
  {
    Setup(Map((p: Row) => if p.id == id then SetField(p, field, value) else p, s.rows),
          if id in s.errors then s.errors - {id} else s.errors)
  }

  /** What the checks read of a row: its id, the length of its trimmed name and the name
      as compared for duplicates. */
  datatype Checked = Checked(id: string, length: nat, key: string)

  /** A row's name as compared for duplicates. */
  function Key(p: Row): (r: string)
    ensures forall k :: 0 <= k < |r| ==> !('A' <= r[k] <= 'Z')
    ensures r == "" <==> IsBlank(p.name)
  {
    LowerFacts(p.name);
    TrimCharsFrom(Lower(p.name));
    Trim(Lower(p.name))
  }

  function CheckOf(p: Row): (c: Checked)
    ensures c.id == p.id && c.key == Key(p)
    ensures c.length == 0 <==> Trim(p.name) == ""
    ensures c.length == |Trim(p.name)|
  {
    Checked(p.id, |Trim(p.name)|, Key(p))
  }

  /** What a row's check can find wrong, in the order the checks run. */
  datatype Problem = Required | TooShort | TooLong | Duplicate

  function Message(p: Problem): string {
    match p
    case Required => NameRequired
    case TooShort => NameTooShort
    case TooLong => NameTooLong
    case Duplicate => DuplicateName
  }

  /** The check of one row against the names of the rows before it. */
  function RowError(c: Checked, seen: set<string>): (e: Option<Problem>)
    ensures e == Some(Required) <==> c.length == 0
    ensures e == Some(TooShort) <==> c.length == 1
    ensures e == Some(TooLong) <==> c.length > 50
    ensures e == Some(Duplicate) <==> 2 <= c.length <= 50 && c.key in seen
    ensures e.None? <==> 2 <= c.length <= 50 && c.key !in seen
  {
    if c.length == 0 then Some(Required)
    else if c.length < 2 then Some(TooShort)
    else if c.length > 50 then Some(TooLong)
    else if c.key in seen then Some(Duplicate)
    else None
  }

  /** The names seen after checking `cs`: every row's, whatever its check gave. */
  function Seen(cs: seq<Checked>): set<string> {
    set i | 0 <= i < |cs| :: cs[i].key
  }

  /** A name is seen exactly when some checked row has it. */
  lemma SeenIff(cs: seq<Checked>, k: string)
    ensures k in Seen(cs) <==> exists i :: 0 <= i < |cs| && cs[i].key == k
  {
  }

  /** The error map of checking `cs` in order, each against the names before it; a row's
      message is stored under its id. */
  function ErrorsOf(cs: seq<Checked>): map<string, string>
    decreases |cs|
  {
    if |cs| == 0 then map[]
    else
      var pre := cs[..|cs| - 1];
      var last := cs[|cs| - 1];
      var before := ErrorsOf(pre);
      match RowError(last, Seen(pre))
      case Some(p) => before[last.id := Message(p)]
      case None => before
  }

  /** validateProjects' error map for the rows. */
  function Errors(rows: seq<Row>): (r: map<string, string>)
    ensures forall id :: id in r ==> exists i :: 0 <= i < |rows| && rows[i].id == id
  {
    ErrorKeysAreRowIds(rows);
    ErrorsOf(Map(CheckOf, rows))
  }

  /** validateProjects: the errors replace the shown ones, and it succeeds when there are
      none. */
  function Validate(s: Setup): (r: (bool, Setup))
    ensures r.1 == s.(errors := Errors(s.rows))
    ensures r.0 <==> Errors(s.rows) == map[]
  {
    var e := Errors(s.rows);
    (|e| == 0, s.(errors := e))
  }

  /** The error map is empty exactly when every row passes its check. */
  lemma {:induction false} ErrorsEmptyIff(cs: seq<Checked>)
    ensures ErrorsOf(cs) == map[] <==> forall i :: 0 <= i < |cs| ==> RowError(cs[i], Seen(cs[..i])).None?
    decreases |cs|
  {
    if |cs| > 0 {
      var n := |cs| - 1;
      var pre := cs[..n];
      ErrorsEmptyIff(pre);
      forall i | 0 <= i < n
        ensures RowError(pre[i], Seen(pre[..i])) == RowError(cs[i], Seen(cs[..i]))
      {
        assert pre[i] == cs[i] && pre[..i] == cs[..i];
      }
      var e := RowError(cs[n], Seen(pre));
      if e.Some? {
        assert cs[n].id in ErrorsOf(cs);
      } else {
        assert ErrorsOf(cs) == ErrorsOf(pre);
      }
    }
  }

  /** The reference meaning of a passing list of checks: every length is 2 to 50 and no
      two keys are equal. */
  predicate AllGood(cs: seq<Checked>) {
    && (forall i :: 0 <= i < |cs| ==> 2 <= cs[i].length <= 50)
    && (forall i, j :: 0 <= i < j < |cs| ==> cs[i].key != cs[j].key)
  }

  lemma AllGoodIff(cs: seq<Checked>)
    ensures ErrorsOf(cs) == map[] <==> AllGood(cs)
  {
    ErrorsEmptyIff(cs);
    if AllGood(cs) {
      forall i | 0 <= i < |cs|
        ensures RowError(cs[i], Seen(cs[..i])).None?
      {
        SeenIff(cs[..i], cs[i].key);
        forall j | 0 <= j < i
          ensures cs[..i][j].key != cs[i].key
        {
          assert cs[..i][j] == cs[j];
        }
      }
    }
    if ErrorsOf(cs) == map[] {
      forall i, j | 0 <= i < j < |cs|
        ensures cs[i].key != cs[j].key
      {
        assert RowError(cs[j], Seen(cs[..j])).None?;
        SeenIff(cs[..j], cs[j].key);
        assert cs[..j][i] == cs[i];
      }
    }
  }

  /** The reference meaning of a passing form: every trimmed name has 2 to 50 characters
      and no two rows have the same compared name. */
  predicate AllRowsGood(rows: seq<Row>) {
    && (forall i :: 0 <= i < |rows| ==> 2 <= |Trim(rows[i].name)| <= 50)
    && (forall i, j :: 0 <= i < j < |rows| ==> Key(rows[i]) != Key(rows[j]))
  }

  /** Validation passes exactly when every row is good. */
  lemma ValidateIffAllGood(s: Setup)
    ensures Validate(s).0 <==> AllRowsGood(s.rows)
  {
    var cs := Map(CheckOf, s.rows);
    AllGoodIff(cs);
    ChecksMeanRows(s.rows);
  }

  /** The checks of the rows are all good exactly when the rows are. */
  lemma ChecksMeanRows(rows: seq<Row>)
    ensures AllGood(Map(CheckOf, rows)) <==> AllRowsGood(rows)
  {
    if AllGood(Map(CheckOf, rows)) {
      GoodChecksGoodRows(rows);
    }
    if AllRowsGood(rows) {
      GoodRowsGoodChecks(rows);
    }
  }

  lemma GoodChecksGoodRows(rows: seq<Row>)
    requires AllGood(Map(CheckOf, rows))
    ensures AllRowsGood(rows)
  {
    var cs := Map(CheckOf, rows);
    forall i | 0 <= i < |rows|
      ensures 2 <= |Trim(rows[i].name)| <= 50
    {
      assert cs[i] == CheckOf(rows[i]);
    }
    forall i, j | 0 <= i < j < |rows|
      ensures Key(rows[i]) != Key(rows[j])
    {
      assert cs[i] == CheckOf(rows[i]) && cs[j] == CheckOf(rows[j]);
    }
  }

  lemma GoodRowsGoodChecks(rows: seq<Row>)
    requires AllRowsGood(rows)
    ensures AllGood(Map(CheckOf, rows))
  {
    var cs := Map(CheckOf, rows);
    forall i | 0 <= i < |cs|
      ensures 2 <= cs[i].length <= 50
    {
      assert cs[i] == CheckOf(rows[i]);
    }
    forall i, j | 0 <= i < j < |cs|
      ensures cs[i].key != cs[j].key
    {
      assert cs[i] == CheckOf(rows[i]) && cs[j] == CheckOf(rows[j]);
    }
  }

  /** Every key of the error map is the id of a checked row. */
  lemma {:induction false} ErrorKeysAreIds(cs: seq<Checked>, k: string)
    requires k in ErrorsOf(cs)
    ensures exists i :: 0 <= i < |cs| && cs[i].id == k
    decreases |cs|
  {
    var n := |cs| - 1;
    var pre := cs[..n];
    if k != cs[n].id {
      ErrorKeysAreIds(pre, k);
      var i :| 0 <= i < |pre| && pre[i].id == k;
      assert cs[i] == pre[i];
    }
  }

  /** Every key of the rows' error map is the id of a row. */
  lemma ErrorKeysAreRowIds(rows: seq<Row>)
    ensures forall id :: id in ErrorsOf(Map(CheckOf, rows)) ==> exists i :: 0 <= i < |rows| && rows[i].id == id
  {
    var cs := Map(CheckOf, rows);
    assert |cs| == |rows|;
    assert forall a :: 0 <= a < |cs| ==> cs[a].id == rows[a].id by {
      forall a | 0 <= a < |cs|
        ensures cs[a].id == rows[a].id
      {
        assert cs[a] == CheckOf(rows[a]);
      }
    }
    forall id | id in ErrorsOf(cs)
      ensures exists i :: 0 <= i < |rows| && rows[i].id == id
    {
      ErrorKeysAreIds(cs, id);
    }
  }

  /** With distinct ids, each row's entry is exactly its own check's message. */
  lemma {:induction false} ErrorOfRow(cs: seq<Checked>, i: nat)
    requires DistinctBy((c: Checked) => c.id, cs) && i < |cs|
    ensures cs[i].id in ErrorsOf(cs) <==> RowError(cs[i], Seen(cs[..i])).Some?
    ensures cs[i].id in ErrorsOf(cs) ==> ErrorsOf(cs)[cs[i].id] == Message(RowError(cs[i], Seen(cs[..i])).value)
    decreases |cs|
  {
    var n := |cs| - 1;
    var pre := cs[..n];
    if i < n {
      assert pre[i] == cs[i] && pre[..i] == cs[..i];
      assert DistinctBy((c: Checked) => c.id, pre) by {
        forall a, b | 0 <= a < b < |pre|
          ensures pre[a].id != pre[b].id
        {
          assert pre[a] == cs[a] && pre[b] == cs[b];
        }
      }
      ErrorOfRow(pre, i);
      assert cs[n].id != cs[i].id;
    } else if cs[n].id in ErrorsOf(pre) {
      ErrorKeysAreIds(pre, cs[n].id);
    }
  }

  /** With distinct row ids, the message under a row's id is that row's check against the
      rows before it. */
  lemma ErrorUnderRowId(rows: seq<Row>, i: nat)
    requires DistinctRowIds(rows) && i < |rows|
    ensures var cs := Map(CheckOf, rows);
      && (rows[i].id in Errors(rows) <==> RowError(cs[i], Seen(cs[..i])).Some?)
      && (rows[i].id in Errors(rows) ==> Errors(rows)[rows[i].id] == Message(RowError(cs[i], Seen(cs[..i])).value))
  {
    var cs := Map(CheckOf, rows);
    IdsCarryOver(rows, cs);
    ErrorOfRow(cs, i);
  }

  /** Checked rows that keep their rows' ids keep them distinct. */
  lemma IdsCarryOver(rows: seq<Row>, cs: seq<Checked>)
    requires DistinctRowIds(rows) && |cs| == |rows|
    requires forall a :: 0 <= a < |rows| ==> cs[a].id == rows[a].id
    ensures DistinctBy((c: Checked) => c.id, cs)
  {
    forall a, b | 0 <= a < b < |cs|
      ensures cs[a].id != cs[b].id
    {
      assert rows[a].id != rows[b].id;
    }
  }

  /** The first row with a name is never reported as a duplicate. */
  lemma FirstOccurrenceNotDuplicate(cs: seq<Checked>, i: nat)
    requires i < |cs| && forall j :: 0 <= j < i ==> cs[j].key != cs[i].key
    ensures RowError(cs[i], Seen(cs[..i])) != Some(Duplicate)
  {
    SeenIff(cs[..i], cs[i].key);
    forall j | 0 <= j < i
      ensures cs[..i][j].key != cs[i].key
    {
      assert cs[..i][j] == cs[j];
    }
  }

  /** A row whose check failed still counts as seen by the rows after it. */
  lemma SeenHoldsFailedRows(cs: seq<Checked>, i: nat)
    requires i < |cs| && RowError(cs[i], Seen(cs[..i])).Some?
    ensures cs[i].key in Seen(cs[..i + 1])
  {
    assert cs[..i + 1][..i] == cs[..i];
  }

  /** isValid, which enables the Continue button: every trimmed name has at least two
      characters; length above 50 and duplicates are not looked at. */
  function CanContinue(s: Setup): (b: bool)
    ensures b <==> ChecksLengthOk(Map(CheckOf, s.rows))
  {
    ContinueMeansChecks(s.rows);
    NamesLongEnough(s.rows)
  }

  /** Every trimmed name has at least two characters. */
  predicate NamesLongEnough(rows: seq<Row>) {
    forall i :: 0 <= i < |rows| ==> |Trim(rows[i].name)| >= 2
  }

  /** A check's outcome says nothing against the name's length: it is not a missing or a
      one-character name. */
  predicate LengthOk(e: Option<Problem>) {
    e != Some(Required) && e != Some(TooShort)
  }

  /** No row's check, against the rows before it, reports a missing or one-character name. */
  predicate ChecksLengthOk(cs: seq<Checked>) {
    forall i :: 0 <= i < |cs| ==> LengthOk(RowError(cs[i], Seen(cs[..i])))
  }

  /** Every name has two characters after trimming exactly when no row's check reports a
      missing or a one-character name. */
  lemma ContinueMeansChecks(rows: seq<Row>)
    ensures NamesLongEnough(rows) <==> ChecksLengthOk(Map(CheckOf, rows))
  {
    var cs := Map(CheckOf, rows);
    forall i | 0 <= i < |cs|
      ensures LengthOk(RowError(cs[i], Seen(cs[..i]))) <==> |Trim(rows[i].name)| >= 2
    {
      assert cs[i] == CheckOf(rows[i]);
      RowErrorShort(cs[i], Seen(cs[..i]));
    }
  }

  /** A check reports neither a missing nor a one-character name exactly when the trimmed
      name has two characters or more. */
  lemma RowErrorShort(c: Checked, seen: set<string>)
    ensures LengthOk(RowError(c, seen)) <==> c.length >= 2
  {
  }

  /** A form that validates can continue. */
  lemma ValidateImpliesContinue(s: Setup)
    requires Validate(s).0
    ensures CanContinue(s)
  {
    ValidateIffAllGood(s);
  }

  /** A form that can continue may still fail validation: two rows with the same name of
      two or more characters do. */
  lemma SameNamesFailValidation(s: Setup)
    requires |s.rows| == 2 && s.rows[0].name == s.rows[1].name && |Trim(s.rows[0].name)| >= 2
    ensures CanContinue(s)
    ensures !Validate(s).0
  {
    var cs := Map(CheckOf, s.rows);
    assert cs[0].key == cs[1].key by {
      assert cs[0] == CheckOf(s.rows[0]) && cs[1] == CheckOf(s.rows[1]);
    }
    assert !AllGood(cs);
    AllGoodIff(cs);
    assert Errors(s.rows) != map[];
    forall i | 0 <= i < |s.rows|
      ensures |Trim(s.rows[i].name)| >= 2
    {
      if i == 1 {
        assert s.rows[1].name == s.rows[0].name;
      }
    }
  }

  /** The project handleSubmit passes to addProject for a row. */
  function ProjectOf(p: Row): (r: NewProject)
    ensures r.name == Trim(p.name)
    ensures NoneToEmpty(r.pod) == p.pod && NoneToEmpty(r.quarter) == p.quarter
    ensures r.pod.None? <==> p.pod == ""
  {
    NewProject(Trim(p.name), EmptyToNone(p.pod), EmptyToNone(p.quarter))
  }

  /** The id addProject gives a project created at clock reading `now`. */
  function ProjectIdAt(now: int): string {
    "proj-" + IntToString(now)
  }

  /** handleSubmit as the source does it: after a passing validation every row is added,
      all in one pass, so every addProject call reads the same clock value. */
  function SubmitAsWritten(projects: seq<Project>, s: Setup, now: int): (r: seq<Project>)
    ensures !Validate(s).0 ==> r == projects
    ensures Validate(s).0 ==>
      && |r| == |projects| + |s.rows| && r[..|projects|] == projects
      && forall k :: 0 <= k < |s.rows| ==> r[|projects| + k] == Created(ProjectOf(s.rows[k]), ProjectIdAt(now), now)
  {
    if !Validate(s).0 then projects
    else AddAll(projects, Map(ProjectOf, s.rows), seq(|s.rows|, _ => ProjectIdAt(now)), now)
  }

  /** Two rows submitted within one clock tick give two projects with the same id. */
  lemma SubmitAsWrittenDuplicatesIds(projects: seq<Project>, s: Setup, now: int)
    requires Validate(s).0 && |s.rows| >= 2
    ensures var r := SubmitAsWritten(projects, s, now);
      r[|projects|].id == r[|projects| + 1].id && !DistinctIds(r)
  {
    var r := SubmitAsWritten(projects, s, now);
    var n := |projects|;
    assert r[n] == Created(ProjectOf(s.rows[0]), ProjectIdAt(now), now);
    assert r[n + 1] == Created(ProjectOf(s.rows[1]), ProjectIdAt(now), now);
  }

  /** handleSubmit with one fresh id per row: the projects keep distinct ids. */
  function Submit(projects: seq<Project>, s: Setup, ids: seq<string>, now: int): (r: seq<Project>)
    requires |ids| == |s.rows|
    ensures !Validate(s).0 ==> r == projects
    ensures Validate(s).0 ==>
      && |r| == |projects| + |s.rows| && r[..|projects|] == projects
      && forall k :: 0 <= k < |s.rows| ==> r[|projects| + k] == Created(ProjectOf(s.rows[k]), ids[k], now)
  {
    if !Validate(s).0 then projects else AddAll(projects, Map(ProjectOf, s.rows), ids, now)
  }

  /** With ids that are distinct and new, submitting keeps project ids distinct. */
  lemma SubmitKeepsIdsDistinct(projects: seq<Project>, s: Setup, ids: seq<string>, now: int)
    requires |ids| == |s.rows| && DistinctIds(projects)
    requires forall i, j :: 0 <= i < j < |ids| ==> ids[i] != ids[j]
    requires forall i, k :: 0 <= i < |projects| && 0 <= k < |ids| ==> projects[i].id != ids[k]
    ensures DistinctIds(Submit(projects, s, ids, now))
  {
    if Validate(s).0 {
      AddAllKeepsIdsDistinct(projects, Map(ProjectOf, s.rows), ids, now);
    }
  }

  /** Adding with a fresh id, removing and changing keep the invariant. */
  lemma OperationsKeepInv(s: Setup, freshId: string, id: string, field: Field, value: string)
    requires Inv(s)
    requires forall i :: 0 <= i < |s.rows| ==> s.rows[i].id != freshId
    ensures Inv(AddRow(s, freshId))
    ensures Inv(RemoveRow(s, id))
    ensures Inv(ChangeRow(s, id, field, value))
    ensures Inv(Validate(s).1)
  {
    var p := (r: Row) => r.id != id;
    if |s.rows| > MinRows {
      FilterDistinct((r: Row) => r.id, p, s.rows);
      var kept := Filter(p, s.rows);
      assert |kept| >= 1 by {
        var a := if s.rows[0].id != id then 0 else 1;
        assert s.rows[a].id != id;
        assert s.rows[a] in kept;
      }
    }
  }
}

=== FILE: open_tasks_by_category.dfy ===
/** The dashboard's open-task panel: one group per category of the store's list that has an
    open task, each with that category's open tasks in store order, and a toggle whose toast
    undo toggles back. */
module OpenTasksByCategory {
  import opened Base
  import opened TaskStore

  /** A category with its open tasks. */
  datatype Group = Group(category: CategoryConfig, tasks: seq<Task>)

  /** The groups for `categories`, in their order, leaving out the empty ones. */
  function Groups(categories: seq<CategoryConfig>, open: seq<Task>): (r: seq<Group>)
    ensures forall g :: g in r ==>
      g.category in categories && g.tasks == TasksByCategory(open, g.category.id) && |g.tasks| > 0
    ensures IsSubseq(Map((g: Group) => g.category, r), categories)
    decreases |categories|
  {
    if |categories| == 0 then []
    else
      var c := categories[0];
      var own := TasksByCategory(open, c.id);
      var rest := Groups(categories[1..], open);
      var r := (if |own| > 0 then [Group(c, own)] else []) + rest;
      assert |own| > 0 ==> Map((g: Group) => g.category, r) == [c] + Map((g: Group) => g.category, rest);
      assert |own| == 0 ==> Map((g: Group) => g.category, r) == Map((g: Group) => g.category, rest);
      r
  }

  /** Every listed category with an open task has its group. */
  lemma {:induction false} GroupsComplete(categories: seq<CategoryConfig>, open: seq<Task>, i: nat)
    requires i < |categories| && |TasksByCategory(open, categories[i].id)| > 0
    ensures Group(categories[i], TasksByCategory(open, categories[i].id)) in Groups(categories, open)
    decreases i
  {
    if i > 0 {
      GroupsComplete(categories[1..], open, i - 1);
      assert categories[1..][i - 1] == categories[i];
    }
  }

  /** An open task whose category is not in the list appears in no group. */
  lemma UncategorisedHidden(categories: seq<CategoryConfig>, open: seq<Task>, t: Task)
    requires forall c :: c in categories ==> c.id != t.category
    ensures forall g :: g in Groups(categories, open) ==> t !in g.tasks
  {
  }

  /** An open task whose category is in the list appears in its category's group. */
  lemma CategorisedShown(categories: seq<CategoryConfig>, open: seq<Task>, t: Task, i: nat)
    requires t in open && i < |categories| && categories[i].id == t.category
    ensures exists g :: g in Groups(categories, open) && g.category.id == t.category && t in g.tasks
  {
    GroupsComplete(categories, open, i);
    var g := Group(categories[i], TasksByCategory(open, categories[i].id));
    assert t in g.tasks;
  }

  /** The "all caught up" message is shown exactly when no task is open. */
  function ShowsEmptyMessage(tasks: seq<Task>): (b: bool)
    ensures b <==> forall t :: t in tasks ==> t.status != Open
  {
    assert |OpenTasks(tasks)| > 0 ==> OpenTasks(tasks)[0] in OpenTasks(tasks);
    |OpenTasks(tasks)| == 0
  }

  /** With open tasks that all lie outside the category list, the panel shows neither a
      group nor the message. */
  lemma OnlyUncategorisedShowsNothing(s: Store)
    requires |OpenTasks(s.tasks)| > 0
    requires forall t, c :: t in s.tasks && c in s.categories ==> c.id != t.category
    ensures Groups(s.categories, OpenTasks(s.tasks)) == [] && !ShowsEmptyMessage(s.tasks)
  {
  }

  /** handleToggle: the store after the toggle and the id the toast's Undo toggles again. */
  function HandleToggle(s: Store, id: string, now: int): (r: (Store, string))
    ensures r.1 == id && r.0.categories == s.categories && |r.0.tasks| == |s.tasks|
    ensures forall i :: 0 <= i < |s.tasks| && s.tasks[i].id == id ==>
      r.0.tasks[i].status != s.tasks[i].status && r.0.tasks[i].id == id
    ensures forall i :: 0 <= i < |s.tasks| && s.tasks[i].id != id ==> r.0.tasks[i] == s.tasks[i]
  {
    (ToggleTaskStatus(s, id, now), id)
  }

  /** Undoing through the toast restores every task's status and the category list. */
  lemma ToggleThenUndo(s: Store, id: string, now: int, later: int)
    ensures var r := HandleToggle(s, id, now);
      var back := ToggleTaskStatus(r.0, r.1, later);
      && |back.tasks| == |s.tasks| && back.categories == s.categories
      && forall i :: 0 <= i < |s.tasks| ==> back.tasks[i].status == s.tasks[i].status
  {
    ToggleTwiceRestores(s, id, now, later);
  }
}

=== FILE: parsed_item_card.dfy ===
/** A parsed item of the review screen and the card that shows it. The card never changes the
    item itself: saving an edit, deleting and the undo actions of its toasts become calls on
    its owner, which are returned here as values. */
module ParsedItemCard {
  import opened Base
  import opened ConfidenceBadge

  datatype Risk = LowRisk | MediumRisk | HighRisk

  datatype ItemMetadata = ItemMetadata(person: Option<string>, riskLevel: Option<Risk>)

  /** One entry of an item's edit history; the time is an abstract clock reading. */
  datatype EditEntry = EditEntry(originalText: string, editedText: string, editedAt: int)

  datatype ParsedItem = ParsedItem(id: string, text: string, category: string, source: string,
                                   confidence: int, reasoning: Option<Reasoning>,
                                   metadata: Option<ItemMetadata>,
                                   editHistory: Option<seq<EditEntry>>)

  /** A Partial<ParsedItem> spread over an item. A required field is absent (None) or given;
      an optional field is absent (None), given as undefined (Some(None)) or given a value. */
  datatype ItemPatch = ItemPatch(id: Option<string>, text: Option<string>, category: Option<string>,
                                 source: Option<string>, confidence: Option<int>,
                                 reasoning: Option<Option<Reasoning>>,
                                 metadata: Option<Option<ItemMetadata>>,
                                 editHistory: Option<Option<seq<EditEntry>>>)

  /** `{...item, ...u}`: every field given in the patch replaces the item's. */
  function Merge(item: ParsedItem, u: ItemPatch): ParsedItem {
    ParsedItem(u.id.GetOr(item.id), u.text.GetOr(item.text), u.category.GetOr(item.category),
               u.source.GetOr(item.source), u.confidence.GetOr(item.confidence),
               u.reasoning.GetOr(item.reasoning), u.metadata.GetOr(item.metadata),
               u.editHistory.GetOr(item.editHistory))
  }

  /** A patch that replaces the text and nothing else. */
  function TextPatch(text: string): (u: ItemPatch)
    ensures u.text == Some(text) && u.id.None? && u.editHistory.None?
    ensures forall item: ParsedItem :: Merge(item, u) == item.(text := text)
  {
    ItemPatch(None, Some(text), None, None, None, None, None, None)
  }

  /** A call the card makes on its owner. */
  datatype Call = OnEdit(id: string, patch: ItemPatch) | OnDelete(id: string) | OnUndo(id: string)

  /** Saving an edit: the call made now, and the call the toast's Undo makes later. */
  datatype SaveCalls = SaveCalls(edit: Call, undo: Call)

  /** The item's history, an absent one read as empty. */
  function History(item: ParsedItem): seq<EditEntry> {
    item.editHistory.GetOr([])
  }

  /** handleSaveEdit: the new text and the history with one entry from the previous text to
      the new one; the toast's Undo puts the previous text back and touches nothing else. */
  function SaveEdit(item: ParsedItem, newText: string, now: int): (r: SaveCalls)
    ensures r.edit.OnEdit? && r.edit.id == item.id && r.edit.patch.id.None?
    ensures Merge(item, r.edit.patch) ==
      item.(text := newText, editHistory := Some(History(item) + [EditEntry(item.text, newText, now)]))
    ensures r.undo == OnEdit(item.id, TextPatch(item.text))
  {
    var entry := EditEntry(item.text, newText, now);
    var patch := ItemPatch(None, Some(newText), None, None, None, None, None,
                           Some(Some(History(item) + [entry])));
    SaveCalls(OnEdit(item.id, patch), OnEdit(item.id, TextPatch(item.text)))
  }

  /** Saving and then undoing gives back the text but keeps the new history entry. */
  lemma SaveThenUndo(item: ParsedItem, newText: string, now: int)
    ensures var r := SaveEdit(item, newText, now);
      var after := Merge(Merge(item, r.edit.patch), r.undo.patch);
      && after.text == item.text
      && History(after) == History(item) + [EditEntry(item.text, newText, now)]
      && after.(editHistory := item.editHistory) == item
  {
  }

  /** Deleting: the call made now, and the call the toast's Undo makes when the owner gave
      an undo handler. */
  datatype DeleteCalls = DeleteCalls(delete: Call, undo: Option<Call>)

  function Delete(item: ParsedItem, hasUndo: bool): (r: DeleteCalls)
    ensures r.delete == OnDelete(item.id)
    ensures r.undo.Some? <==> hasUndo
    ensures r.undo.Some? ==> r.undo.value == OnUndo(item.id)
  {
    DeleteCalls(OnDelete(item.id), if hasUndo then Some(OnUndo(item.id)) else None)
  }

  /** The card carries the blocker styling. */
  predicate IsBlocker(item: ParsedItem) {
    item.category == "blocker"
  }

  /** The card carries the low-confidence highlight: the score is below 60. */
  function LowConfidence(item: ParsedItem): (b: bool)
    ensures b <==> LevelOf(item.confidence) == Low
    ensures b <==> Render(item.confidence, None, item.reasoning).suffix.Some?
  {
    item.confidence < 60
  }
}

=== FILE: project_store.dfy ===
/** The in-memory project list (ProjectContext) and its four operations. The fresh id
    (`proj-` and the clock reading in the source) and the creation time are parameters. */
module ProjectStore {
  import opened Base

  datatype ProjectStatus = Active | Archived

  datatype Project = Project(id: string, name: string, pod: Option<string>,
                             quarter: Option<string>, status: ProjectStatus, createdAt: int)

  /** The argument of addProject: a project without id, status and creation time. */
  datatype NewProject = NewProject(name: string, pod: Option<string>, quarter: Option<string>)

  /** A Partial<Project> spread over a project. A required field is absent (None) or given; an
      optional field is absent (None), given as undefined (Some(None)) or given a value. */
  datatype ProjectPatch = ProjectPatch(id: Option<string>, name: Option<string>,
                                       pod: Option<Option<string>>, quarter: Option<Option<string>>,
                                       status: Option<ProjectStatus>, createdAt: Option<int>)

  /** The patch that changes nothing. */
  const NoChange: ProjectPatch := ProjectPatch(None, None, None, None, None, None)

  /** `s || undefined` on a form field: the empty text becomes no value. */
  function EmptyToNone(s: string): (r: Option<string>)
    ensures r.None? <==> s == ""
    ensures r.Some? ==> r.value == s
  {
    if s == "" then None else Some(s)
  }

  /** `v || ''` when a form is filled from a project: no value becomes the empty text. */
  function NoneToEmpty(v: Option<string>): (r: string)
    ensures r == "" <==> v.None? || v == Some("")
    ensures v.Some? ==> r == v.value
  {
    v.GetOr("")
  }

  /** Filling a form field from a project and saving it unchanged keeps the project's value,
      except that an empty text value is saved as none; saving a form field and filling it
      again gives the field back. */
  lemma EmptyNoneRoundTrip(v: Option<string>, s: string)
    ensures v != Some("") ==> EmptyToNone(NoneToEmpty(v)) == v
    ensures NoneToEmpty(EmptyToNone(s)) == s
  {
  }

  /** The project addProject creates: the caller's fields, then a fresh id, active status and
      the creation time, which win over anything the caller's object carried. */
  function Created(p: NewProject, id: string, now: int): Project {
    Project(id, p.name, p.pod, p.quarter, Active, now)
  }

  /** addProject: one active project with the fresh id goes at the end. */
  function AddProject(projects: seq<Project>, p: NewProject, id: string, now: int): (r: seq<Project>)
    ensures |r| == |projects| + 1 && r[..|projects|] == projects
    ensures r[|projects|].id == id && r[|projects|].status == Active && r[|projects|].createdAt == now
    ensures r[|projects|].name == p.name && r[|projects|].pod == p.pod && r[|projects|].quarter == p.quarter
  {
    projects + [Created(p, id, now)]
  }

  /** `{...p, ...u}`: every field given in the patch replaces the project's. */
  function Merge(p: Project, u: ProjectPatch): Project {
    Project(u.id.GetOr(p.id), u.name.GetOr(p.name), u.pod.GetOr(p.pod),
            u.quarter.GetOr(p.quarter), u.status.GetOr(p.status), u.createdAt.GetOr(p.createdAt))
  }

  /** Merging the empty patch changes nothing. */
  lemma MergeNoChange(p: Project)
    ensures Merge(p, NoChange) == p
  {
  }

  /** updateProject: the patch is merged into exactly the projects carrying `id`. */
  function UpdateProject(projects: seq<Project>, id: string, u: ProjectPatch): (r: seq<Project>)
    ensures |r| == |projects|
    ensures forall i :: 0 <= i < |projects| && projects[i].id == id ==> r[i] == Merge(projects[i], u)
    ensures forall i :: 0 <= i < |projects| && projects[i].id != id ==> r[i] == projects[i]
  {
    Map((p: Project) => if p.id == id then Merge(p, u) else p, projects)
  }

  /** deleteProject: exactly the projects carrying `id` disappear; the rest keep their order. */
  function DeleteProject(projects: seq<Project>, id: string): (r: seq<Project>)
    ensures forall p :: p in r <==> p in projects && p.id != id
    ensures IsSubseq(r, projects)
  {
    FilterIsSubseq((p: Project) => p.id != id, projects);
    Filter((p: Project) => p.id != id, projects)
  }

  /** getProject: the first project carrying `id`, or nothing when there is none. */
  function GetProject(projects: seq<Project>, id: string): (r: Option<Project>)
    ensures r.None? <==> forall i :: 0 <= i < |projects| ==> projects[i].id != id
    ensures r.Some? ==> r.value.id == id && r.value in projects
    ensures r.Some? ==>
      exists i :: 0 <= i < |projects| && projects[i] == r.value && forall j :: 0 <= j < i ==> projects[j].id != id
  {
    Find((p: Project) => p.id == id, projects)
  }

  /** The ids are pairwise different. */
  predicate DistinctIds(projects: seq<Project>) {
    DistinctBy((p: Project) => p.id, projects)
  }

  /** With distinct ids the project carrying `id` is the only one; getProject finds it. */
  lemma {:induction false} GetProjectAt(projects: seq<Project>, i: nat)
    requires DistinctIds(projects) && i < |projects|
    ensures GetProject(projects, projects[i].id) == Some(projects[i])
  {
    var r := GetProject(projects, projects[i].id);
    var j :| 0 <= j < |projects| && projects[j] == r.value
      && forall k :: 0 <= k < j ==> projects[k].id != projects[i].id;
    assert j == i;
  }

  /** After adding with an id not in use, getProject of that id gives the new project. */
  lemma AddThenGet(projects: seq<Project>, p: NewProject, id: string, now: int)
    requires forall i :: 0 <= i < |projects| ==> projects[i].id != id
    ensures GetProject(AddProject(projects, p, id, now), id) == Some(Created(p, id, now))
  {
    var r := AddProject(projects, p, id, now);
    var g := GetProject(r, id);
    var j :| 0 <= j < |r| && r[j] == g.value && forall k :: 0 <= k < j ==> r[k].id != id;
    assert j == |projects|;
  }

  /** After an update that keeps the id, getProject of that id gives the merged project. */
  lemma UpdateThenGet(projects: seq<Project>, id: string, u: ProjectPatch)
    requires u.id.None? || u.id == Some(id)
    requires GetProject(projects, id).Some?
    ensures GetProject(UpdateProject(projects, id, u), id) == Some(Merge(GetProject(projects, id).value, u))
  {
    var r := UpdateProject(projects, id, u);
    var g := GetProject(projects, id);
    var j :| 0 <= j < |projects| && projects[j] == g.value
      && forall k :: 0 <= k < j ==> projects[k].id != id;
    assert r[j] == Merge(g.value, u);
    forall k | 0 <= k < j
      ensures r[k].id != id
    {
      assert r[k] == projects[k];
    }
    FindFirst((p: Project) => p.id == id, r, j);
  }

  /** After deleting `id` getProject of it finds nothing. */
  lemma DeleteThenGet(projects: seq<Project>, id: string)
    ensures GetProject(DeleteProject(projects, id), id).None?
  {
    var r := DeleteProject(projects, id);
    forall i | 0 <= i < |r|
      ensures r[i].id != id
    {
      assert r[i] in r;
    }
  }

  /** Deleting keeps the other projects' ids distinct. */
  lemma DeleteKeepsIdsDistinct(projects: seq<Project>, id: string)
    requires DistinctIds(projects)
    ensures DistinctIds(DeleteProject(projects, id))
  {
    FilterDistinct((p: Project) => p.id, (p: Project) => p.id != id, projects);
  }

  /** The projects `news` added one after another, the k-th with id `ids[k]`. */
  function AddAll(projects: seq<Project>, news: seq<NewProject>, ids: seq<string>, now: int): (r: seq<Project>)
    requires |ids| == |news|
    ensures |r| == |projects| + |news| && r[..|projects|] == projects
    ensures forall k :: 0 <= k < |news| ==> r[|projects| + k] == Created(news[k], ids[k], now)
    decreases |news|
  {
    if |news| == 0 then projects
    else
      var r := AddAll(AddProject(projects, news[0], ids[0], now), news[1..], ids[1..], now);
      r
  }

  /** Adding with ids that are distinct and not in use keeps all ids distinct. */
  lemma AddAllKeepsIdsDistinct(projects: seq<Project>, news: seq<NewProject>, ids: seq<string>, now: int)
    requires |ids| == |news| && DistinctIds(projects)
    requires forall i, j :: 0 <= i < j < |ids| ==> ids[i] != ids[j]
    requires forall i, k :: 0 <= i < |projects| && 0 <= k < |ids| ==> projects[i].id != ids[k]
    ensures DistinctIds(AddAll(projects, news, ids, now))
  {
    var r := AddAll(projects, news, ids, now);
    var n := |projects|;
    forall i, j | 0 <= i < j < |r|
      ensures r[i].id != r[j].id
    {
      if j < n {
        assert r[i] == projects[i] && r[j] == projects[j];
      } else if i < n {
        assert r[i] == projects[i] && r[j].id == ids[j - n];
      } else {
        assert r[i].id == ids[i - n] && r[j].id == ids[j - n];
      }
    }
  }
}

=== FILE: quick_add_project.dfy ===
/** The dashboard's quick-add project dialog: a name check, then a cap of four on the ACTIVE
    projects, then addProject with the trimmed name. */
module QuickAddProject {
  import opened Base
  import opened Text
  import opened ProjectStore

  const MaxActive: nat := 4

  datatype Dialog = Dialog(open: bool, name: string, pod: string, quarter: string)

  datatype Outcome = NameMissing | CapReached | ProjectAdded

  datatype Submitted = Submitted(dialog: Dialog, projects: seq<Project>, outcome: Outcome)

  /** The active projects. */
  function ActiveCount(projects: seq<Project>): nat {
    Count((p: Project) => p.status == Active, projects)
  }

  /** handleSubmit: a blank name is refused first, then four or more active projects;
      otherwise the project is added and the fields are cleared and the dialog closed. A
      refusal changes nothing. */
  function Submit(d: Dialog, projects: seq<Project>, id: string, now: int): (r: Submitted)
    ensures r.outcome == NameMissing <==> Trim(d.name) == ""
    ensures r.outcome == CapReached <==> Trim(d.name) != "" && ActiveCount(projects) >= MaxActive
    ensures r.outcome != ProjectAdded ==> r.dialog == d && r.projects == projects
    ensures r.outcome == ProjectAdded ==>
      && |r.projects| == |projects| + 1 && r.projects[..|projects|] == projects
      && r.projects[|projects|]
           == Project(id, Trim(d.name), EmptyToNone(d.pod), EmptyToNone(d.quarter), Active, now)
      && r.dialog == Dialog(false, "", "", "")
  {
    if Trim(d.name) == "" then Submitted(d, projects, NameMissing)
    else if ActiveCount(projects) >= MaxActive then Submitted(d, projects, CapReached)
    else
      Submitted(Dialog(false, "", "", ""),
                AddProject(projects, NewProject(Trim(d.name), EmptyToNone(d.pod), EmptyToNone(d.quarter)), id, now),
                ProjectAdded)
  }

  /** Adding through this dialog never takes the active projects above four. */
  lemma SubmitKeepsActiveCap(d: Dialog, projects: seq<Project>, id: string, now: int)
    requires ActiveCount(projects) <= MaxActive
    ensures ActiveCount(Submit(d, projects, id, now).projects) <= MaxActive
  {
    var r := Submit(d, projects, id, now);
    if r.outcome == ProjectAdded {
      var np := Created(NewProject(Trim(d.name), EmptyToNone(d.pod), EmptyToNone(d.quarter)), id, now);
      assert r.projects == projects + [np];
      FilterConcat((p: Project) => p.status == Active, projects, [np]);
    }
  }

  /** Archived projects do not count: with a non-blank name and fewer than four active
      projects the dialog adds one, however many projects there are. */
  lemma ArchivedDoNotCount(d: Dialog, projects: seq<Project>, id: string, now: int)
    requires Trim(d.name) != "" && ActiveCount(projects) < MaxActive
    ensures |Submit(d, projects, id, now).projects| == |projects| + 1
  {
  }
}

=== FILE: quick_add_task.dfy ===
/** The dashboard's quick-add task dialog, with its inline new-project form. The fresh ids
    and the clock are inputs. */
module QuickAddTask {
  import opened Base
  import opened Text
  import opened TaskStore
  import PS = ProjectStore

  datatype Dialog = Dialog(open: bool, text: string, projectId: string, category: string,
                           showNewProject: bool, newProjectName: string)

  const InitialDialog: Dialog := Dialog(false, "", "", ActionItem, false, "")

  datatype Outcome = TextMissing | ProjectMissing | Added

  datatype Submitted = Submitted(dialog: Dialog, store: Store, outcome: Outcome)

  /** The task handleSubmit passes to addTask. */
  function TaskOf(d: Dialog): NewTask {
    NewTask(Trim(d.text), d.category, d.projectId, None, Open, None, None, None, None)
  }

  /** handleSubmit: blank text is refused first, then a missing project; otherwise one open
      task with the trimmed text, the chosen category and project is added, the text is
      cleared, the category reset to 'action_item' and the dialog closed, keeping the
      project. */
  function Submit(d: Dialog, s: Store, id: string, now: int): (r: Submitted)
    ensures r.outcome == TextMissing <==> Trim(d.text) == ""
    ensures r.outcome == ProjectMissing <==> Trim(d.text) != "" && d.projectId == ""
    ensures r.outcome != Added ==> r.dialog == d && r.store == s
    ensures r.outcome == Added ==>
      && |r.store.tasks| == |s.tasks| + 1 && r.store.tasks[..|s.tasks|] == s.tasks
      && r.store.categories == s.categories
      && r.dialog == d.(text := "", category := ActionItem, open := false)
    ensures r.outcome == Added ==>
      var t := r.store.tasks[|s.tasks|];
      && t.id == id && t.text == Trim(d.text) && t.category == d.category
      && t.projectId == d.projectId && t.status == Open && t.createdAt == now
  {
    if Trim(d.text) == "" then Submitted(d, s, TextMissing)
    else if d.projectId == "" then Submitted(d, s, ProjectMissing)
    else
      Submitted(d.(text := "", category := ActionItem, open := false), AddTask(s, TaskOf(d), id, now), Added)
  }

  /** An added task is open and its text is trimmed and non-blank. */
  lemma AddedTaskIsOpenAndTrimmed(d: Dialog, s: Store, id: string, now: int)
    requires Submit(d, s, id, now).outcome == Added
    ensures var t := Submit(d, s, id, now).store.tasks[|s.tasks|];
      t.status == Open && t.completedAt.None? && t.text != "" && Trim(t.text) == t.text
  {
    TrimIdempotent(d.text);
  }

  datatype CreatedProject = CreatedProject(dialog: Dialog, projects: seq<PS.Project>, ok: bool)

  /** handleCreateProject: a blank name is refused; otherwise a project with the trimmed
      name and no pod or quarter is added, with no cap, and the inline form closes. The new
      project is not selected. */
  function CreateProject(d: Dialog, projects: seq<PS.Project>, id: string, now: int): (r: CreatedProject)
    ensures r.ok <==> Trim(d.newProjectName) != ""
    ensures !r.ok ==> r.dialog == d && r.projects == projects
    ensures r.ok ==>
      && |r.projects| == |projects| + 1 && r.projects[..|projects|] == projects
      && r.projects[|projects|] == PS.Project(id, Trim(d.newProjectName), None, None, PS.Active, now)
      && r.dialog == d.(newProjectName := "", showNewProject := false)
    ensures r.dialog.projectId == d.projectId
  {
    if Trim(d.newProjectName) == "" then CreatedProject(d, projects, false)
    else
      CreatedProject(d.(newProjectName := "", showNewProject := false),
              PS.AddProject(projects, PS.NewProject(Trim(d.newProjectName), None, None), id, now), true)
  }

  /** Unlike the other project dialogs, this one adds a fifth project, active or not. */
  lemma CreateIgnoresCap(d: Dialog, projects: seq<PS.Project>, id: string, now: int)
    requires Trim(d.newProjectName) != "" && |projects| >= 4
    ensures |CreateProject(d, projects, id, now).projects| > 4
  {
  }
}

=== FILE: review_log.dfy ===
/** The review screen (ReviewLog): the parsed items, the set of selected ids, and the buffer
    of deleted items that undo draws from, with the handlers the cards call and the grouped
    view in a fixed category order. */
module ReviewLog {
  import opened Base
  import opened Text
  import opened ParsedItemCard

  datatype Session = Session(items: seq<ParsedItem>, selected: set<string>, deleted: seq<ParsedItem>)

  function Ids(items: seq<ParsedItem>): (r: set<string>)
    ensures forall id :: id in r <==> exists i :: 0 <= i < |items| && items[i].id == id
  {
    set i | i in items :: i.id
  }

  /** The screen starts with every item selected and nothing deleted. */
  function Init(items: seq<ParsedItem>): (s: Session)
    ensures s.items == items && s.deleted == []
    ensures s.selected == Ids(items)
  {
    Session(items, Ids(items), [])
  }

  /** handleEdit: the patch is merged into exactly the items carrying `id`. */
  function HandleEdit(s: Session, id: string, u: ItemPatch): (r: Session)
    ensures |r.items| == |s.items|
    ensures forall i :: 0 <= i < |s.items| && s.items[i].id == id ==> r.items[i] == Merge(s.items[i], u)
    ensures forall i :: 0 <= i < |s.items| && s.items[i].id != id ==> r.items[i] == s.items[i]
    ensures r.selected == s.selected && r.deleted == s.deleted
  {
    s.(items := Map((x: ParsedItem) => if x.id == id then Merge(x, u) else x, s.items))
  }

  /** handleDelete: the first item carrying `id` goes to the end of the buffer, every item
      carrying it leaves the list, and the id leaves the selection. */
  function HandleDelete(s: Session, id: string): (r: Session)
    ensures forall x :: x in r.items <==> x in s.items && x.id != id
    ensures IsSubseq(r.items, s.items)
    ensures r.selected == s.selected - {id}
    ensures Find((x: ParsedItem) => x.id == id, s.items).None? ==> r.deleted == s.deleted
    ensures Find((x: ParsedItem) => x.id == id, s.items).Some? ==>
      r.deleted == s.deleted + [Find((x: ParsedItem) => x.id == id, s.items).value]
  {
    var found := Find((x: ParsedItem) => x.id == id, s.items);
    FilterIsSubseq((x: ParsedItem) => x.id != id, s.items);
    Session(Filter((x: ParsedItem) => x.id != id, s.items), s.selected - {id},
            if found.Some? then s.deleted + [found.value] else s.deleted)
  }

  /** handleUndo, reading the buffer `buffer`: nothing happens unless it holds an item
      carrying `id`; then that item goes back to the end of the list, every buffered item
      carrying `id` leaves the buffer and the id is selected again. */
  function UndoFrom(buffer: seq<ParsedItem>, s: Session, id: string): (r: Session)
    ensures Find((x: ParsedItem) => x.id == id, buffer).None? ==> r == s
    ensures Find((x: ParsedItem) => x.id == id, buffer).Some? ==>
      && r.items == s.items + [Find((x: ParsedItem) => x.id == id, buffer).value]
      && r.deleted == Filter((x: ParsedItem) => x.id != id, s.deleted)
      && r.selected == s.selected + {id}
  {
    var found := Find((x: ParsedItem) => x.id == id, buffer);
    if found.Some? then
      Session(s.items + [found.value], s.selected + {id},
              Filter((x: ParsedItem) => x.id != id, s.deleted))
    else s
  }

  /** handleUndo as the screen defines it: the buffer it reads is the current one. */
  function HandleUndo(s: Session, id: string): (r: Session)
    ensures (forall i :: 0 <= i < |s.deleted| ==> s.deleted[i].id != id) ==> r == s
    ensures (exists i :: 0 <= i < |s.deleted| && s.deleted[i].id == id) ==>
      |r.items| == |s.items| + 1 && r.items[..|s.items|] == s.items
      && r.items[|s.items|] in s.deleted && r.items[|s.items|].id == id
      && r.selected == s.selected + {id}
  {
    UndoFrom(s.deleted, s, id)
  }

  /** toggleSelection: the id joins the selection when absent and leaves it when present. */
  function ToggleSelection(s: Session, id: string): (r: Session)
    ensures id in r.selected <==> id !in s.selected
    ensures r.selected - {id} == s.selected - {id}
    ensures r.items == s.items && r.deleted == s.deleted
  {
    s.(selected := if id in s.selected then s.selected - {id} else s.selected + {id})
  }

  /** Toggling the same id twice restores the session. */
  lemma ToggleTwice(s: Session, id: string)
    ensures ToggleSelection(ToggleSelection(s, id), id) == s
  {
  }

  /** The Confirm button is enabled: not already saving, and something is selected. */
  function CanConfirm(s: Session, submitting: bool): (b: bool)
    ensures Inv(s) ==>
      (b <==> !submitting && exists i :: 0 <= i < |s.items| && s.items[i].id in s.selected)
  {
    assert Inv(s) && |s.selected| > 0 ==> exists i :: 0 <= i < |s.items| && s.items[i].id in s.selected by {
      if Inv(s) && |s.selected| > 0 {
        var id :| id in s.selected;
        assert id in Ids(s.items);
      }
    }
    !submitting && |s.selected| > 0
  }

  /** handleConfirm reports how many items are selected and leaves the session as it is;
      nothing is written to the task store. */
  function ConfirmMessage(s: Session): (m: string)
    ensures StartsWith(m, "Plan saved! ") && |m| == 25 + |NatToString(|s.selected|)|
    ensures m[|m| - 13..] == " tasks added."
    ensures m[12..|m| - 13] == NatToString(|s.selected|)
    ensures ParseNat(m[12..|m| - 13]) == |s.selected|
  {
    NatToStringRoundTrip(|s.selected|);
    var m := "Plan saved! " + NatToString(|s.selected|) + " tasks added.";
    assert m[..12] == "Plan saved! ";
    assert m[12..|m| - 13] == NatToString(|s.selected|);
    assert m[|m| - 13..] == " tasks added.";
    m
  }

  /** The invariant of the screen: ids are distinct within the list and within the buffer,
      no id is in both, and only ids of listed items are selected. */
  predicate Inv(s: Session) {
    && DistinctBy((x: ParsedItem) => x.id, s.items)
    && DistinctBy((x: ParsedItem) => x.id, s.deleted)
    && (forall i, j :: 0 <= i < |s.items| && 0 <= j < |s.deleted| ==> s.items[i].id != s.deleted[j].id)
    && s.selected <= Ids(s.items)
  }

  lemma InitInv(items: seq<ParsedItem>)
    requires DistinctBy((x: ParsedItem) => x.id, items)
    ensures Inv(Init(items))
  {
  }

  /** Edits that leave the id alone, which are the only ones the cards make, keep the
      invariant. */
  lemma EditInv(s: Session, id: string, u: ItemPatch)
    requires Inv(s) && u.id.None?
    ensures Inv(HandleEdit(s, id, u))
  {
    var r := HandleEdit(s, id, u);
    assert forall i :: 0 <= i < |s.items| ==> r.items[i].id == s.items[i].id;
    assert Ids(r.items) == Ids(s.items);
  }

  lemma DeleteInv(s: Session, id: string)
    requires Inv(s)
    ensures Inv(HandleDelete(s, id))
  {
    var r := HandleDelete(s, id);
    var kept := Filter((x: ParsedItem) => x.id != id, s.items);
    FilterDistinct((x: ParsedItem) => x.id, (x: ParsedItem) => x.id != id, s.items);
    assert r.items == kept;
    var found := Find((x: ParsedItem) => x.id == id, s.items);
    forall i, j | 0 <= i < |r.items| && 0 <= j < |r.deleted|
      ensures r.items[i].id != r.deleted[j].id
    {
      assert r.items[i] in s.items;
      var a :| 0 <= a < |s.items| && s.items[a] == r.items[i];
      if j == |s.deleted| {
        assert r.deleted[j] == found.value;
      } else {
        assert r.deleted[j] == s.deleted[j];
      }
    }
    if found.Some? {
      var a :| 0 <= a < |s.items| && s.items[a] == found.value;
      forall i, j | 0 <= i < j < |r.deleted|
        ensures r.deleted[i].id != r.deleted[j].id
      {
        if j == |s.deleted| {
          assert r.deleted[j] == s.items[a];
          assert r.deleted[i] == s.deleted[i];
        } else {
          assert r.deleted[i] == s.deleted[i] && r.deleted[j] == s.deleted[j];
        }
      }
    }
    forall x | x in r.selected
      ensures x in Ids(r.items)
    {
      var a :| 0 <= a < |s.items| && s.items[a].id == x;
      assert s.items[a] in kept;
    }
  }

  lemma UndoInv(s: Session, id: string)
    requires Inv(s)
    ensures Inv(HandleUndo(s, id))
  {
    var found := Find((x: ParsedItem) => x.id == id, s.deleted);
    if found.Some? {
      FilterDistinct((x: ParsedItem) => x.id, (x: ParsedItem) => x.id != id, s.deleted);
      UndoKeepsInv(s, found.value, Filter((x: ParsedItem) => x.id != id, s.deleted));
    }
  }

  /** Putting back a buffered item `d` and keeping a buffer `kept` of other buffered items
      without `d`'s id keeps the invariant. */
  lemma UndoKeepsInv(s: Session, d: ParsedItem, kept: seq<ParsedItem>)
    requires Inv(s) && d in s.deleted
    requires DistinctBy((x: ParsedItem) => x.id, kept)
    requires forall x :: x in kept ==> x in s.deleted && x.id != d.id
    ensures Inv(Session(s.items + [d], s.selected + {d.id}, kept))
  {
    var items := s.items + [d];
    var a :| 0 <= a < |s.deleted| && s.deleted[a] == d;
    forall i, j | 0 <= i < j < |items|
      ensures items[i].id != items[j].id
    {
      if j == |s.items| {
        assert items[i] == s.items[i] && items[j] == s.deleted[a];
      } else {
        assert items[i] == s.items[i] && items[j] == s.items[j];
      }
    }
    forall i, j | 0 <= i < |items| && 0 <= j < |kept|
      ensures items[i].id != kept[j].id
    {
      assert kept[j] in kept;
      if i < |s.items| {
        var b :| 0 <= b < |s.deleted| && s.deleted[b] == kept[j];
        assert items[i] == s.items[i];
      }
    }
    forall x | x in s.selected + {d.id}
      ensures x in Ids(items)
    {
      if x == d.id {
        assert items[|s.items|] == d;
      } else {
        var b :| 0 <= b < |s.items| && s.items[b].id == x;
        assert items[b] == s.items[b];
      }
    }
  }

  /** Toggling the id of a listed item keeps the invariant; the screen only toggles ids of
      the cards it shows. */
  lemma ToggleInv(s: Session, id: string)
    requires Inv(s) && id in Ids(s.items)
    ensures Inv(ToggleSelection(s, id))
  {
  }

  /** With distinct ids, deleting the item at `k` moves exactly that item to the buffer. */
  lemma DeleteListed(s: Session, k: nat)
    requires Inv(s) && k < |s.items|
    ensures HandleDelete(s, s.items[k].id).deleted == s.deleted + [s.items[k]]
    ensures HandleDelete(s, s.items[k].id).items == Filter((x: ParsedItem) => x.id != s.items[k].id, s.items)
  {
    var id := s.items[k].id;
    var found := Find((x: ParsedItem) => x.id == id, s.items);
    var j :| 0 <= j < |s.items| && s.items[j] == found.value
      && forall i :: 0 <= i < j ==> s.items[i].id != id;
    assert j == k;
  }

  /** An item last in the buffer, whose id no other buffered item carries, is what undo of
      its id takes back; the buffer loses exactly that item. */
  lemma UndoLast(m: Session, d: ParsedItem)
    requires |m.deleted| > 0 && m.deleted[|m.deleted| - 1] == d
    requires forall i :: 0 <= i < |m.deleted| - 1 ==> m.deleted[i].id != d.id
    ensures HandleUndo(m, d.id).items == m.items + [d]
    ensures HandleUndo(m, d.id).deleted == m.deleted[..|m.deleted| - 1]
    ensures HandleUndo(m, d.id).selected == m.selected + {d.id}
  {
    UndoFromLast(m, d);
  }

  lemma UndoFromLast(m: Session, d: ParsedItem)
    requires |m.deleted| > 0 && m.deleted[|m.deleted| - 1] == d
    requires forall i :: 0 <= i < |m.deleted| - 1 ==> m.deleted[i].id != d.id
    ensures UndoFrom(m.deleted, m, d.id) == Session(m.items + [d], m.selected + {d.id}, m.deleted[..|m.deleted| - 1])
  {
    FindLast(m.deleted, d);
    FilterDropsLast(m.deleted, d);
  }

  lemma FindLast(buffer: seq<ParsedItem>, d: ParsedItem)
    requires |buffer| > 0 && buffer[|buffer| - 1] == d
    requires forall i :: 0 <= i < |buffer| - 1 ==> buffer[i].id != d.id
    ensures Find((x: ParsedItem) => x.id == d.id, buffer) == Some(d)
  {
    FindFirst((x: ParsedItem) => x.id == d.id, buffer, |buffer| - 1);
  }

  lemma FilterDropsLast(buffer: seq<ParsedItem>, d: ParsedItem)
    requires |buffer| > 0 && buffer[|buffer| - 1] == d
    requires forall i :: 0 <= i < |buffer| - 1 ==> buffer[i].id != d.id
    ensures Filter((x: ParsedItem) => x.id != d.id, buffer) == buffer[..|buffer| - 1]
  {
    Base.FilterDropsLast((x: ParsedItem) => x.id != d.id, buffer);
  }

  /** Deleting a listed item and undoing it brings back the same items, the deleted one now
      last, leaves the buffer as it was, and selects the item whether or not it was before. */
  lemma DeleteThenUndo(s: Session, k: nat)
    requires Inv(s) && k < |s.items|
    ensures var id := s.items[k].id;
      var r := HandleUndo(HandleDelete(s, id), id);
      && r.items == Filter((x: ParsedItem) => x.id != id, s.items) + [s.items[k]]
      && multiset(r.items) == multiset(s.items)
      && r.deleted == s.deleted
      && r.selected == s.selected + {id}
  {
    var id := s.items[k].id;
    var m := HandleDelete(s, id);
    DeleteListed(s, k);
    assert m.deleted[..|m.deleted| - 1] == s.deleted;
    UndoLast(m, s.items[k]);
    MovedLastSameItems(s.items, k);
  }

  /** Moving the only item with its id to the end keeps the same items. */
  lemma MovedLastSameItems(items: seq<ParsedItem>, k: nat)
    requires DistinctBy((x: ParsedItem) => x.id, items) && k < |items|
    ensures multiset(Filter((x: ParsedItem) => x.id != items[k].id, items) + [items[k]]) == multiset(items)
  {
    var id := items[k].id;
    FilterSingle((x: ParsedItem) => x.id == id, items, k);
    FilterPartition((x: ParsedItem) => x.id != id, (x: ParsedItem) => x.id == id, items);
  }

  /** As the card's toast sees it, the undo handler is the one from the moment of the
      deletion, reading the buffer from before the item entered it. */
  function ToastUndoAsWritten(before: Session, id: string): Session {
    UndoFrom(before.deleted, HandleDelete(before, id), id)
  }

  /** So the toast's Undo restores nothing: the session stays as the deletion left it. */
  lemma ToastUndoRestoresNothing(s: Session, k: nat)
    requires Inv(s) && k < |s.items|
    ensures ToastUndoAsWritten(s, s.items[k].id) == HandleDelete(s, s.items[k].id)
    ensures s.items[k] !in ToastUndoAsWritten(s, s.items[k].id).items
  {
    var id := s.items[k].id;
    assert forall i :: 0 <= i < |s.deleted| ==> s.deleted[i].id != id;
  }

  /** The headings of the grouped view, in the order they are shown. */
  const CategoryOrder: seq<string> :=
    ["action_item", "follow_up", "blocker", "decision", "meeting", "writing", "what_next"]

  /** The items of one category, in list order. */
  function ByCategory(items: seq<ParsedItem>, c: string): seq<ParsedItem> {
    Filter((x: ParsedItem) => x.category == c, items)
  }

  /** The reduce that builds the groups: each item is appended to its category's list. */
  function Group(items: seq<ParsedItem>): (r: map<string, seq<ParsedItem>>)
    ensures GroupSound(items, r)
    decreases |items|
  {
    if |items| == 0 then map[]
    else
      var acc := Group(items[..|items| - 1]);
      var x := items[|items| - 1];
      acc[x.category := (if x.category in acc then acc[x.category] else []) + [x]]
  }

  /** Every group is non-empty and holds only listed items of its own category. */
  predicate GroupSound(items: seq<ParsedItem>, g: map<string, seq<ParsedItem>>) {
    && (forall c :: c in g ==> |g[c]| > 0)
    && (forall c, x :: c in g && x in g[c] ==> x.category == c && x in items)
  }

  /** The reduce gives, for every category that occurs, exactly its items in list order. */
  lemma {:induction false} GroupIsByCategory(items: seq<ParsedItem>)
    ensures forall c :: c in Group(items) <==> exists i :: 0 <= i < |items| && items[i].category == c
    ensures forall c :: c in Group(items) ==> Group(items)[c] == ByCategory(items, c)
    decreases |items|
  {
    if |items| > 0 {
      var init := items[..|items| - 1];
      var x := items[|items| - 1];
      assert items == init + [x];
      GroupIsByCategory(init);
      forall c
        ensures ByCategory(items, c) == ByCategory(init, c) + (if x.category == c then [x] else [])
      {
        FilterConcat((y: ParsedItem) => y.category == c, init, [x]);
      }
      forall c | c in Group(items)
        ensures exists i :: 0 <= i < |items| && items[i].category == c
      {
        if c != x.category {
          assert c in Group(init);
          var i :| 0 <= i < |init| && init[i].category == c;
          assert items[i] == init[i];
        } else {
          assert items[|items| - 1].category == c;
        }
      }
      forall c | exists i :: 0 <= i < |items| && items[i].category == c
        ensures c in Group(items)
      {
        var i :| 0 <= i < |items| && items[i].category == c;
        if i < |init| {
          assert init[i] == items[i];
        }
      }
      forall c | c in Group(items)
        ensures Group(items)[c] == ByCategory(items, c)
      {
        if c != x.category {
        } else if c !in Group(init) {
          FilterNone((y: ParsedItem) => y.category == c, init);
        }
      }
    }
  }

  /** One heading of the grouped view with its cards. */
  datatype Section = Section(category: string, items: seq<ParsedItem>)

  predicate HasSection(r: seq<Section>, c: string) {
    exists k :: 0 <= k < |r| && r[k].category == c
  }

  /** The group the view looks up for a category: absent counts as empty. */
  function Lookup(items: seq<ParsedItem>, c: string): (r: seq<ParsedItem>)
    ensures r == ByCategory(items, c)
  {
    GroupIsByCategory(items);
    var g := Group(items);
    if c in g then g[c]
    else
      FilterNone((x: ParsedItem) => x.category == c, items);
      []
  }

  /** The rendered groups: for each category of `order` with a non-empty group, its heading. */
  function Sections(items: seq<ParsedItem>, order: seq<string>): (r: seq<Section>)
    ensures |r| <= |order|
    ensures forall k :: 0 <= k < |r| ==> r[k].category in order && |r[k].items| > 0
  {
    if |order| == 0 then []
    else
      var rest := Sections(items, order[1..]);
      if |Lookup(items, order[0])| > 0 then [Section(order[0], Lookup(items, order[0]))] + rest
      else rest
  }

  /** Every heading is one of `order`, is non-empty, and holds exactly its category's items. */
  lemma {:induction false} SectionsSound(items: seq<ParsedItem>, order: seq<string>)
    ensures forall k :: 0 <= k < |Sections(items, order)| ==>
      var sec := Sections(items, order)[k];
      sec.category in order && |sec.items| > 0 && sec.items == ByCategory(items, sec.category)
  {
    if |order| > 0 {
      SectionsSound(items, order[1..]);
      var r := Sections(items, order);
      var rest := Sections(items, order[1..]);
      forall k | 0 <= k < |r|
        ensures r[k].category in order && |r[k].items| > 0 && r[k].items == ByCategory(items, r[k].category)
      {
        if |Lookup(items, order[0])| > 0 && k > 0 {
          assert r[k] == rest[k - 1];
          assert rest[k - 1].category in order[1..];
        } else if |Lookup(items, order[0])| == 0 {
          assert rest[k].category in order[1..];
        }
      }
    }
  }

  /** A heading of the later categories is still a heading with one more category first. */
  lemma HasSectionTail(items: seq<ParsedItem>, order: seq<string>, c: string)
    requires |order| > 0 && HasSection(Sections(items, order[1..]), c)
    ensures HasSection(Sections(items, order), c)
  {
    var own := Lookup(items, order[0]);
    var pre := if |own| > 0 then [Section(order[0], own)] else [];
    var rest := Sections(items, order[1..]);
    assert Sections(items, order) == pre + rest;
    HasSectionPrepend(pre, rest, c);
  }

  lemma HasSectionPrepend(pre: seq<Section>, rest: seq<Section>, c: string)
    requires HasSection(rest, c)
    ensures HasSection(pre + rest, c)
  {
    var k :| 0 <= k < |rest| && rest[k].category == c;
    assert (pre + rest)[|pre| + k] == rest[k];
  }

  /** Every category of `order` that some item has gets a heading. */
  lemma {:induction false} SectionsComplete(items: seq<ParsedItem>, order: seq<string>, i: nat)
    requires i < |items| && items[i].category in order
    ensures HasSection(Sections(items, order), items[i].category)
  {
    var c := items[i].category;
    if order[0] == c {
      assert items[i] in ByCategory(items, c);
      assert Sections(items, order)[0].category == c;
    } else {
      assert order == [order[0]] + order[1..];
      SectionsComplete(items, order[1..], i);
      HasSectionTail(items, order, c);
    }
  }

  /** The headings come in the order of `order`. */
  lemma {:induction false} SectionsOrdered(items: seq<ParsedItem>, order: seq<string>)
    ensures IsSubseq(Map((sec: Section) => sec.category, Sections(items, order)), order)
  {
    if |order| > 0 {
      SectionsOrdered(items, order[1..]);
      var cats := Map((sec: Section) => sec.category, Sections(items, order[1..]));
      if |Lookup(items, order[0])| > 0 {
        var r := Sections(items, order);
        assert Map((sec: Section) => sec.category, r) == [order[0]] + cats;
        assert ([order[0]] + cats)[1..] == cats;
      } else if |cats| > 0 {
        assert IsSubseq(cats, order[1..]);
      }
    }
  }

  /** A card appears under a heading exactly when its category is one of the seven; a
      heading holds exactly the items of its category. */
  lemma ShownIffKnownCategory(items: seq<ParsedItem>, x: ParsedItem)
    ensures (exists k :: 0 <= k < |Sections(items, CategoryOrder)| &&
               x in Sections(items, CategoryOrder)[k].items)
      <==> x in items && x.category in CategoryOrder
  {
    var r := Sections(items, CategoryOrder);
    SectionsSound(items, CategoryOrder);
    if x in items && x.category in CategoryOrder {
      var i :| 0 <= i < |items| && items[i] == x;
      SectionsComplete(items, CategoryOrder, i);
      var k :| 0 <= k < |r| && r[k].category == x.category;
      assert x in r[k].items;
    }
  }

  /** The Blocker heading holds exactly the cards drawn with the blocker styling, in list
      order. */
  lemma BlockerSectionIsStyled(items: seq<ParsedItem>)
    ensures forall x :: x in Lookup(items, "blocker") <==> x in items && IsBlocker(x)
    ensures IsSubseq(Lookup(items, "blocker"), items)
  {
    FilterIsSubseq((x: ParsedItem) => x.category == "blocker", items);
  }
}

=== FILE: settings_projects.dfy ===
/** The project settings page: the inline edit form with its start, cancel and save, the add
    form with its name check and four-project cap, and delete. The fresh id and the clock
    are inputs. */
module SettingsProjects {
  import opened Base
  import opened Text
  import opened ProjectStore

  const MaxProjects: nat := 4

  /** The text fields of a project form; an empty pod or quarter means none chosen. */
  datatype ProjectForm = ProjectForm(name: string, pod: string, quarter: string)

  const EmptyForm: ProjectForm := ProjectForm("", "", "")

  datatype Page = Page(editingId: Option<string>, isAdding: bool, newProject: ProjectForm,
                       editForm: ProjectForm)

  const InitialPage: Page := Page(None, false, EmptyForm, EmptyForm)

  /** The form startEdit fills from a project. */
  function FormOf(p: Project): (f: ProjectForm)
    ensures f.name == p.name
    ensures f.pod == "" <==> p.pod.None? || p.pod == Some("")
    ensures f.quarter == "" <==> p.quarter.None? || p.quarter == Some("")
  {
    ProjectForm(p.name, NoneToEmpty(p.pod), NoneToEmpty(p.quarter))
  }

  /** startEdit: the project becomes the one being edited, with its fields in the form. */
  function StartEdit(page: Page, p: Project): (r: Page)
    ensures r.editingId == Some(p.id) && r.editForm == FormOf(p)
    ensures r.isAdding == page.isAdding && r.newProject == page.newProject
  {
    page.(editingId := Some(p.id), editForm := FormOf(p))
  }

  /** cancelEdit: nothing is being edited and the edit form is empty. */
  function CancelEdit(page: Page): (r: Page)
    ensures r.editingId.None? && r.editForm == EmptyForm
    ensures r.isAdding == page.isAdding && r.newProject == page.newProject
  {
    page.(editingId := None, editForm := EmptyForm)
  }

  /** The fields saveEdit and handleAddProject pass on: the trimmed name and, for pod and
      quarter, none in place of the empty text. */
  function SavedPatch(f: ProjectForm): (u: ProjectPatch)
    ensures u.id.None? && u.status.None? && u.createdAt.None?
    ensures u.name == Some(Trim(f.name))
    ensures u.pod == Some(EmptyToNone(f.pod)) && u.quarter == Some(EmptyToNone(f.quarter))
  {
    ProjectPatch(None, Some(Trim(f.name)), Some(EmptyToNone(f.pod)), Some(EmptyToNone(f.quarter)),
                 None, None)
  }

  datatype Saved = Saved(page: Page, projects: seq<Project>, ok: bool)

  /** saveEdit: a blank name is refused and nothing changes; otherwise the edited project
      (none, when nothing is being edited) takes the form's fields and the edit closes. */
  function SaveEdit(page: Page, projects: seq<Project>): (r: Saved)
    ensures r.ok <==> Trim(page.editForm.name) != ""
    ensures !r.ok ==> r.page == page && r.projects == projects
    ensures r.ok ==> r.page == CancelEdit(page)
    ensures r.ok && page.editingId.Some? ==>
      r.projects == UpdateProject(projects, page.editingId.value, SavedPatch(page.editForm))
    ensures page.editingId.None? ==> r.projects == projects
  {
    if Trim(page.editForm.name) == "" then Saved(page, projects, false)
    else
      var updated := match page.editingId
        case Some(id) => UpdateProject(projects, id, SavedPatch(page.editForm))
        case None => projects;
      Saved(CancelEdit(page), updated, true)
  }

  /** Editing a project and saving without a change leaves it as it was, provided its name
      is already trimmed and non-blank and it has no empty-text pod or quarter. */
  lemma UnchangedSaveKeepsProject(page: Page, projects: seq<Project>, i: nat)
    requires i < |projects|
    requires Trim(projects[i].name) == projects[i].name && projects[i].name != ""
    requires projects[i].pod != Some("") && projects[i].quarter != Some("")
    ensures var r := SaveEdit(StartEdit(page, projects[i]), projects);
      r.ok && r.projects[i] == projects[i] && |r.projects| == |projects|
  {
    var p := projects[i];
    EmptyNoneRoundTrip(p.pod, "");
    EmptyNoneRoundTrip(p.quarter, "");
    assert Merge(p, SavedPatch(FormOf(p))) == p;
  }

  datatype AddOutcome = NameMissing | CapReached | ProjectAdded

  datatype Added = Added(page: Page, projects: seq<Project>, outcome: AddOutcome)

  /** handleAddProject: a blank name is refused first, then a list that already holds four
      projects, active or not; otherwise the project is added and the add form reset. */
  function AddFromForm(page: Page, projects: seq<Project>, id: string, now: int): (r: Added)
    ensures r.outcome == NameMissing <==> Trim(page.newProject.name) == ""
    ensures r.outcome == CapReached <==> Trim(page.newProject.name) != "" && |projects| >= MaxProjects
    ensures r.outcome != ProjectAdded ==> r.page == page && r.projects == projects
    ensures r.outcome == ProjectAdded ==>
      && |r.projects| == |projects| + 1 && r.projects[..|projects|] == projects
      && r.projects[|projects|]
           == Project(id, Trim(page.newProject.name), EmptyToNone(page.newProject.pod),
                      EmptyToNone(page.newProject.quarter), Active, now)
      && r.page == page.(newProject := EmptyForm, isAdding := false)
  {
    var f := page.newProject;
    if Trim(f.name) == "" then Added(page, projects, NameMissing)
    else if |projects| >= MaxProjects then Added(page, projects, CapReached)
    else
      Added(page.(newProject := EmptyForm, isAdding := false),
            AddProject(projects, NewProject(Trim(f.name), EmptyToNone(f.pod), EmptyToNone(f.quarter)), id, now),
            ProjectAdded)
  }

  /** Adding through this page never takes the list above four projects. */
  lemma AddKeepsCap(page: Page, projects: seq<Project>, id: string, now: int)
    requires |projects| <= MaxProjects
    ensures |AddFromForm(page, projects, id, now).projects| <= MaxProjects
  {
  }

  /** handleDelete: the project with the id goes, every other one stays, in its order. */
  function Delete(projects: seq<Project>, id: string): (r: seq<Project>)
    ensures forall p :: p in r <==> p in projects && p.id != id
    ensures IsSubseq(r, projects)
    ensures forall p :: multiset(r)[p] == if p.id != id then multiset(projects)[p] else 0
  {
    forall p ensures multiset(Filter((q: Project) => q.id != id, projects))[p]
                     == if p.id != id then multiset(projects)[p] else 0 {
      FilterMultiplicity((q: Project) => q.id != id, projects, p);
    }
    DeleteProject(projects, id)
  }
}

=== FILE: source_snippet.dfy ===
/** The quoted source line under a parsed item: cut to `maxLength` characters with "..."
    while collapsed, shown whole when expanded, with a show-more/less control only for a
    source that needs cutting. */
module SourceSnippet {
  import opened Base
  import opened Text

  const DefaultMaxLength: int := 100

  /** The effective maximum: the prop when given, 100 otherwise. */
  function MaxLength(maxLength: Option<int>): int {
    maxLength.GetOr(DefaultMaxLength)
  }

  /** String.prototype.slice(0, end): a negative end counts back from the end of the text. */
  function SliceTo(s: string, end: int): (r: string)
    ensures end >= 0 ==> r == s[..if end < |s| then end else |s|]
    ensures end < 0 ==> r == s[..if |s| + end > 0 then |s| + end else 0]
  {
    if end >= 0 then (if end < |s| then s[..end] else s)
    else if |s| + end > 0 then s[..|s| + end] else ""
  }

  /** The source is longer than the maximum. */
  function IsTruncated(source: string, maxLength: int): (b: bool)
    ensures maxLength >= 0 ==> (b <==> SliceTo(source, maxLength) != source)
    ensures maxLength < 0 ==> b
  {
    |source| > maxLength
  }

  /** The text between the quotes. */
  function DisplayText(source: string, maxLength: int, expanded: bool): (r: string)
    ensures IsTruncated(source, maxLength) && !expanded && maxLength >= 0 ==>
      r == source[..maxLength] + "..."
    ensures !IsTruncated(source, maxLength) || expanded ==> r == source
    ensures !expanded && maxLength >= 0 ==> |r| <= maxLength + 3
    ensures IsTruncated(source, maxLength) && !expanded ==>
      |r| >= 3 && StartsWith(source, r[..|r| - 3]) && r[|r| - 3..] == "..."
  {
    if IsTruncated(source, maxLength) && !expanded then
      var head := SliceTo(source, maxLength);
      var r := head + "...";
      assert r[..|r| - 3] == head && r[|r| - 3..] == "...";
      r
    else source
  }

  /** The snippet's control: absent, or labelled by what pressing it does. */
  datatype Control = NoControl | ShowMore | ShowLess

  function ToggleControl(source: string, maxLength: int, expanded: bool): (c: Control)
    ensures c == NoControl <==> !IsTruncated(source, maxLength)
    ensures c == ShowMore <==> IsTruncated(source, maxLength) && !expanded
  {
    if !IsTruncated(source, maxLength) then NoControl
    else if expanded then ShowLess else ShowMore
  }

  /** With the default maximum, a source of at most 100 characters is shown whole and a
      longer one as its first 100 characters and "...". */
  lemma DefaultCut(source: string)
    ensures |source| <= 100 ==> DisplayText(source, MaxLength(None), false) == source
    ensures |source| > 100 ==> DisplayText(source, MaxLength(None), false) == source[..100] + "..."
  {
  }
}

=== FILE: task_store.dfy ===
/** The in-memory task store (TaskContext): the task list, the category list capped at seven
    entries, and the operations the pages call on them. Each React state update is a pure
    function from the old store to the new one. Ids and timestamps come from the clock in
    the source and are parameters here. */
module TaskStore {
  import opened Base
  import opened Text

  datatype Status = Open | Completed
  datatype RiskLevel = Low | Medium | High

  datatype TaskMetadata = TaskMetadata(person: Option<string>, riskLevel: Option<RiskLevel>,
                                       documentType: Option<string>)

  /** A task; times are abstract clock readings. */
  datatype Task = Task(id: string, text: string, category: string, projectId: string,
                       logId: Option<string>, status: Status, source: Option<string>,
                       confidence: Option<int>, metadata: Option<TaskMetadata>,
                       createdAt: int, completedAt: Option<int>)

  /** The argument of addTask: a task without id and createdAt. */
  datatype NewTask = NewTask(text: string, category: string, projectId: string,
                             logId: Option<string>, status: Status, source: Option<string>,
                             confidence: Option<int>, metadata: Option<TaskMetadata>,
                             completedAt: Option<int>)

  /** A Partial<Task> spread over a task. A required field is absent (None) or given; an
      optional field is absent (None), given as undefined (Some(None)) or given a value. */
  datatype TaskPatch = TaskPatch(id: Option<string>, text: Option<string>, category: Option<string>,
                                 projectId: Option<string>, logId: Option<Option<string>>,
                                 status: Option<Status>, source: Option<Option<string>>,
                                 confidence: Option<Option<int>>,
                                 metadata: Option<Option<TaskMetadata>>, createdAt: Option<int>,
                                 completedAt: Option<Option<int>>)

  datatype CategoryConfig = CategoryConfig(id: string, labelText: string, isDefault: bool)

  datatype Store = Store(tasks: seq<Task>, categories: seq<CategoryConfig>)

  /** The result of an operation that reports success: the flag and the store afterwards. */
  datatype Change = Change(ok: bool, store: Store)

  const MaxCategories: nat := 7
  const ActionItem: string := "action_item"

  const DefaultCategories: seq<string> :=
    ["action_item", "follow_up", "meeting", "decision", "writing", "blocker", "what_next"]

  const DefaultCategoryConfigs: seq<CategoryConfig> := [
    CategoryConfig("action_item", "Action Item", true),
    CategoryConfig("follow_up", "Follow-up", true),
    CategoryConfig("meeting", "Meeting", true),
    CategoryConfig("decision", "Decision", true),
    CategoryConfig("writing", "Writing", true),
    CategoryConfig("blocker", "Blocker", true),
    CategoryConfig("what_next", "What Next", true)
  ]

  /** The store the provider starts with: the given tasks and the seven default categories. */
  function Init(tasks: seq<Task>): (r: Store)
    ensures r.tasks == tasks && |r.categories| == MaxCategories
    ensures forall i :: 0 <= i < |r.categories| ==>
      r.categories[i].id == DefaultCategories[i] && r.categories[i].isDefault
  {
    Store(tasks, DefaultCategoryConfigs)
  }

  function Created(t: NewTask, id: string, now: int): Task {
    Task(id, t.text, t.category, t.projectId, t.logId, t.status, t.source, t.confidence,
         t.metadata, now, t.completedAt)
  }

  /** addTask: one task with the fresh id and creation time goes at the end. */
  function AddTask(s: Store, t: NewTask, id: string, now: int): (r: Store)
    ensures |r.tasks| == |s.tasks| + 1 && r.tasks[..|s.tasks|] == s.tasks
    ensures r.tasks[|s.tasks|] == Created(t, id, now)
    ensures r.tasks[|s.tasks|].id == id && r.tasks[|s.tasks|].createdAt == now
    ensures r.categories == s.categories
  {
    s.(tasks := s.tasks + [Created(t, id, now)])
  }

  /** A fresh id keeps the task ids distinct. */
  lemma AddTaskKeepsIdsDistinct(s: Store, t: NewTask, id: string, now: int)
    requires DistinctBy((x: Task) => x.id, s.tasks)
    requires forall i :: 0 <= i < |s.tasks| ==> s.tasks[i].id != id
    ensures DistinctBy((x: Task) => x.id, AddTask(s, t, id, now).tasks)
  {
  }

  /** `{...t, ...u}`: every field given in the patch replaces the task's. */
  function Merge(t: Task, u: TaskPatch): Task {
    Task(u.id.GetOr(t.id), u.text.GetOr(t.text), u.category.GetOr(t.category),
         u.projectId.GetOr(t.projectId), u.logId.GetOr(t.logId), u.status.GetOr(t.status),
         u.source.GetOr(t.source), u.confidence.GetOr(t.confidence), u.metadata.GetOr(t.metadata),
         u.createdAt.GetOr(t.createdAt), u.completedAt.GetOr(t.completedAt))
  }

  /** updateTask: the patch is merged into exactly the tasks carrying `id`. */
  function UpdateTask(s: Store, id: string, u: TaskPatch): (r: Store)
    ensures |r.tasks| == |s.tasks|
    ensures forall i :: 0 <= i < |s.tasks| && s.tasks[i].id == id ==> r.tasks[i] == Merge(s.tasks[i], u)
    ensures forall i :: 0 <= i < |s.tasks| && s.tasks[i].id != id ==> r.tasks[i] == s.tasks[i]
    ensures r.categories == s.categories
  {
    s.(tasks := Map((t: Task) => if t.id == id then Merge(t, u) else t, s.tasks))
  }

  /** deleteTask: exactly the tasks carrying `id` disappear; the rest keep their order. */
  function DeleteTask(s: Store, id: string): (r: Store)
    ensures forall t :: t in r.tasks <==> t in s.tasks && t.id != id
    ensures IsSubseq(r.tasks, s.tasks)
    ensures r.categories == s.categories
  {
    FilterIsSubseq((t: Task) => t.id != id, s.tasks);
    s.(tasks := Filter((t: Task) => t.id != id, s.tasks))
  }

  /** The task after a status flip at time `now`: open becomes completed with a completion
      time, completed becomes open without one. */
  function Flip(t: Task, now: int): (r: Task)
    ensures r.status != t.status
    ensures r.completedAt.Some? <==> r.status == Completed
    ensures r.completedAt.Some? ==> r.completedAt.value == now
    ensures r.(status := t.status, completedAt := t.completedAt) == t
  {
    var st := if t.status == Open then Completed else Open;
    t.(status := st, completedAt := if st == Completed then Some(now) else None)
  }

  /** toggleTaskStatus: flips exactly the tasks carrying `id`. */
  function ToggleTaskStatus(s: Store, id: string, now: int): (r: Store)
    ensures |r.tasks| == |s.tasks|
    ensures forall i :: 0 <= i < |s.tasks| && s.tasks[i].id == id ==> r.tasks[i] == Flip(s.tasks[i], now)
    ensures forall i :: 0 <= i < |s.tasks| && s.tasks[i].id != id ==> r.tasks[i] == s.tasks[i]
    ensures forall i :: 0 <= i < |s.tasks| ==> r.tasks[i].id == s.tasks[i].id
    ensures r.categories == s.categories
  {
    s.(tasks := Map((t: Task) => if t.id == id then Flip(t, now) else t, s.tasks))
  }

  /** A task is well formed when it has a completion time exactly when it is completed. */
  predicate WellFormed(t: Task) {
    t.completedAt.Some? <==> t.status == Completed
  }

  /** Toggling twice restores every status, which is what the toast's undo relies on. A task
      that started open ends without completion time, so a well-formed open task comes back
      unchanged; a completed one comes back with the second toggle's time. Nothing else moves. */
  lemma ToggleTwiceRestores(s: Store, id: string, t1: int, t2: int)
    ensures var r := ToggleTaskStatus(ToggleTaskStatus(s, id, t1), id, t2);
      && |r.tasks| == |s.tasks|
      && (forall i :: 0 <= i < |s.tasks| ==> r.tasks[i].status == s.tasks[i].status)
      && (forall i :: 0 <= i < |s.tasks| && s.tasks[i].id == id && s.tasks[i].status == Open ==>
            r.tasks[i] == s.tasks[i].(completedAt := None))
      && (forall i :: 0 <= i < |s.tasks| && s.tasks[i].id == id && s.tasks[i].status == Completed ==>
            r.tasks[i] == s.tasks[i].(completedAt := Some(t2)))
      && (forall i :: 0 <= i < |s.tasks| && s.tasks[i].id != id ==> r.tasks[i] == s.tasks[i])
      && r.categories == s.categories
  {
  }

  /** Toggling keeps every task well formed. */
  lemma ToggleKeepsWellFormed(s: Store, id: string, now: int)
    requires forall i :: 0 <= i < |s.tasks| ==> WellFormed(s.tasks[i])
    ensures var r := ToggleTaskStatus(s, id, now);
      forall i :: 0 <= i < |r.tasks| ==> WellFormed(r.tasks[i])
  {
  }

  /** getTasksByProject: the tasks of one project, in store order. */
  function TasksByProject(s: Store, projectId: string): (r: seq<Task>)
    ensures forall t :: t in r <==> t in s.tasks && t.projectId == projectId
    ensures IsSubseq(r, s.tasks)
  {
    FilterIsSubseq((t: Task) => t.projectId == projectId, s.tasks);
    Filter((t: Task) => t.projectId == projectId, s.tasks)
  }

  /** getOpenTasks: the open tasks, in store order. */
  function OpenTasks(tasks: seq<Task>): (r: seq<Task>)
    ensures forall t :: t in r <==> t in tasks && t.status == Open
    ensures IsSubseq(r, tasks)
  {
    FilterIsSubseq((t: Task) => t.status == Open, tasks);
    Filter((t: Task) => t.status == Open, tasks)
  }

  /** The completed tasks, in store order. */
  function CompletedTasks(tasks: seq<Task>): (r: seq<Task>)
    ensures forall t :: t in r <==> t in tasks && t.status == Completed
    ensures IsSubseq(r, tasks)
  {
    FilterIsSubseq((t: Task) => t.status == Completed, tasks);
    Filter((t: Task) => t.status == Completed, tasks)
  }

  /** Open and completed tasks split the list: every task lands in exactly one of them, as
      often as it occurs. */
  lemma OpenCompletedPartition(tasks: seq<Task>)
    ensures multiset(OpenTasks(tasks)) + multiset(CompletedTasks(tasks)) == multiset(tasks)
    ensures |OpenTasks(tasks)| + |CompletedTasks(tasks)| == |tasks|
  {
    FilterPartition((t: Task) => t.status == Open, (t: Task) => t.status == Completed, tasks);
    assert |multiset(OpenTasks(tasks)) + multiset(CompletedTasks(tasks))| == |multiset(tasks)|;
  }

  /** getTasksByCategory: the tasks of one category, in store order. */
  function TasksByCategory(tasks: seq<Task>, category: string): (r: seq<Task>)
    ensures forall t :: t in r <==> t in tasks && t.category == category
    ensures IsSubseq(r, tasks)
  {
    FilterIsSubseq((t: Task) => t.category == category, tasks);
    Filter((t: Task) => t.category == category, tasks)
  }

  /** canAddCategory: fewer than seven categories. */
  function CanAddCategory(s: Store): (b: bool)
    ensures b <==> |s.categories| < 7
  {
    |s.categories| < MaxCategories
  }

  predicate IsSlugChar(c: char) {
    ('a' <= c <= 'z') || ('0' <= c <= '9') || c == '_'
  }

  /** `replace(/\s+/g, '_')`: every maximal run of whitespace becomes one underscore. */
  function CollapseSpaces(s: string): (r: string)
    ensures forall k :: 0 <= k < |r| ==> !IsSpace(r[k])
    ensures (forall k :: 0 <= k < |s| ==> !IsSpace(s[k])) ==> r == s
    decreases |s|
  {
    if |s| == 0 then ""
    else if IsSpace(s[0]) then
      var rest := TrimStart(s);
      "_" + CollapseSpaces(rest)
    else
      assert s == [s[0]] + s[1..];
      [s[0]] + CollapseSpaces(s[1..])
  }

  /** `replace(/[^a-z0-9_]/g, '')`: only lower-case ASCII letters, digits and '_' stay. */
  function KeepSlugChars(s: string): (r: string)
    ensures forall k :: 0 <= k < |r| ==> IsSlugChar(r[k])
    ensures (forall k :: 0 <= k < |s| ==> IsSlugChar(s[k])) ==> r == s
    ensures r == Filter(IsSlugChar, s)
  {
    if |s| == 0 then ""
    else if IsSlugChar(s[0]) then
      assert s == [s[0]] + s[1..];
      [s[0]] + KeepSlugChars(s[1..])
    else KeepSlugChars(s[1..])
  }

  /** The category id addCategory derives from a label: lower-cased, each whitespace run
      turned into one '_', everything outside [a-z0-9_] dropped. A label that is already
      made of slug characters is its own id. */
  function Slug(labelText: string): (r: string)
    ensures forall k :: 0 <= k < |r| ==> IsSlugChar(r[k])
    ensures (forall k :: 0 <= k < |labelText| ==> IsSlugChar(labelText[k])) ==> r == labelText
  {
    KeepSlugChars(CollapseSpaces(Lower(labelText)))
  }

  /** A label without whitespace keeps exactly its lower-cased slug characters, in order. */
  lemma SlugOfWord(w: string)
    requires forall k :: 0 <= k < |w| ==> !IsSpace(w[k])
    ensures Slug(w) == Filter(IsSlugChar, Lower(w))
  {
    LowerKeepsNonSpace(w);
  }

  /** Lower-casing turns no character into whitespace. */
  lemma LowerKeepsNonSpace(w: string)
    requires forall k :: 0 <= k < |w| ==> !IsSpace(w[k])
    ensures forall k :: 0 <= k < |Lower(w)| ==> !IsSpace(Lower(w)[k])
  {
  }

  /** Lower-casing works character by character, so it distributes over concatenation. */
  lemma LowerConcat(a: string, b: string)
    ensures Lower(a + b) == Lower(a) + Lower(b)
  {
    assert forall k :: 0 <= k < |a + b| ==> Lower(a + b)[k] == (Lower(a) + Lower(b))[k];
  }

  /** Where a whitespace run separates two parts of a label, the id is the first part's id,
      one '_', and the rest's id. With SlugOfWord this fixes the id of every label, word by
      word. */
  lemma SlugSplitsAtRun(a: string, run: string, b: string)
    requires forall k :: 0 <= k < |a| ==> !IsSpace(a[k])
    requires |run| > 0 && IsBlank(run)
    requires |b| == 0 || !IsSpace(b[0])
    ensures Slug(a + run + b) == Slug(a) + "_" + Slug(b)
  {
    var la, cb := Lower(a), CollapseSpaces(Lower(b));
    CollapsedLowerSplits(a, run, b);
    assert la + "_" + cb == (la + "_") + cb;
    FilterConcat(IsSlugChar, la + "_", cb);
    FilterConcat(IsSlugChar, la, "_");
    assert Filter(IsSlugChar, "_") == "_" by { assert "_"[1..] == []; }
    SlugOfWord(a);
  }

  /** Lower-cased and collapsed, the label is the word, one '_' and the rest collapsed. */
  lemma CollapsedLowerSplits(a: string, run: string, b: string)
    requires forall k :: 0 <= k < |a| ==> !IsSpace(a[k])
    requires |run| > 0 && IsBlank(run)
    requires |b| == 0 || !IsSpace(b[0])
    ensures CollapseSpaces(Lower(a + run + b)) == Lower(a) + "_" + CollapseSpaces(Lower(b))
  {
    LowerConcat(a + run, b);
    LowerConcat(a, run);
    LowerKeepsNonSpace(a);
    assert IsBlank(Lower(run));
    CollapseSpacesWord(Lower(a), Lower(run), Lower(b));
  }

  /** A slug is its own slug: slugging is idempotent. */
  lemma SlugIdempotent(labelText: string)
    ensures Slug(Slug(labelText)) == Slug(labelText)
  {
  }

  /** A whitespace run between a space-free word and the rest becomes exactly one '_'. */
  lemma CollapseSpacesWord(a: string, run: string, b: string)
    requires forall k :: 0 <= k < |a| ==> !IsSpace(a[k])
    requires |run| > 0 && IsBlank(run)
    requires |b| == 0 || !IsSpace(b[0])
    ensures CollapseSpaces(a + run + b) == a + "_" + CollapseSpaces(b)
  {
    CollapseSpacesRun(run, b);
    assert a + run + b == a + (run + b);
    CollapseSpacesKeepsWord(a, run + b);
  }

  /** A space-free prefix is kept as it is in front of the rest's collapsed form. */
  lemma {:induction false} CollapseSpacesKeepsWord(a: string, t: string)
    requires forall k :: 0 <= k < |a| ==> !IsSpace(a[k])
    ensures CollapseSpaces(a + t) == a + CollapseSpaces(t)
    decreases |a|
  {
    if |a| == 0 {
      assert a + t == t;
    } else {
      ConsAppend(a, t);
      CollapseSpacesKeepsWord(a[1..], t);
      CollapseSpacesCons(a[0], a[1..] + t);
      ConsAppend(a, CollapseSpaces(t));
    }
  }

  /** A non-space character is kept in front of the rest's collapsed form. */
  lemma CollapseSpacesCons(c: char, t: string)
    requires !IsSpace(c)
    ensures CollapseSpaces([c] + t) == [c] + CollapseSpaces(t)
  {
    assert ([c] + t)[1..] == t;
  }

  /** A leading whitespace run before a non-space becomes one '_'. */
  lemma CollapseSpacesRun(run: string, b: string)
    requires |run| > 0 && IsBlank(run)
    requires |b| == 0 || !IsSpace(b[0])
    ensures CollapseSpaces(run + b) == "_" + CollapseSpaces(b)
  {
    var s := run + b;
    assert IsSpace(s[0]);
    TrimStartRun(run, b);
  }

  /** Some category already carries `id`. */
  predicate HasCategory(s: Store, id: string) {
    exists i :: 0 <= i < |s.categories| && s.categories[i].id == id
  }

  /** addCategory: refused at seven categories or when the labelText's slug is already an id;
      otherwise one custom category is appended and nothing else changes. */
  function AddCategory(s: Store, labelText: string): (r: Change)
    ensures r.ok <==> |s.categories| < 7 && !HasCategory(s, Slug(labelText))
    ensures !r.ok ==> r.store == s
    ensures r.ok ==> r.store.categories == s.categories + [CategoryConfig(Slug(labelText), labelText, false)]
    ensures r.store.tasks == s.tasks
    ensures |r.store.categories| <= 7 || r.store.categories == s.categories
  {
    if |s.categories| >= MaxCategories then Change(false, s)
    else
      var id := Slug(labelText);
      if HasCategory(s, id) then Change(false, s)
      else Change(true, s.(categories := s.categories + [CategoryConfig(id, labelText, false)]))
  }

  /** The task after its category is deleted: moved to 'action_item' if it was in `id`. */
  function Reassign(t: Task, id: string): (r: Task)
    ensures t.category == id ==> r.category == ActionItem
    ensures r.category != id || id == ActionItem
    ensures r.(category := t.category) == t
    ensures r == t <==> t.category != id || id == ActionItem
  {
    if t.category == id then t.(category := ActionItem) else t
  }

  /** The first category carrying `id` exists and is a custom one. */
  /** No two categories of the store share an id. */
  predicate CategoryIdsDistinct(s: Store) {
    forall i, j :: 0 <= i < j < |s.categories| ==> s.categories[i].id != s.categories[j].id
  }

  predicate FirstIsCustom(s: Store, id: string) {
    exists i :: 0 <= i < |s.categories| && s.categories[i].id == id && !s.categories[i].isDefault
      && forall j :: 0 <= j < i ==> s.categories[j].id != id
  }

  /** deleteCategory: refused for an unknown id or a default category. Otherwise the
      categories carrying `id` go, and every task in that category moves to 'action_item'
      while all other tasks stay as they are. */
  function DeleteCategory(s: Store, id: string): (r: Change)
    ensures r.ok <==> FirstIsCustom(s, id)
    ensures !r.ok ==> r.store == s
    ensures r.ok ==> forall c :: c in r.store.categories <==> c in s.categories && c.id != id
    ensures r.ok ==> IsSubseq(r.store.categories, s.categories)
    ensures r.ok ==> |r.store.tasks| == |s.tasks|
    ensures r.ok ==> forall i :: 0 <= i < |s.tasks| && s.tasks[i].category == id ==>
      r.store.tasks[i] == s.tasks[i].(category := ActionItem)
    ensures r.ok ==> forall i :: 0 <= i < |s.tasks| && s.tasks[i].category != id ==>
      r.store.tasks[i] == s.tasks[i]
  {
    var found := Find((c: CategoryConfig) => c.id == id, s.categories);
    if found.None? || found.value.isDefault then
      assert !FirstIsCustom(s, id);
      Change(false, s)
    else
      var k :| 0 <= k < |s.categories| && s.categories[k] == found.value
        && forall j :: 0 <= j < k ==> s.categories[j].id != id;
      assert FirstIsCustom(s, id);
      FilterIsSubseq((c: CategoryConfig) => c.id != id, s.categories);
      Change(true, Store(ReassignAll(s.tasks, id), Filter((c: CategoryConfig) => c.id != id, s.categories)))
  }

  /** Every task of category `id` moved to 'action_item', the others kept, in place. */
  function ReassignAll(tasks: seq<Task>, id: string): (r: seq<Task>)
    ensures |r| == |tasks|
    ensures forall i :: 0 <= i < |tasks| && tasks[i].category == id ==> r[i] == tasks[i].(category := ActionItem)
    ensures forall i :: 0 <= i < |tasks| && tasks[i].category != id ==> r[i] == tasks[i]
  {
    Map((t: Task) => Reassign(t, id), tasks)
  }

  /** After a successful deletion no task is left in the deleted category (the id is not
      'action_item' itself, which only a custom category could share with the default). */
  lemma DeleteCategoryOrphansNothing(s: Store, id: string)
    requires id != ActionItem
    requires DeleteCategory(s, id).ok
    ensures forall t :: t in DeleteCategory(s, id).store.tasks ==> t.category != id
    ensures !HasCategory(DeleteCategory(s, id).store, id)
  {
    var r := DeleteCategory(s, id).store;
    forall t | t in r.tasks
      ensures t.category != id
    {
      var i :| 0 <= i < |r.tasks| && r.tasks[i] == t;
    }
  }

  /** The store operations, for stating what holds in every reachable store. */
  datatype Op =
    | AddTaskOp(task: NewTask, newId: string, now: int)
    | UpdateTaskOp(id: string, patch: TaskPatch)
    | DeleteTaskOp(id: string)
    | ToggleOp(id: string, now: int)
    | AddCategoryOp(labelText: string)
    | DeleteCategoryOp(id: string)

  /** One operation; only the two category operations touch the categories. */
  function Step(s: Store, op: Op): (r: Store)
    ensures !op.AddCategoryOp? && !op.DeleteCategoryOp? ==> r.categories == s.categories
    ensures op.AddCategoryOp? ==>
      (r.categories == s.categories || r.categories == s.categories + [CategoryConfig(Slug(op.labelText), op.labelText, false)])
    ensures op.DeleteCategoryOp? ==> forall c :: c in r.categories ==> c in s.categories
  {
    match op
    case AddTaskOp(t, newId, now) => AddTask(s, t, newId, now)
    case UpdateTaskOp(id, u) => UpdateTask(s, id, u)
    case DeleteTaskOp(id) => DeleteTask(s, id)
    case ToggleOp(id, now) => ToggleTaskStatus(s, id, now)
    case AddCategoryOp(labelText) => AddCategory(s, labelText).store
    case DeleteCategoryOp(id) => DeleteCategory(s, id).store
  }

  /** The operations applied first to last; without a category operation among them the
      categories are those the store started with. */
  function Run(s: Store, ops: seq<Op>): (r: Store)
    ensures (forall i :: 0 <= i < |ops| ==> !ops[i].AddCategoryOp? && !ops[i].DeleteCategoryOp?) ==>
      r.categories == s.categories
    decreases |ops|
  {
    if |ops| == 0 then s else Run(Step(s, ops[0]), ops[1..])
  }

  /** No operation takes the category count above seven. */
  lemma {:induction false} CategoryCapHolds(s: Store, ops: seq<Op>)
    requires |s.categories| <= 7
    ensures |Run(s, ops).categories| <= 7
    decreases |ops|
  {
    if |ops| > 0 {
      var n := Step(s, ops[0]);
      if ops[0].DeleteCategoryOp? {
        var id := ops[0].id;
        var r := DeleteCategory(s, id);
        if r.ok {
          FilterIsSubseq((c: CategoryConfig) => c.id != id, s.categories);
        }
      }
      CategoryCapHolds(n, ops[1..]);
    }
  }

  /** Only the seven defaults, which cannot be deleted and already fill the cap: from the
      initial store no operation sequence ever changes the categories. */
  lemma {:induction false} CategoriesNeverChange(s: Store, ops: seq<Op>)
    requires s.categories == DefaultCategoryConfigs
    ensures Run(s, ops).categories == DefaultCategoryConfigs
    decreases |ops|
  {
    if |ops| > 0 {
      StepKeepsDefaults(s, ops[0]);
      CategoriesNeverChange(Step(s, ops[0]), ops[1..]);
    }
  }

  /** From the seven defaults, one operation leaves the categories as they are. */
  lemma StepKeepsDefaults(s: Store, op: Op)
    requires s.categories == DefaultCategoryConfigs
    ensures Step(s, op).categories == DefaultCategoryConfigs
  {
    if op.DeleteCategoryOp? {
      assert !FirstIsCustom(s, op.id);
    } else if op.AddCategoryOp? {
      assert !AddCategory(s, op.labelText).ok;
    }
  }

  /** So addCategory fails, changing nothing, in every store reachable from the initial one. */
  lemma AddCategoryAlwaysFails(tasks: seq<Task>, ops: seq<Op>, labelText: string)
    ensures !AddCategory(Run(Init(tasks), ops), labelText).ok
    ensures AddCategory(Run(Init(tasks), ops), labelText).store == Run(Init(tasks), ops)
  {
    CategoriesNeverChange(Init(tasks), ops);
  }
}

=== FILE: text.dfy ===
/** The JavaScript string operations the components use, over strings as sequences of
    characters: trim, ASCII toLowerCase/toUpperCase, startsWith, includes, split on one
    character, join, and the decimal rendering of an integer in a template literal. */
module Text {

  /** ECMAScript WhiteSpace and LineTerminator code points: the set that String.prototype.trim
      strips and that the regular-expression class `\s` matches. */
  predicate IsSpace(c: char) {
    || c == '\t' || c == '\n' || c == '\U{000B}' || c == '\U{000C}' || c == '\r' || c == ' '
    || c == '\U{00A0}' || c == '\U{1680}' || ('\U{2000}' <= c <= '\U{200A}')
    || c == '\U{2028}' || c == '\U{2029}' || c == '\U{202F}' || c == '\U{205F}'
    || c == '\U{3000}' || c == '\U{FEFF}'
  }

  /** Every character of `s` is whitespace (the empty string included). */
  predicate IsBlank(s: string) {
    forall k :: 0 <= k < |s| ==> IsSpace(s[k])
  }

  /** `s` with its leading whitespace removed. */
  function TrimStart(s: string): (r: string)
    ensures |r| <= |s| && r == s[|s| - |r|..]
    ensures |r| > 0 ==> !IsSpace(r[0])
    ensures forall k :: 0 <= k < |s| - |r| ==> IsSpace(s[k])
  {
    if |s| > 0 && IsSpace(s[0]) then TrimStart(s[1..]) else s
  }

  /** `s` with its trailing whitespace removed. */
  function TrimEnd(s: string): (r: string)
    ensures |r| <= |s| && r == s[..|r|]
    ensures |r| > 0 ==> !IsSpace(r[|r| - 1])
    ensures forall k :: |r| <= k < |s| ==> IsSpace(s[k])
  {
    if |s| > 0 && IsSpace(s[|s| - 1]) then TrimEnd(s[..|s| - 1]) else s
  }

  /** Trimming the start removes exactly a leading blank run. */
  lemma {:induction false} TrimStartRun(run: string, b: string)
    requires IsBlank(run)
    requires |b| == 0 || !IsSpace(b[0])
    ensures TrimStart(run + b) == b
  {
    if |run| > 0 {
      assert (run + b)[1..] == run[1..] + b;
      TrimStartRun(run[1..], b);
    } else {
      assert run + b == b;
    }
  }

  /** `q` occurs in `s` as the contiguous piece that starts at index `i`. */
  predicate OccursAt(s: string, q: string, i: int) {
    0 <= i <= |s| - |q| && s[i..i + |q|] == q
  }

  /** `q` occurs somewhere in `s` as a contiguous piece. */
  ghost predicate Occurs(s: string, q: string) {
    exists i :: OccursAt(s, q, i)
  }

  /** String.prototype.trim: the contiguous middle of `s` that starts and ends with a
      non-whitespace character; empty exactly when `s` is blank. */
  function Trim(s: string): (r: string)
    ensures exists i :: OccursAt(s, r, i)
    ensures |r| > 0 ==> !IsSpace(r[0]) && !IsSpace(r[|r| - 1])
    ensures r == "" <==> IsBlank(s)
  {
    var a := TrimStart(s);
    var r := TrimEnd(a);
    assert r == s[|s| - |a|..][..|r|] == s[|s| - |a|..|s| - |a| + |r|];
    assert OccursAt(s, r, |s| - |a|);
    assert r == "" ==> IsBlank(s) by {
      if r == "" {
        assert a == "";
      }
    }
    r
  }

  /** Every character of the trimmed string is a character of the string. */
  lemma TrimCharsFrom(s: string)
    ensures forall k :: 0 <= k < |Trim(s)| ==> Trim(s)[k] in s
  {
    var r := Trim(s);
    var i :| OccursAt(s, r, i);
    forall k | 0 <= k < |r|
      ensures r[k] in s
    {
      assert r[k] == s[i + k];
    }
  }

  /** Lower-casing leaves no ASCII capital and keeps blank strings blank, and only those. */
  lemma LowerFacts(s: string)
    ensures forall k :: 0 <= k < |Lower(s)| ==> !('A' <= Lower(s)[k] <= 'Z')
    ensures IsBlank(Lower(s)) <==> IsBlank(s)
  {
  }

  /** Trimming an already trimmed string changes nothing. */
  lemma TrimIdempotent(s: string)
    ensures Trim(Trim(s)) == Trim(s)
  {
    var t := Trim(s);
    assert TrimStart(t) == t;
    assert TrimEnd(t) == t;
  }

  function LowerChar(c: char): char {
    if 'A' <= c <= 'Z' then (c as int + 32) as char else c
  }

  function UpperChar(c: char): char {
    if 'a' <= c <= 'z' then (c as int - 32) as char else c
  }

  /** String.prototype.toLowerCase over ASCII letters; other characters are kept. */
  function Lower(s: string): (r: string)
    ensures |r| == |s|
    ensures forall k :: 0 <= k < |s| ==> r[k] == LowerChar(s[k])
  {
    if |s| == 0 then "" else [LowerChar(s[0])] + Lower(s[1..])
  }

  /** String.prototype.toUpperCase over ASCII letters; other characters are kept. */
  function Upper(s: string): (r: string)
    ensures |r| == |s|
    ensures forall k :: 0 <= k < |s| ==> r[k] == UpperChar(s[k])
  {
    if |s| == 0 then "" else [UpperChar(s[0])] + Upper(s[1..])
  }

  /** String.prototype.startsWith. */
  predicate StartsWith(s: string, prefix: string) {
    |prefix| <= |s| && s[..|prefix|] == prefix
  }

  /** String.prototype.includes: `q` occurs as a contiguous piece of `s`. */
  function Contains(s: string, q: string): (b: bool)
    ensures b <==> exists i :: OccursAt(s, q, i)
    decreases |s|
  {
    if StartsWith(s, q) then
      assert OccursAt(s, q, 0);
      true
    else if |s| == 0 then false
    else
      var b := Contains(s[1..], q);
      if b then
        var i :| OccursAt(s[1..], q, i);
        assert OccursAt(s, q, i + 1);
        true
      else
        assert forall i :: !OccursAt(s, q, i) by {
          forall i | OccursAt(s, q, i) && i > 0
            ensures OccursAt(s[1..], q, i - 1)
          {
          }
        }
        false
  }

  /** Array.prototype.join: the pieces with `sep` between consecutive ones. */
  function Join(xs: seq<string>, sep: string): string {
    if |xs| == 0 then ""
    else if |xs| == 1 then xs[0]
    else xs[0] + sep + Join(xs[1..], sep)
  }

  /** `c` does not occur in `s`. */
  predicate Lacks(s: string, c: char) {
    forall k :: 0 <= k < |s| ==> s[k] != c
  }

  /** String.prototype.split with a one-character separator: the maximal pieces between
      occurrences of `c`, empty pieces included; there is always at least one piece. */
  function Split(s: string, c: char): (r: seq<string>)
    ensures |r| >= 1
    ensures forall i :: 0 <= i < |r| ==> Lacks(r[i], c)
    ensures Join(r, [c]) == s
  {
    if |s| == 0 then [""]
    else if s[0] == c then
      var rest := Split(s[1..], c);
      assert s == [c] + Join(rest, [c]);
      [""] + rest
    else
      var rest := Split(s[1..], c);
      var r := [[s[0]] + rest[0]] + rest[1..];
      assert Join(r, [c]) == [s[0]] + Join(rest, [c]) by {
        if |rest| > 1 {
          assert r[1..] == rest[1..];
        }
      }
      assert s == [s[0]] + s[1..];
      r
  }

  /** Splitting the join of pieces that do not contain the separator gives the pieces back. */
  lemma {:induction false} SplitJoin(xs: seq<string>, c: char)
    requires |xs| >= 1
    requires forall i :: 0 <= i < |xs| ==> Lacks(xs[i], c)
    ensures Split(Join(xs, [c]), c) == xs
  {
    SplitUnique(Join(xs, [c]), c, xs);
  }

  /** A sequence of separator-free pieces that joins to `s` is the split of `s`. */
  lemma {:induction false} SplitUnique(s: string, c: char, xs: seq<string>)
    requires |xs| >= 1
    requires forall i :: 0 <= i < |xs| ==> Lacks(xs[i], c)
    requires Join(xs, [c]) == s
    ensures Split(s, c) == xs
    decreases |s|, |xs[0]|
  {
    if |s| == 0 {
    } else if s[0] == c {
      assert |xs| > 1;
      assert s == xs[0] + [c] + Join(xs[1..], [c]);
      assert |xs[0]| == 0;
      assert s == [c] + Join(xs[1..], [c]);
      assert s[1..] == Join(xs[1..], [c]);
      SplitUnique(s[1..], c, xs[1..]);
      assert xs == [""] + xs[1..];
    } else {
      assert |xs[0]| > 0 by {
        if |xs| > 1 {
          assert s == xs[0] + [c] + Join(xs[1..], [c]);
        }
      }
      var ys := [xs[0][1..]] + xs[1..];
      assert Join(ys, [c]) == s[1..] by {
        if |xs| > 1 {
          assert ys[1..] == xs[1..];
          assert s == xs[0] + [c] + Join(xs[1..], [c]);
        }
      }
      assert forall i :: 0 <= i < |ys| ==> Lacks(ys[i], c) by {
        assert Lacks(xs[0], c);
        assert forall i :: 1 <= i < |ys| ==> ys[i] == xs[i];
      }
      SplitUnique(s[1..], c, ys);
      assert xs[0] == [s[0]] + ys[0];
      assert xs == [xs[0]] + ys[1..];
    }
  }

  /** The text of `s` up to (not including) the first `c`, or all of `s`. */
  lemma {:induction false} SplitFirstPiece(s: string, c: char, i: nat)
    requires i <= |s| && Lacks(s[..i], c) && (i == |s| || s[i] == c)
    ensures Split(s, c)[0] == s[..i]
  {
    if i > 0 {
      assert s[0] != c by { assert s[..i][0] == s[0]; }
      assert s[1..][..i - 1] == s[..i][1..];
      SplitFirstPiece(s[1..], c, i - 1);
      assert s[..i] == [s[0]] + s[1..][..i - 1];
    } else if |s| > 0 {
      assert s[0] == c;
    }
  }

  /** The first piece of a split is the text before the first `c`: a prefix of `s` that is
      either all of `s` or followed by `c`. */
  lemma SplitFirstShape(s: string, c: char)
    ensures var p := Split(s, c)[0];
      |p| <= |s| && s[..|p|] == p && (|p| == |s| || s[|p|] == c)
  {
    var r := Split(s, c);
    if |r| > 1 {
      assert s == r[0] + [c] + Join(r[1..], [c]);
    }
  }

  function DigitChar(d: nat): char
    requires d < 10
  {
    ('0' as int + d) as char
  }

  /** Decimal rendering of a natural number, as String(n) gives it: no leading zeros. */
  function NatToString(n: nat): (r: string)
    ensures |r| >= 1
    ensures forall k :: 0 <= k < |r| ==> '0' <= r[k] <= '9'
    ensures |r| > 1 ==> r[0] != '0'
  {
    if n < 10 then [DigitChar(n)] else NatToString(n / 10) + [DigitChar(n % 10)]
  }

  function DigitValue(c: char): nat
    requires '0' <= c <= '9'
  {
    c as int - '0' as int
  }

  /** The value of a string of decimal digits. */
  function ParseNat(s: string): nat
    requires forall k :: 0 <= k < |s| ==> '0' <= s[k] <= '9'
  {
    if |s| == 0 then 0 else 10 * ParseNat(s[..|s| - 1]) + DigitValue(s[|s| - 1])
  }

  /** Reading back the decimal rendering gives the number. */
  lemma {:induction false} NatToStringRoundTrip(n: nat)
    ensures ParseNat(NatToString(n)) == n
  {
    if n >= 10 {
      NatToStringRoundTrip(n / 10);
      var r := NatToString(n);
      assert r[..|r| - 1] == NatToString(n / 10);
    }
  }

  /** Decimal rendering of an integer, with a leading '-' when it is negative. */
  function IntToString(n: int): (r: string)
    ensures |r| >= 1
    ensures n < 0 <==> r[0] == '-'
  {
    if n < 0 then "-" + NatToString(-n) else NatToString(n)
  }
}

=== FILE: todays_plan.dfy ===
/** Today's Plan: the task list narrowed by a project and a category filter, split by status,
    the open tasks sorted into three sections, the four per-category counts, the toggle with
    its toast, and the filter controls. Whether a creation time falls on the current day is
    a predicate the caller supplies. */
module TodaysPlan {
  import opened Base
  import opened Text
  import opened TaskStore

  const All: string := "all"

  /** The page's own state. */
  datatype Plan = Plan(projectFilter: string, categoryFilter: string, showCompleted: bool,
                       expandedTask: Option<string>)

  const InitialPlan: Plan := Plan(All, All, false, None)

  predicate PassesFilters(t: Task, projectFilter: string, categoryFilter: string) {
    (projectFilter == All || t.projectId == projectFilter)
    && (categoryFilter == All || t.category == categoryFilter)
  }

  /** filteredTasks: the tasks that pass both filters, in store order. */
  function FilteredTasks(tasks: seq<Task>, projectFilter: string, categoryFilter: string): (r: seq<Task>)
    ensures forall t :: t in r <==> t in tasks && PassesFilters(t, projectFilter, categoryFilter)
    ensures IsSubseq(r, tasks)
    ensures projectFilter == All && categoryFilter == All ==> r == tasks
  {
    var p := (t: Task) => PassesFilters(t, projectFilter, categoryFilter);
    FilterIsSubseq(p, tasks);
    if projectFilter == All && categoryFilter == All then FilterAll(p, tasks); Filter(p, tasks)
    else Filter(p, tasks)
  }

  /** openTasks and completedTasks split the filtered list by status. */
  lemma FilteredSplit(tasks: seq<Task>, projectFilter: string, categoryFilter: string)
    ensures var shown := FilteredTasks(tasks, projectFilter, categoryFilter);
      multiset(OpenTasks(shown)) + multiset(CompletedTasks(shown)) == multiset(shown)
  {
    OpenCompletedPartition(FilteredTasks(tasks, projectFilter, categoryFilter));
  }

  /** The open tasks of one category: the lists behind the four stat cards. */
  function OpenOf(open: seq<Task>, category: string): seq<Task> {
    TasksByCategory(open, category)
  }

  /** mustDoToday: the open action items created today, then all open follow-ups. */
  function MustDoToday(open: seq<Task>, isToday: int -> bool): (r: seq<Task>)
    ensures forall t :: t in r <==> t in open && MustDo(t, isToday)
  {
    Filter((t: Task) => isToday(t.createdAt) || t.category == "follow_up",
           OpenOf(open, "action_item") + OpenOf(open, "follow_up"))
  }

  /** blockersAndRisks: the open blockers. */
  function Blockers(open: seq<Task>): (r: seq<Task>)
    ensures forall t :: t in r <==> t in open && t.category == "blocker"
    ensures IsSubseq(r, open)
  {
    OpenOf(open, "blocker")
  }

  /** otherTasks: the open tasks in neither of the two sections above. */
  function OtherTasks(open: seq<Task>, isToday: int -> bool): (r: seq<Task>)
    ensures forall t :: t in r <==> t in open && !MustDo(t, isToday) && t.category != "blocker"
    ensures IsSubseq(r, open)
  {
    var must := MustDoToday(open, isToday);
    var blockers := Blockers(open);
    FilterIsSubseq((t: Task) => t !in must && t !in blockers, open);
    Filter((t: Task) => t !in must && t !in blockers, open)
  }

  /** Belongs in Must Do Today. */
  predicate MustDo(t: Task, isToday: int -> bool) {
    (t.category == "action_item" && isToday(t.createdAt)) || t.category == "follow_up"
  }

  /** The first section is the action items created today followed by the follow-ups, each
      part in list order; an open task is in it exactly when it is such a task. */
  lemma MustDoTodayContents(open: seq<Task>, isToday: int -> bool)
    ensures MustDoToday(open, isToday) ==
      Filter((t: Task) => t.category == "action_item" && isToday(t.createdAt), open)
      + OpenOf(open, "follow_up")
    ensures forall t :: t in MustDoToday(open, isToday) <==> t in open && MustDo(t, isToday)
  {
    var a := OpenOf(open, "action_item");
    var f := OpenOf(open, "follow_up");
    var keep := (t: Task) => isToday(t.createdAt) || t.category == "follow_up";
    FilterConcat(keep, a, f);
    FilterFilter((t: Task) => t.category == "action_item", keep,
                 (t: Task) => t.category == "action_item" && isToday(t.createdAt), open);
    FilterAll(keep, f);
  }

  /** The three sections split the open tasks: no task is in two of them, and together they
      hold every open task as often as the open list does. */
  lemma SectionsPartitionOpen(open: seq<Task>, isToday: int -> bool)
    ensures forall t :: !(t in MustDoToday(open, isToday) && t in Blockers(open))
    ensures forall t :: !(t in MustDoToday(open, isToday) && t in OtherTasks(open, isToday))
    ensures forall t :: !(t in Blockers(open) && t in OtherTasks(open, isToday))
    ensures multiset(MustDoToday(open, isToday)) + multiset(Blockers(open))
      + multiset(OtherTasks(open, isToday)) == multiset(open)
  {
    MustDoTodayContents(open, isToday);
    var must := MustDoToday(open, isToday);
    var m := (t: Task) => MustDo(t, isToday);
    var b := (t: Task) => t.category == "blocker";
    var o := (t: Task) => !MustDo(t, isToday) && t.category != "blocker";
    FilterUnion((t: Task) => t.category == "action_item" && isToday(t.createdAt),
                (t: Task) => t.category == "follow_up", m, open);
    FilterCongruent((t: Task) => t !in must && t !in Blockers(open), o, open);
    FilterPartition3(m, b, o, open);
  }

  /** The four stat cards count the open filtered tasks of their category. */
  function StatCounts(open: seq<Task>): (r: seq<nat>)
    ensures |r| == 4
    ensures r[0] == Count((t: Task) => t.category == "action_item", open)
    ensures r[1] == Count((t: Task) => t.category == "follow_up", open)
    ensures r[2] == Count((t: Task) => t.category == "blocker", open)
    ensures r[3] == Count((t: Task) => t.category == "decision", open)
  {
    [|OpenOf(open, "action_item")|, |OpenOf(open, "follow_up")|, |OpenOf(open, "blocker")|,
     |OpenOf(open, "decision")|]
  }

  /** The category each stat card filters on when clicked, in card order. */
  const StatCategories: seq<string> := ["action_item", "follow_up", "blocker", "decision"]

  /** Clicking a stat card: the category filter becomes its category and the card is shown
      active. */
  function ClickStat(p: Plan, card: nat): (r: Plan)
    requires card < 4
    ensures r.categoryFilter == StatCategories[card] && r.projectFilter == p.projectFilter
    ensures r.(categoryFilter := p.categoryFilter) == p
  {
    p.(categoryFilter := StatCategories[card])
  }

  /** The toast after a toggle, chosen from the status before it. */
  datatype Toast = TaskCompleted(undo: string) | TaskReopened

  /** handleToggleTask: the store toggles the task; the toast reports completion with an
      undo when the task was open before, and reopening otherwise, also when no task
      carries the id. */
  function HandleToggleTask(s: Store, id: string, now: int): (r: (Store, Toast))
    ensures r.0 == ToggleTaskStatus(s, id, now)
    ensures r.1.TaskCompleted? <==>
      exists i :: 0 <= i < |s.tasks| && s.tasks[i].id == id && s.tasks[i].status == Open
                  && forall j :: 0 <= j < i ==> s.tasks[j].id != id
    ensures r.1.TaskCompleted? ==> r.1.undo == id
  {
    var found := Find((t: Task) => t.id == id, s.tasks);
    CompletedToastIff(s, id);
    (ToggleTaskStatus(s, id, now), if found.Some? && found.value.status == Open then TaskCompleted(id) else TaskReopened)
  }

  /** The first task with the id is open exactly when one such task comes before any other
      with the id. */
  lemma CompletedToastIff(s: Store, id: string)
    ensures var found := Find((t: Task) => t.id == id, s.tasks);
      found.Some? && found.value.status == Open <==>
      exists i :: 0 <= i < |s.tasks| && s.tasks[i].id == id && s.tasks[i].status == Open
                  && forall j :: 0 <= j < i ==> s.tasks[j].id != id
  {
    if exists i :: 0 <= i < |s.tasks| && s.tasks[i].id == id && s.tasks[i].status == Open
                   && forall j :: 0 <= j < i ==> s.tasks[j].id != id {
      var i :| 0 <= i < |s.tasks| && s.tasks[i].id == id && s.tasks[i].status == Open
               && forall j :: 0 <= j < i ==> s.tasks[j].id != id;
      FindFirst((t: Task) => t.id == id, s.tasks, i);
    }
  }

  /** The undo of the completion toast puts every task's status back. */
  lemma ToggleUndoRestoresStatus(s: Store, id: string, now: int, later: int)
    requires HandleToggleTask(s, id, now).1.TaskCompleted?
    ensures var back := ToggleTaskStatus(HandleToggleTask(s, id, now).0, id, later);
      forall i :: 0 <= i < |s.tasks| ==> back.tasks[i].status == s.tasks[i].status
  {
    ToggleTwiceRestores(s, id, now, later);
  }

  /** The delete control of a category entry: present only for custom categories. */
  function HasDeleteControl(c: CategoryConfig): (b: bool)
    ensures forall tasks :: b <==> DeleteCategory(Store(tasks, [c]), c.id).ok
    ensures forall s: Store :: c in s.categories && CategoryIdsDistinct(s) ==>
      (b <==> DeleteCategory(s, c.id).ok)
  {
    assert forall s: Store :: c in s.categories && CategoryIdsDistinct(s) ==>
      (FirstIsCustom(s, c.id) <==> !c.isDefault) by {
      forall s: Store | c in s.categories && CategoryIdsDistinct(s)
        ensures FirstIsCustom(s, c.id) <==> !c.isDefault
      {
        var i :| 0 <= i < |s.categories| && s.categories[i] == c;
        assert forall j :: 0 <= j < i ==> s.categories[j].id != c.id;
        if FirstIsCustom(s, c.id) {
          var k :| 0 <= k < |s.categories| && s.categories[k].id == c.id && !s.categories[k].isDefault
            && forall j :: 0 <= j < k ==> s.categories[j].id != c.id;
          assert k == i;
        }
      }
    }
    assert forall tasks :: FirstIsCustom(Store(tasks, [c]), c.id) <==> !c.isDefault by {
      forall tasks
        ensures FirstIsCustom(Store(tasks, [c]), c.id) <==> !c.isDefault
      {
        assert Store(tasks, [c]).categories[0] == c;
      }
    }
    !c.isDefault
  }

  /** Pressing a category's delete control: the store deletes it and, when it succeeded and
      the category was the active filter, the filter goes back to 'all'. */
  function DeleteCategoryEntry(p: Plan, s: Store, id: string): (r: (Plan, Store))
    ensures r.1 == DeleteCategory(s, id).store
    ensures DeleteCategory(s, id).ok && p.categoryFilter == id ==> r.0.categoryFilter == All
    ensures !(DeleteCategory(s, id).ok && p.categoryFilter == id) ==> r.0 == p
    ensures r.0.(categoryFilter := p.categoryFilter) == p
  {
    var c := DeleteCategory(s, id);
    (if c.ok && p.categoryFilter == id then p.(categoryFilter := All) else p, c.store)
  }

  /** After deleting the active custom category the list is the unfiltered one for the
      project, so no task drops out of view for having been moved to 'action_item'. */
  lemma DeleteActiveCategoryShowsAll(p: Plan, s: Store, id: string)
    requires DeleteCategory(s, id).ok && p.categoryFilter == id
    ensures var r := DeleteCategoryEntry(p, s, id);
      FilteredTasks(r.1.tasks, r.0.projectFilter, r.0.categoryFilter)
        == FilteredTasks(r.1.tasks, p.projectFilter, All)
  {
  }

  /** The Clear Filters button is shown exactly when a filter is set. */
  function ShowsClearFilters(p: Plan): (b: bool)
    ensures b <==> p.(projectFilter := All, categoryFilter := All) != p
  {
    p.projectFilter != All || p.categoryFilter != All
  }

  /** Clear Filters sets both filters to 'all', after which the button is gone and every
      task passes. */
  function ClearFilters(p: Plan): (r: Plan)
    ensures r.projectFilter == All && r.categoryFilter == All
    ensures !ShowsClearFilters(r)
    ensures r.showCompleted == p.showCompleted && r.expandedTask == p.expandedTask
    ensures forall tasks :: FilteredTasks(tasks, r.projectFilter, r.categoryFilter) == tasks
  {
    p.(projectFilter := All, categoryFilter := All)
  }

  /** Clicking a task's row expands it, or collapses it when it is the expanded one. */
  function ClickRow(p: Plan, id: string): (r: Plan)
    ensures r.expandedTask == (if p.expandedTask == Some(id) then None else Some(id))
    ensures r.(expandedTask := p.expandedTask) == p
  {
    p.(expandedTask := if p.expandedTask == Some(id) then None else Some(id))
  }

  /** No open task exactly when all three sections are empty. */
  lemma NoOpenIffSectionsEmpty(open: seq<Task>, isToday: int -> bool)
    ensures |open| == 0 <==> SectionsEmpty(open, isToday)
  {
    SectionsPartitionOpen(open, isToday);
    if SectionsEmpty(open, isToday) {
      assert multiset(open) == multiset{};
      assert |multiset(open)| == |open|;
    }
  }

  predicate SectionsEmpty(open: seq<Task>, isToday: int -> bool) {
    MustDoToday(open, isToday) == [] && Blockers(open) == [] && OtherTasks(open, isToday) == []
  }

  /** The "No tasks for today" state: no open filtered task and completed ones hidden, so
      the three sections have nothing to show. */
  function ShowsEmptyState(p: Plan, open: seq<Task>): (b: bool)
    ensures forall isToday :: b <==> !p.showCompleted && SectionsEmpty(open, isToday)
  {
    assert forall isToday :: |open| == 0 <==> SectionsEmpty(open, isToday) by {
      forall isToday
        ensures |open| == 0 <==> SectionsEmpty(open, isToday)
      {
        NoOpenIffSectionsEmpty(open, isToday);
      }
    }
    |open| == 0 && !p.showCompleted
  }
}

=== FILE: view_report.dfy ===
/** The weekly report view: the plain-text serialiser behind Copy to Clipboard, the on-screen
    rule that hides empty sections, and the Edit button of draft reports. */
module ViewReport {
  import opened Base
  import opened Text

  datatype ReportStatus = Draft | Final

  datatype ProjectReport = ProjectReport(id: string, name: string, workDone: seq<string>,
                                         keyWins: seq<string>, blockers: seq<string>,
                                         asks: seq<string>, whatNext: seq<string>)

  const Bullet: char := '•'

  /** One item as a line: the bullet, a space and the item. */
  function BulletLine(item: string): (r: string)
    ensures |r| == |item| + 2 && r[0] == Bullet && r[2..] == item
  {
    [Bullet, ' '] + item
  }

  const NoneLine: string := [Bullet] + " None"

  /** The items as bullet lines joined by newlines; nothing for no items. */
  function Bullets(items: seq<string>): string {
    Join(Map(BulletLine, items), "\n")
  }

  /** Blockers and asks: their bullet lines, or the single line "• None". */
  function BulletsOrNone(items: seq<string>): string {
    if |items| > 0 then Bullets(items) else NoneLine
  }

  /** A labelled section of the copy template: a blank line, the bold heading, and the body
      on the lines below it. */
  function Section(heading: string, body: string): string {
    "\n\n" + heading + "\n" + body
  }

  /** One project's block, as the copy template lays it out, up to its trailing newline and
      six spaces of indentation. */
  function ProjectBlock(p: ProjectReport): (r: string)
    ensures StartsWith(r, "\n## " + p.name + "\n\n**Work Done:**\n")
    ensures |r| >= 7 && r[|r| - 7..] == "\n      "
  {
    var s1 := Section("**Work Done:**", Bullets(p.workDone));
    var s2 := Section("**Key Wins:**", Bullets(p.keyWins));
    var s3 := Section("**Blockers:**", BulletsOrNone(p.blockers));
    var s4 := Section("**Asks:**", BulletsOrNone(p.asks));
    var s5 := Section("**What Next:**", Bullets(p.whatNext));
    assert s1 == "\n\n**Work Done:**\n" + Bullets(p.workDone);
    BlockFrame("\n## " + p.name, "\n\n**Work Done:**\n", Bullets(p.workDone), s2, s3, s4, s5, "\n      ");
    "\n## " + p.name + s1 + s2 + s3 + s4 + s5 + "\n      "
  }

  /** A text built as a head, sections and a tail starts with the head and the first
      section's opening, and ends with the tail. */
  lemma BlockFrame(a: string, h: string, b: string, s2: string, s3: string, s4: string, s5: string, t: string)
    ensures StartsWith(a + (h + b) + s2 + s3 + s4 + s5 + t, a + h)
    ensures var r := a + (h + b) + s2 + s3 + s4 + s5 + t; |r| >= |t| && r[|r| - |t|..] == t
  {
    var r := a + (h + b) + s2 + s3 + s4 + s5 + t;
    assert r[..|a + h|] == a + h;
  }

  const ProjectSeparator: string := "\n---\n"

  /** handleCopy: the project blocks in report order, joined by the separator. */
  function ReportText(projects: seq<ProjectReport>): (r: string)
    ensures r == "" <==> projects == []
    ensures |projects| > 0 ==> StartsWith(r, ProjectBlock(projects[0]))
  {
    var blocks := Map(ProjectBlock, projects);
    var r := Join(blocks, ProjectSeparator);
    assert |blocks| >= 2 ==> StartsWith(r, blocks[0]) by {
      if |blocks| >= 2 {
        assert r == blocks[0] + ProjectSeparator + Join(blocks[1..], ProjectSeparator);
        assert r[..|blocks[0]|] == blocks[0];
      }
    }
    r
  }

  /** The lines a list of items occupies: one per item, or a single empty line. */
  function ItemLines(items: seq<string>): (r: seq<string>)
    ensures |r| >= 1
  {
    if |items| == 0 then [""] else Map(BulletLine, items)
  }

  /** The lines of blockers and asks: one per item, or the "• None" line. */
  function ItemLinesOrNone(items: seq<string>): (r: seq<string>)
    ensures |r| >= 1
  {
    if |items| == 0 then [NoneLine] else Map(BulletLine, items)
  }

  /** A labelled section as lines: its bold heading and the lines of its body. */
  datatype Part = Part(heading: string, lines: seq<string>)

  /** The five sections of a project, in template order. */
  function Parts(p: ProjectReport): seq<Part> {
    [Part("**Work Done:**", ItemLines(p.workDone)), Part("**Key Wins:**", ItemLines(p.keyWins)),
     Part("**Blockers:**", ItemLinesOrNone(p.blockers)), Part("**Asks:**", ItemLinesOrNone(p.asks)),
     Part("**What Next:**", ItemLines(p.whatNext))]
  }

  /** Each section as a blank line, its heading and its lines. */
  function PartsLines(ps: seq<Part>): seq<string>
    decreases |ps|
  {
    if |ps| == 0 then [] else ["", ps[0].heading] + ps[0].lines + PartsLines(ps[1..])
  }

  function PartsText(ps: seq<Part>): string
    decreases |ps|
  {
    if |ps| == 0 then "" else Section(ps[0].heading, Join(ps[0].lines, "\n")) + PartsText(ps[1..])
  }

  /** The lines of a project's block, as a list of its own: an empty line, the project
      heading, the five sections, and the indentation line. */
  function BlockLines(p: ProjectReport): seq<string> {
    ["", "## " + p.name] + PartsLines(Parts(p)) + ["      "]
  }

  /** Joining two non-empty lists is joining each and putting the separator between. */
  lemma {:induction false} JoinConcat(a: seq<string>, b: seq<string>, sep: string)
    requires |a| >= 1 && |b| >= 1
    ensures Join(a + b, sep) == Join(a, sep) + sep + Join(b, sep)
    decreases |a|
  {
    if |a| == 1 {
      assert (a + b)[1..] == b;
    } else {
      assert (a + b)[1..] == a[1..] + b;
      JoinConcat(a[1..], b, sep);
    }
  }

  lemma ItemLinesJoin(items: seq<string>)
    ensures Join(ItemLines(items), "\n") == Bullets(items)
    ensures Join(ItemLinesOrNone(items), "\n") == BulletsOrNone(items)
  {
  }

  /** Appending a section's lines appends the section's text. */
  lemma JoinSection(pre: seq<string>, heading: string, lines: seq<string>)
    requires |pre| >= 1 && |lines| >= 1
    ensures Join(pre + ["", heading] + lines, "\n") == Join(pre, "\n") + Section(heading, Join(lines, "\n"))
  {
    JoinConcat(pre, ["", heading], "\n");
    JoinPair(heading);
    JoinConcat(pre + ["", heading], lines, "\n");
    SectionText(Join(pre, "\n"), heading, Join(lines, "\n"));
  }

  lemma JoinPair(heading: string)
    ensures Join(["", heading], "\n") == "\n" + heading
  {
    assert ["", heading][1..] == [heading];
  }

  lemma SectionText(a: string, heading: string, j: string)
    ensures a + "\n" + ("\n" + heading) + "\n" + j == a + Section(heading, j)
  {
    assert "\n" + "\n" == "\n\n";
  }

  /** Appending sections' lines appends their text. */
  lemma {:induction false} JoinParts(pre: seq<string>, ps: seq<Part>)
    requires |pre| >= 1
    requires forall i :: 0 <= i < |ps| ==> |ps[i].lines| >= 1
    ensures Join(pre + PartsLines(ps), "\n") == Join(pre, "\n") + PartsText(ps)
    decreases |ps|
  {
    if |ps| > 0 {
      var next := pre + ["", ps[0].heading] + ps[0].lines;
      var later := PartsLines(ps[1..]);
      assert PartsLines(ps) == ["", ps[0].heading] + ps[0].lines + later;
      assert pre + PartsLines(ps) == next + later;
      assert forall i :: 0 <= i < |ps[1..]| ==> |ps[1..][i].lines| >= 1 by {
        assert forall i :: 0 <= i < |ps[1..]| ==> ps[1..][i] == ps[i + 1];
      }
      JoinParts(next, ps[1..]);
      JoinSection(pre, ps[0].heading, ps[0].lines);
      var sec := Section(ps[0].heading, Join(ps[0].lines, "\n"));
      assert PartsText(ps) == sec + PartsText(ps[1..]);
      assert Join(pre, "\n") + sec + PartsText(ps[1..]) == Join(pre, "\n") + PartsText(ps);
    } else {
      assert pre + PartsLines(ps) == pre;
    }
  }

  lemma Reassociate(a: string, s1: string, s2: string, s3: string, s4: string, s5: string, t: string)
    ensures a + s1 + s2 + s3 + s4 + s5 + t == a + (s1 + (s2 + (s3 + (s4 + (s5 + ""))))) + t
  {
    assert s5 + "" == s5;
  }

  /** The template is the project heading, the five sections' text and the indentation. */
  lemma BlockIsParts(p: ProjectReport)
    ensures ProjectBlock(p) == "\n## " + p.name + PartsText(Parts(p)) + "\n      "
  {
    ItemLinesJoin(p.workDone);
    ItemLinesJoin(p.keyWins);
    ItemLinesJoin(p.blockers);
    ItemLinesJoin(p.asks);
    ItemLinesJoin(p.whatNext);
    var ps := Parts(p);
    var s1 := Section("**Work Done:**", Bullets(p.workDone));
    var s2 := Section("**Key Wins:**", Bullets(p.keyWins));
    var s3 := Section("**Blockers:**", BulletsOrNone(p.blockers));
    var s4 := Section("**Asks:**", BulletsOrNone(p.asks));
    var s5 := Section("**What Next:**", Bullets(p.whatNext));
    assert PartsText(ps[4..]) == s5 + "" by {
      assert ps[4..][1..] == [];
    }
    assert PartsText(ps[3..]) == s4 + PartsText(ps[4..]) by {
      assert ps[3..][1..] == ps[4..];
    }
    assert PartsText(ps[2..]) == s3 + PartsText(ps[3..]) by {
      assert ps[2..][1..] == ps[3..];
    }
    assert PartsText(ps[1..]) == s2 + PartsText(ps[2..]) by {
      assert ps[1..][1..] == ps[2..];
    }
    assert PartsText(ps) == s1 + PartsText(ps[1..]);
    Reassociate("\n## " + p.name, s1, s2, s3, s4, s5, "\n      ");
  }

  /** The block is its line list joined by newlines. */
  lemma BlockIsItsLines(p: ProjectReport)
    ensures Join(BlockLines(p), "\n") == ProjectBlock(p)
  {
    var head := ["", "## " + p.name];
    var body := head + PartsLines(Parts(p));
    assert BlockLines(p) == body + ["      "];
    HeadText(p.name);
    JoinParts(head, Parts(p));
    var jb := Join(body, "\n");
    assert jb == "\n## " + p.name + PartsText(Parts(p));
    JoinLast(body, "      ");
    TailText(jb);
    BlockIsParts(p);
  }

  lemma HeadText(name: string)
    ensures Join(["", "## " + name], "\n") == "\n## " + name
  {
    JoinPair("## " + name);
  }

  lemma TailText(a: string)
    ensures a + ("\n" + "      ") == a + "\n      "
  {
    assert "\n" + "      " == "\n      ";
  }

  lemma JoinLast(pre: seq<string>, last: string)
    requires |pre| >= 1
    ensures Join(pre + [last], "\n") == Join(pre, "\n") + ("\n" + last)
  {
    JoinConcat(pre, [last], "\n");
  }

  /** No line of `ls` holds a newline. */
  predicate AllLack(ls: seq<string>) {
    forall i :: 0 <= i < |ls| ==> Lacks(ls[i], '\n')
  }

  lemma AllLackConcat(a: seq<string>, b: seq<string>)
    requires AllLack(a) && AllLack(b)
    ensures AllLack(a + b)
  {
    forall i | 0 <= i < |a + b|
      ensures Lacks((a + b)[i], '\n')
    {
      if i >= |a| {
        assert (a + b)[i] == b[i - |a|];
      }
    }
  }

  /** The name and every item are free of newlines. */
  predicate NoNewlines(p: ProjectReport) {
    && Lacks(p.name, '\n')
    && AllLack(p.workDone) && AllLack(p.keyWins) && AllLack(p.blockers)
    && AllLack(p.asks) && AllLack(p.whatNext)
  }

  lemma ItemLinesLack(items: seq<string>)
    requires AllLack(items)
    ensures AllLack(ItemLines(items)) && AllLack(ItemLinesOrNone(items))
  {
    forall i | 0 <= i < |items|
      ensures Lacks(BulletLine(items[i]), '\n')
    {
      var l := BulletLine(items[i]);
      forall k | 0 <= k < |l|
        ensures l[k] != '\n'
      {
        if k >= 2 {
          assert l[k] == items[i][k - 2];
        }
      }
    }
  }

  lemma {:induction false} PartsLinesLack(ps: seq<Part>)
    requires forall i :: 0 <= i < |ps| ==> Lacks(ps[i].heading, '\n') && AllLack(ps[i].lines)
    ensures AllLack(PartsLines(ps))
    decreases |ps|
  {
    if |ps| > 0 {
      PartsLinesLack(ps[1..]);
      AllLackConcat(["", ps[0].heading], ps[0].lines);
      AllLackConcat(["", ps[0].heading] + ps[0].lines, PartsLines(ps[1..]));
    }
  }

  lemma HeadingLacks(name: string)
    requires Lacks(name, '\n')
    ensures Lacks("## " + name, '\n')
  {
    var h := "## " + name;
    forall k | 0 <= k < |h|
      ensures h[k] != '\n'
    {
      if k >= 3 {
        assert h[k] == name[k - 3];
      }
    }
  }

  lemma PartsLack(p: ProjectReport)
    requires NoNewlines(p)
    ensures forall i :: 0 <= i < |Parts(p)| ==> Lacks(Parts(p)[i].heading, '\n') && AllLack(Parts(p)[i].lines)
  {
    var ps := Parts(p);
    forall i | 0 <= i < |ps|
      ensures Lacks(ps[i].heading, '\n') && AllLack(ps[i].lines)
    {
      HeadingsLack();
      if i == 0 {
        ItemLinesLack(p.workDone);
      } else if i == 1 {
        ItemLinesLack(p.keyWins);
      } else if i == 2 {
        ItemLinesLack(p.blockers);
      } else if i == 3 {
        ItemLinesLack(p.asks);
      } else {
        ItemLinesLack(p.whatNext);
      }
    }
  }

  lemma HeadingsLack()
    ensures Lacks("**Work Done:**", '\n') && Lacks("**Key Wins:**", '\n') && Lacks("**Blockers:**", '\n')
    ensures Lacks("**Asks:**", '\n') && Lacks("**What Next:**", '\n')
  {
  }

  /** Every line of the block is free of newlines when the name and the items are. */
  lemma BlockLinesLack(p: ProjectReport)
    requires NoNewlines(p)
    ensures AllLack(BlockLines(p))
  {
    var h := "## " + p.name;
    HeadingLacks(p.name);
    PartsLack(p);
    PartsLinesLack(Parts(p));
    AllLackConcat(["", h], PartsLines(Parts(p)));
    AllLackConcat(["", h] + PartsLines(Parts(p)), ["      "]);
  }

  /** Reading a copied block back line by line gives, in order, the heading, the five
      labelled sections with one line per item ("• None" for no blockers or asks, an empty
      line for any other empty section), and the indentation line. */
  lemma BlockReadsBack(p: ProjectReport)
    requires NoNewlines(p)
    ensures Split(ProjectBlock(p), '\n') == BlockLines(p)
  {
    BlockIsItsLines(p);
    BlockLinesLack(p);
    SplitJoin(BlockLines(p), '\n');
  }

  /** An empty blockers list and a single blocker called "None" are copied alike. */
  lemma NoneIsAmbiguous()
    ensures BulletsOrNone([]) == BulletsOrNone(["None"])
  {
  }

  /** A report of one project copies as that project's block. */
  lemma OneProjectReport(p: ProjectReport)
    ensures ReportText([p]) == ProjectBlock(p)
  {
  }

  /** Two or more projects copy as the first block, the separator and the rest. */
  lemma ReportTextCons(projects: seq<ProjectReport>)
    requires |projects| >= 2
    ensures ReportText(projects) == ProjectBlock(projects[0]) + ProjectSeparator + ReportText(projects[1..])
  {
    assert Map(ProjectBlock, projects)[1..] == Map(ProjectBlock, projects[1..]);
  }

  /** On screen a section is drawn only when it has items. */
  function SectionShown(items: seq<string>): (b: bool)
    ensures !b <==> ItemLines(items) == [""]
    ensures !b ==> ItemLinesOrNone(items) == [NoneLine]
  {
    if |items| > 0 then
      assert ItemLines(items)[0] == BulletLine(items[0]);
      true
    else false
  }

  /** The header's actions, left to right: an Edit button, then the Export menu. */
  function HeaderActions(status: ReportStatus): (r: seq<string>)
    ensures 1 <= |r| <= 2 && r[|r| - 1] == "Export"
    ensures |r| == 2 <==> status == Draft
  {
    (if status == Draft then ["Edit"] else []) + ["Export"]
  }

  /** The Edit button is shown for draft reports only; a final report offers only Export. */
  function ShowsEdit(status: ReportStatus): (b: bool)
    ensures b <==> "Edit" in HeaderActions(status)
    ensures !b <==> HeaderActions(status) == ["Export"]
  {
    status == Draft
  }
}
